=== FILE: README.md ===
# BIS debt data engine, modelled in Dafny

The debt charts of this repository read their numbers from `data.json`. Three
Node scripts build that file from the Bank for International Settlements (BIS)
"total credit" statistics and from World Bank population figures:

- `fetch-data.js` reads the BIS spreadsheet.
- `fetch-data.cjs` reads the newer BIS CSV export, and falls back to the
  spreadsheet reader.
- `fetch-bis-debt-data.js` is the older script that reads the spreadsheet
  through a 1-based reader.

This project models the data engine those scripts share:

- reading a sheet and finding each country's series by header phrases;
- `removeBlankValues`, in its two variants;
- the derived series of `getCountry` (`gdp`, `credit`, `keenGrowth`, …), in its
  three variants: spreadsheet, guarded CSV and legacy;
- grouping CSV records by country and mapping them to series;
- expanding yearly population to quarters, and joining population into the
  country records;
- the colour cycle of `getColor` in `src/chartUtil.js`.

The model is split into modules:

| module | what it holds |
|---|---|
| `Values` | a number that may be null (`Option<real>`) and a series |
| `Records` | a country record as a map from metric key to null or array |
| `Text` | trimming, the country part of a header, and sorting |
| `Grid` | worksheet cells, header search and column reads |
| `Combinators` | `diff`, `combine` and `expandValues` |
| `Pruning` | `removeBlankValues` and payload-to-record conversion |
| `Derived` | the assignment sequences of `getCountry` |
| `Spreadsheet` | `getCountryData`, `getCountry` and `getDebtByCountry` |
| `LegacyScript` | the same for `fetch-bis-debt-data.js` |
| `CsvExport` | `getDebtByCountryCsv` |
| `PopulationJoin` | `getPopulationByCountry` and `addPopulation` |
| `ChartColors` | `getColor` |

Loops in the source are methods with loop invariants. Each method is proved
equal to a specification function, and the properties are lemmas about those
functions. `getColor`'s module-level list is the field of a class.

## Model

| member | source | states |
|---|---|---|
| Values.At | fetch-data.js:104-109 | reading a series past its end gives a missing value, as `_.zip` pads the shorter list with `undefined` |
| Values.Range | fetch-data.js:158 | lodash `_.range(start, end)` counts up from start to end - 1, and down from start to end + 1 when end lies below start |
| Values.ZeroToNull | fetch-data.js:132-135 | the result is never 0, and any value other than 0 is kept |
| Values.Constant | fetch-data.js:304 | `_.map(r.times, t => 100)`: n entries, every one 100 |
| Text.TrimStart | fetch-data.js:330 | the result is a suffix of the input, does not start with whitespace, and everything cut off is whitespace |
| Text.TrimEnd | fetch-data.js:330 | the result is a prefix of the input, does not end with whitespace, and everything cut off is whitespace |
| Text.Trim | fetch-data.js:330 | definition: `_.trim`, whitespace cut from the end and then from the start |
| Text.TrimSlice | fetch-data.js:330 | `_.trim` returns a slice of its input with only whitespace on either side, and neither end of the result is whitespace |
| Text.BeforeDash | fetch-data.js:330 | `c.split('-')[0]` is a prefix with no dash, ending where the first dash is or at the end of the string |
| Text.CountryPart | fetch-data.js:330 | definition: `_.trim(c.split('-')[0])`, the trimmed text before the first dash of a header |
| Text.SortedUnique | fetch-data.js:332 | `_.sortBy(_.uniq(xs))` is strictly ascending and holds exactly the strings of xs |
| Text.SortedListUnique | fetch-data.js:332 | two strictly ascending lists with the same elements are equal, so the sorted country list is fully determined |
| Text.Insert | fetch-data.js:332 | inserting into a strictly ascending list keeps it strictly ascending and adds exactly x |
| Text.Less | fetch-data.js:332 | definition: the order `_.sortBy` gives strings, lexicographic by character, a proper prefix first |
| Text.LessTotal | fetch-data.js:332 | the string order is total: any two different strings are ordered one way or the other |
| Text.Uniq | fetch-data.cjs:151 | `_.uniq` has no repeats, holds exactly the strings of its input, and lists them in the order of their first occurrence |
| Text.FirstIndex | fetch-data.cjs:151 | the first position of a string in a list: it is there, and at no earlier position |
| Grid.BlankNeverMatches | fetch-data.js:147-155 | with at least one phrase, a blank header cell matches nothing |
| Grid.FindFrom | fetch-data.js:147-155 | `findIColInHeader` returns the first column whose row-0 cell contains every phrase, and null only when no column does |
| Grid.GetCell | fetch-data.js:28-34 | definition: the cell at a 0-based (column, row), null where the sheet holds none |
| Grid.LegacyCell | fetch-bis-debt-data.js:82-84 | definition: the legacy `getCell`, 1-based in both coordinates, so row or column 0 reads as null |
| Grid.FindIColInHeader | fetch-data.js:147-155 | definition: the scan of `Grid.FindFrom` from column 0 |
| Grid.LegacyFindFrom | fetch-bis-debt-data.js:90-98 | the legacy search returns the first 1-based column whose row-1 cell contains every phrase, and null only when none does |
| Grid.LegacyFindIColInHeader | fetch-bis-debt-data.js:90-98 | definition: the legacy scan of `Grid.LegacyFindFrom` from 1-based column 1 |
| Grid.LegacyFindIsShifted | fetch-bis-debt-data.js:90-98 | the legacy search finds the same header as the 0-based search, one column further along |
| Grid.ColValues | fetch-data.js:157-159 | `getColValues` reads the rows of `_.range(4, nRow)`: nRow - 4 entries, entry k the cell in row k + 4; a sheet of fewer than 4 rows gives 4 - nRow entries, entry k the cell in row 4 - k |
| Grid.ShortSheetBlank | fetch-data.js:157-159 | a sheet of fewer than 4 rows with no cell outside its extent gives 4 - nRow values, all null |
| Grid.LegacyColValues | fetch-bis-debt-data.js:100-104 | the legacy `getColValues` over `_.range(5, nRow + 1)` has one entry per data row of the sheet |
| Grid.LegacyColValuesShift | fetch-bis-debt-data.js:100-104 | the legacy column read of 1-based column c + 1 over `_.range(5, nRow + 1)` equals the 0-based read of column c, for short sheets too |
| Grid.Headers | fetch-data.js:143-145 | `getHeaders` reads `_.range(1, nCol)`: one cell per column except the first, entry k being the row-0 cell of column k + 1; a sheet of no columns gives the one cell of column 1 |
| Grid.LegacyHeaders | fetch-bis-debt-data.js:86-88 | the legacy `getHeaders` over `_.range(2, nCol + 1)` has nCol - 1 entries, or one entry for nCol = 0 |
| Grid.LegacyHeadersSame | fetch-bis-debt-data.js:86-88 | the legacy headers (row 1 over `_.range(2, nCol + 1)`, 1-based) are the same cells as the newer headers |
| Grid.NoColumnsHeaderThrows | fetch-bis-debt-data.js:86-88 | a sheet of no columns still has one header, the blank cell of column 1, so splitting the headers into countries throws |
| Grid.CountryParts | fetch-data.js:330 | the country list exists exactly when every header is a string, and then entry k is the trimmed text before the first dash of header k |
| Grid.Raw | fetch-data.js:266 | an unscaled cell is a number exactly when the sheet holds a number there |
| Grid.Billions | fetch-data.js:163 | `d * 1e9`: a number is scaled by 1e9, and a blank cell becomes 0, not null |
| Grid.DecimalTime | fetch-data.js:80-83 | a time exists exactly for a date cell |
| Grid.QuarterEndTime | fetch-data.js:80-83 | a date in the last month of quarter q of a year gets the time year + (q - 1) / 4 |
| Combinators.Differences | fetch-data.js:85-97 | `diff` has n entries, and `[0, null]` for an empty array (the loop runs over `_.range(1, 0)`, which is `[1]`) |
| Combinators.DifferencesHead | fetch-data.js:89 | `diff` always starts with 0 |
| Combinators.DifferencesAt | fetch-data.js:90-95 | entry i >= 1 of `diff` is built from entries i - 1 and i of the input alone |
| Combinators.DifferencesEntries | fetch-data.js:85-97 | entry 0 is 0; entry i is null exactly when entry i - 1 or entry i of the input is, and otherwise it is their difference; for an empty input entry 1 is null |
| Combinators.DiffOf | fetch-data.js:85-97 | `diff(null)` is null, and otherwise the result has n entries, or 2 for an empty array |
| Combinators.Diff | fetch-data.js:85-97 | the loop over `_.range(1, values.length)` computes `DiffOf` |
| Combinators.CombineOf | fetch-data.js:99-111 | `combine` is null exactly when one of its lists is |
| Combinators.CombineOfEntries | fetch-data.js:99-111 | the result is as long as the longer list; an entry is null where either input is missing, and otherwise it is the operation applied to both |
| Combinators.Combine | fetch-data.js:99-111 | the loop over `_.zip` computes `CombineOf` |
| Combinators.Apply | fetch-data.js:289-323 | definition: the four element functions the scripts pass to `combine`: a + b, a - b, (a / b) * 100 and a / b |
| Combinators.SumNullIff | fetch-data.js:311-318 | for a sum or a difference, an entry is null exactly when one of its inputs is missing |
| Combinators.PercentOfZeroFree | fetch-data.js:294-298 | `(a / b) * 100` over series without zeros has no zeros, and is null exactly where an input is missing |
| Combinators.Expanded | fetch-data.js:45-58 | `expandValues(aList, n)` has n × (length - 1) entries, and none for fewer than two points |
| Combinators.ExpandedEntry | fetch-data.js:45-58 | entry i·n + j is `y + (yNext - y) × j / n` for the points i and i + 1 |
| Combinators.ExpandedKeepsPoints | fetch-data.js:45-58 | every input point except the last reappears at position i·n |
| Combinators.ExpandValues | fetch-data.js:45-58 | the nested loops compute `Expanded` |
| Pruning.KeptRowsExactly | fetch-data.js:122-138 | the kept rows are ascending, below n, and are exactly the rows the rule does not drop |
| Pruning.PrunedUpToShape | fetch-data.js:113-140 | every key is kept in order; each array has one entry per kept row; the entry is the cleaned input value at that row |
| Pruning.BlankRow | fetch-data.js:121-131 | definition: the canonical drop test, every key but the last (`_.dropRight(keys)`) null or 0 at the row |
| Pruning.AnyNullRow | fetch-bis-debt-data.js:46-53 | definition: the legacy drop test, some key, `times` included, null at the row |
| Pruning.KeptRows | fetch-data.js:121-139 | definition: the rows below n the loop does not skip, in visiting order |
| Pruning.Pruned | fetch-data.js:113-140 | definition: `removeBlankValues` under a rule, every key holding its cleaned values at the kept rows |
| Pruning.RemoveBlankValues | fetch-data.js:113-140 | the loop computes the canonical pruning |
| Pruning.RemoveBlankValuesLegacy | fetch-bis-debt-data.js:39-60 | the loop computes the legacy pruning |
| Pruning.CanonicalPruning | fetch-data.js:113-140 | a row is kept exactly when some key other than the last is neither null nor 0 there; kept rows keep their order, all arrays have the same length, and no 0 remains |
| Pruning.CanonicalValues | fetch-data.js:131-137 | the m-th kept value of a key is its input value at the m-th kept row, with 0 turned into null |
| Pruning.PrunedRecordAt | fetch-data.js:131-137 | read through the record, key i's m-th value after pruning is its value at the m-th kept row, with 0 as null |
| Pruning.TimesOnlyDropsEverything | fetch-data.js:121-130 | a payload holding only `times` loses every row, since `_.every` over no keys is true |
| Pruning.LegacyPruning | fetch-bis-debt-data.js:39-60 | a row is kept exactly when no key, `times` included, is null there; values are copied unchanged and no null remains |
| Pruning.ToRecordContents | fetch-data.js:116-118 | every payload key is a record key, and every record key holds the array of a payload column with that key |
| Pruning.ToRecordSnoc | fetch-data.js:116-118 | adding a column to the payload sets that key of the record |
| Pruning.ToRecordKeys | fetch-data.js:116-118 | a key is in the record exactly when some payload column has it |
| Pruning.PrunedKeys | fetch-data.js:114-118 | pruning keeps the keys, in order |
| Pruning.ToRecordAt | fetch-data.js:116-118 | with distinct keys, every column's array is what the record holds under its key |
| Pruning.ToRecordAligned | fetch-data.js:113-140 | a payload with `times` and arrays of one length gives an aligned record, which is zero-free when the arrays are |
| Pruning.PrunedRecord | fetch-data.js:113-140 | the canonical pruning of a payload ending in `times` gives an aligned record with no zeros |
| Pruning.LegacyPrunedRecord | fetch-bis-debt-data.js:39-60 | the legacy pruning of a payload ending in `times` gives an aligned record with no nulls |
| Derived.StoreCombine | fetch-data.js:289-293 | `r.k = combine(r.a, r.b, fn)` stores the combination, or null |
| Derived.StoreDiff | fetch-data.js:310 | `r.k = diff(r.a)` stores the differences, or null |
| Derived.StoreCombineWhen | fetch-data.cjs:555-561 | `if (r.a && r.b) r.k = combine(…)`: the key is written only when both inputs are arrays |
| Derived.StoreDiffWhen | fetch-data.cjs:586-588 | `if (r.a) r.k = diff(r.a)`: the key is written only when the input is an array |
| Derived.AddDerived | fetch-data.js:289-323 | the eleven assignments of `getCountry`, in the source's order |
| Derived.ApplyUsdFallback | fetch-data.cjs:543-552 | a missing domestic series is filled from the US-dollar series |
| Derived.WithUsdFallback | fetch-data.cjs:543-552 | definition: each missing domestic series of private, household and public debt set to its US-dollar series |
| Derived.CsvDerived | fetch-data.cjs:543-611 | definition: the US-dollar fallback, then the guarded assignments |
| Derived.AddGuardedDerived | fetch-data.cjs:554-611 | the eleven guarded assignments of the CSV path |
| Derived.AddCsvDerived | fetch-data.cjs:543-611 | the US-dollar fallback followed by the guarded assignments |
| Derived.AddLegacyDerived | fetch-bis-debt-data.js:172-215 | the twelve assignments of the legacy `getCountry` |
| Derived.WithDerived | fetch-data.js:289-323 | definition: the spreadsheet path's assignments run over a record |
| Derived.WithGuardedDerived | fetch-data.cjs:554-611 | definition: the CSV path's guarded assignments run over a record |
| Derived.WithLegacyDerived | fetch-bis-debt-data.js:172-215 | definition: the legacy script's assignments run over a record |
| Derived.Run | fetch-data.js:289-323 | definition: the record after the first n assignments of a path, one after the other |
| Derived.FormulaOf | fetch-data.js:289-323 | definition: what each key should hold, as a formula over the pruned record, for each of the three paths |
| Derived.StepOf | fetch-data.js:289-323 | the step that writes a key, if any, writes that key |
| Derived.DerivedFormulas | fetch-data.js:289-323 | after the assignments, every key reads as its formula over the pruned record: no array is read before it is set or after an input changes. On the CSV path this needs a record with no derived key yet |
| Derived.RunAligned | fetch-data.js:289-323 | the assignments keep the record aligned and leave `times` unchanged |
| Derived.GdpDivisorsNonZero | fetch-data.js:294-309 | `gdp` has no zeros and is null exactly where `privateDebt` or its percentage is; `commercialDebtPercent` is null exactly where `commercialDebt` or `gdp` is |
| Derived.CsvGdpDivisorsNonZero | fetch-data.cjs:562-582 | on the CSV path after the zero rewrite, `gdp` and `gdpUsd` hold no zeros where present; `commercialDebtPercent` exists exactly when `commercialDebt` and `gdp` do and is null exactly where one of them is |
| Derived.CsvGdpDivisorsFrom | fetch-data.cjs:562-582 | the same for any zero-free aligned record that reads as the CSV formulas |
| Derived.KeenGrowthIsSumOfChanges | fetch-data.js:310-318 | where gdp and private debt are known at two consecutive points, `keenGrowth` is the change in gdp plus the change in private debt |
| Derived.KeenGrowthEntry | fetch-data.js:310-318 | entry i of `combine(diff(gdp), diff(privateDebt), +)` is the change of gdp plus the change of private debt at i |
| Derived.UsdFallback | fetch-data.cjs:543-552 | a domestic key exists afterwards exactly when it or its US-dollar key existed; a missing one is copied from US dollars; nothing else changes |
| Derived.UsdFallbackAligned | fetch-data.cjs:543-552 | the fallback keeps the record aligned |
| Derived.GuardedGdp | fetch-data.cjs:562-578 | `gdp` is set exactly when private debt and its percentage exist; `gdpUsd` exactly when the dollar series and the percentage exist; `gdpPercent` exactly when one of them is set, and it is then 100 at every point |
| Derived.CsvDerivedShape | fetch-data.cjs:543-611 | the CSV post-processing keeps the record aligned; `gdp` exists exactly when private debt (domestic or in dollars) and its percentage exist |
| Derived.PercentRoundTrip | fetch-bis-debt-data.js:177-202 | recomputing a percentage from the gdp it produced gives the percentage back |
| Derived.LegacyPercentRecomputed | fetch-bis-debt-data.js:177-202 | the legacy `privateDebtPercent`, recomputed through gdp, equals the input wherever both inputs are non-zero, and is null where private debt is 0 |
| Spreadsheet.PatternsExtractionKeys | fetch-data.js:164-252 | nine patterns with distinct raw keys; exactly the non-percentage ones are scaled to billions |
| Spreadsheet.Patterns | fetch-data.js:164-252 | definition: the table of header phrases, with the key each fills and whether it goes through `toBillions` |
| Spreadsheet.Convert | fetch-data.js:260-267 | definition: a cell through `toBillions` for a scaled pattern, copied for the others |
| Spreadsheet.ExtractColumn | fetch-data.js:260-267 | an extracted column has one entry per data row |
| Spreadsheet.ColumnFor | fetch-data.js:253-269 | a found column has one entry per data row |
| Spreadsheet.TimesColumn | fetch-data.js:270 | the time column has one entry per data row |
| Spreadsheet.ExtractedKeys | fetch-data.js:253-269 | the extracted keys are distinct, and each column is what its pattern found |
| Spreadsheet.ExtractedRecord | fetch-data.js:253-269 | every pattern's key reads as the column its header search found, or is absent when none matched |
| Spreadsheet.GetCountryData | fetch-data.js:161-273 | the loop over the patterns computes the pruned payload |
| Spreadsheet.ExtractedWithTimes | fetch-data.js:253-270 | the extracted columns plus `times` give an aligned record with one time point per row, `times` last and each pattern's column under its key |
| Spreadsheet.RawPayloadShape | fetch-data.js:253-270 | the raw payload has distinct raw keys, `times` last, and one entry per data row in each column |
| Spreadsheet.RawRecord | fetch-data.js:253-270 | the raw record is aligned with one time point per data row, and every key reads as its header search found it |
| Spreadsheet.BaseRecordAligned | fetch-data.js:271 | the pruned record is aligned and has no zeros |
| Spreadsheet.BaseRecordKeys | fetch-data.js:271 | pruning keeps exactly the keys present before it, and adds no derived key |
| Spreadsheet.BaseTimeCount | fetch-data.js:271 | the pruned record has one time point per kept row |
| Spreadsheet.BaseRecordShape | fetch-data.js:161-273 | the pruned record is aligned and zero-free, has one time point per kept row, and holds a pattern's key exactly when its header was found |
| Spreadsheet.BaseRecordValues | fetch-data.js:161-273 | the m-th value of a found key is the sheet's value at the m-th kept row, with 0 turned into null |
| Spreadsheet.GetCountry | fetch-data.js:284-325 | computes the country record: `{}` when no time point is left, otherwise the derived record |
| Spreadsheet.CountryRecordShape | fetch-data.js:284-325 | the record is `{}` exactly when pruning left no time point; otherwise it is aligned on the same times, has every derived key, and every key reads as its formula |
| Spreadsheet.CountryRecord | fetch-data.js:284-325 | definition: `{}` for an empty time axis, otherwise the base record with the derived keys |
| Spreadsheet.DebtFromContents | fetch-data.js:332-339 | the result maps exactly the listed names that have an entry, each to its entry |
| Spreadsheet.DebtKeys | fetch-data.js:332-339 | the key order of the object built: no repeats, exactly the listed names that have an entry, in the order of their first listing |
| Spreadsheet.DebtStep | fetch-data.js:332-339 | one pass of the loop: the name is stored unless skipped, and appended to the keys unless skipped or already a key, since assigning an existing key keeps its place |
| Spreadsheet.DebtKeysOfResult | fetch-data.js:332-339 | the object's keys are exactly the keys of the result |
| Spreadsheet.SortedDebtKeys | fetch-data.js:332-339 | over a strictly sorted list the keys come out strictly sorted |
| Spreadsheet.AllDebtKeys | fetch-data.cjs:620-627 | when no name repeats and none is skipped, the keys are the list itself |
| Spreadsheet.SetKey | fetch-data.js:336 | definition of JavaScript's `result[c] = x`: the value is set, a new key goes last and an existing key keeps its place |
| Spreadsheet.FillDebt | fetch-data.js:332-339 | the loop over the names computes `DebtFrom` and the key order `DebtKeys` |
| Spreadsheet.SkippingEmptyContents | fetch-data.js:332-339 | skipping `{}` keeps exactly the names whose record is not `{}` |
| Spreadsheet.KeepingAllContents | fetch-data.cjs:620-627 | keeping every result maps every name to its record |
| Spreadsheet.GetDebtByCountry | fetch-data.js:328-341 | computes `DebtByCountry` and its key order `DebtByCountryKeys` |
| Spreadsheet.DebtByCountry | fetch-data.js:328-341 | definition: null when a header is not a string, otherwise the map from each country with a non-empty record to that record; the key order is `DebtByCountryKeys` |
| Spreadsheet.DebtByCountryKeys | fetch-data.js:328-341 | definition: the key order of the object, `DebtKeys` over the sorted distinct countries |
| Spreadsheet.DebtByCountryUnsorted | fetch-data.cjs:620-627 | definition: null when a header is not a string, otherwise the map from every `_.uniq` header country to its record, `{}` included |
| Spreadsheet.DebtByCountryUnsortedKeys | fetch-data.cjs:620-627 | definition: the key order of the object, `DebtKeys` over the `_.uniq` header countries |
| Spreadsheet.GetDebtByCountryUnsorted | fetch-data.cjs:620-627 | computes `DebtByCountryUnsorted` and its key order `DebtByCountryUnsortedKeys` |
| Spreadsheet.DebtByCountryContents | fetch-data.js:328-341 | the run succeeds exactly when every header is a string, and then it maps exactly the header countries whose record is not `{}` to their records, its keys in strictly ascending order |
| Spreadsheet.DebtByCountryUnsortedContents | fetch-data.cjs:620-627 | the `.cjs` spreadsheet run over the countries of `getCountries` (fetch-data.cjs:149-152) maps every header country to its record, `{}` included, its keys in the `_.uniq` order of the header countries |
| LegacyScript.LegacyPatternsAmongNine | fetch-bis-debt-data.js:109-149 | four patterns with distinct keys, each also a pattern of the newer scripts, none in US dollars |
| LegacyScript.LegacyExtractColumn | fetch-bis-debt-data.js:155-159 | an extracted legacy column has one entry per data row |
| LegacyScript.LegacyTimesColumn | fetch-bis-debt-data.js:162 | the legacy time column has one entry per data row |
| LegacyScript.LegacyGetCountryData | fetch-bis-debt-data.js:106-165 | the loop computes the legacy pruned payload |
| LegacyScript.LegacyReadsSameColumns | fetch-bis-debt-data.js:90-104 | each legacy pattern extracts the same column as the newer reader, and the time column matches too |
| LegacyScript.LegacyRawPayloadShape | fetch-bis-debt-data.js:150-162 | the legacy raw payload has distinct keys, `times` last |
| LegacyScript.LegacyBaseShape | fetch-bis-debt-data.js:163 | the pruned legacy record is aligned, has no null, and has one time point per kept row |
| LegacyScript.LegacyGetCountry | fetch-bis-debt-data.js:167-217 | computes the legacy country record |
| LegacyScript.LegacyCountryRecordShape | fetch-bis-debt-data.js:167-217 | the record is `{}` exactly when no row survived; otherwise it is aligned on the same times and every key reads as the legacy formulas |
| LegacyScript.LegacyCountryRecord | fetch-bis-debt-data.js:167-217 | definition: `{}` for an empty time axis, otherwise the base record with the legacy derived keys |
| LegacyScript.LegacyDebtByCountry | fetch-bis-debt-data.js:231-240 | definition: null when a header is not a string, otherwise the map from each sorted distinct country with a non-empty legacy record to that record |
| LegacyScript.LegacyDebtByCountryKeys | fetch-bis-debt-data.js:231-240 | definition: the key order of the object, `DebtKeys` over the sorted distinct countries |
| LegacyScript.LegacyRun | fetch-bis-debt-data.js:227-243 | the loop computes `LegacyDebtByCountry` and its key order `LegacyDebtByCountryKeys` |
| LegacyScript.LegacyDebtByCountryContents | fetch-bis-debt-data.js:231-240 | the legacy country list is the newer one; the run maps exactly the countries whose legacy record is not `{}` to those records, its keys in strictly ascending order |
| CsvExport.AddRow | fetch-data.cjs:364-382 | definition: one pass of the grouping loop; an empty country is skipped, a new country is listed last, and a known key is not stored again |
| CsvExport.Grouped | fetch-data.cjs:356-383 | definition: the grouping after every record, keyed by `KeyOf` |
| CsvExport.GroupByCountry | fetch-data.cjs:356-383 | the grouping loop computes `Grouped` |
| CsvExport.AddRowStep | fetch-data.cjs:364-382 | one record only adds: a new country starts with the record's entry, and an existing one grows only by a key it lacked |
| CsvExport.GroupedCountries | fetch-data.cjs:356-386 | the country list has no repeats, lists exactly the grouped countries, which are exactly the non-empty countries some record names, and none is without an entry |
| CsvExport.GroupedComplete | fetch-data.cjs:364-382 | no record with a country is lost: its key is among its country's entries |
| CsvExport.GroupedKeysDistinct | fetch-data.cjs:373-382 | the keys of a country's entries are pairwise distinct |
| CsvExport.GroupedFirstWins | fetch-data.cjs:373-382 | each entry holds the first record with its country and key |
| CsvExport.KeyOf | fetch-data.cjs:371 | definition: the five descriptive fields joined by a vertical bar |
| CsvExport.QuarterCodeRoundTrip | fetch-data.cjs:526-536 | a quarter code `YYYY-Qq` built from a year and quarter parses back to them, and its time is year + (q - 1) / 4 |
| CsvExport.QuarterTime | fetch-data.cjs:531-536 | definition: year + (quarter - 1) / 4 of a `YYYY-Qn` code |
| CsvExport.IsQuarterCode | fetch-data.cjs:426 | definition: `/^\d{4}-Q[1-4]$/`, four digits, `-Q` and a quarter 1 to 4 |
| CsvExport.QuarterCodeOf | fetch-data.cjs:426 | every string the pattern accepts is the code of its own year and quarter |
| CsvExport.QuarterTimeInjective | fetch-data.cjs:531-536 | two quarter codes with the same time are the same code |
| CsvExport.QuarterFilterContents | fetch-data.cjs:525-529 | the filter keeps exactly the quarter columns, and keeps a list without repeats free of repeats |
| CsvExport.QuarterColumns | fetch-data.cjs:522-529 | definition: the keys of the first record, each once and in header order, that match the quarter pattern |
| CsvExport.QuarterColumnsContents | fetch-data.cjs:525-529 | the quarter columns of a header have no repeats and are exactly its quarter codes |
| CsvExport.QuarterTimes | fetch-data.cjs:531-535 | `countryResult.times` has one entry per quarter column |
| CsvExport.QuarterTimesDistinct | fetch-data.cjs:531-536 | the time axis has no null and no time twice |
| CsvExport.MetricForKinds | fetch-data.cjs:433-518 | a record maps to a key only when it is market value adjusted for breaks; the key is never derived; it is a percentage key exactly when the measure is `Per cent` |
| CsvExport.MetricFor | fetch-data.cjs:433-518 | definition: the record key a series maps to, by its sector, measure, unit and currency fields |
| CsvExport.MetricForDomestic | fetch-data.cjs:451-517 | a public or household series in any other unit is domestic debt; a private one is domestic debt exactly when its currency is listed |
| CsvExport.SeriesOf | fetch-data.cjs:439-442 | a series has one entry per quarter column |
| CsvExport.FieldValue | fetch-data.cjs:439-442 | definition: an empty field is null; otherwise `parseFloat`, times 1e9 for scaled metrics |
| CsvExport.MappedUpTo | fetch-data.cjs:404-519 | definition: the mapped series of a country, each key set by its first record that maps to it |
| CsvExport.MappedShape | fetch-data.cjs:404-519 | the mapped payload has distinct raw keys and one entry per quarter column in each |
| CsvExport.MappedKeys | fetch-data.cjs:404-519 | a key is set exactly when some entry of the country maps to it |
| CsvExport.MappedFirstWins | fetch-data.cjs:438-443 | each key holds the series of the first entry mapped to it: per cent unscaled, the rest times 1e9 |
| CsvExport.MetricForRaw | fetch-data.cjs:433-518 | the mapping only produces raw keys |
| CsvExport.CsvPayload | fetch-data.cjs:404-537 | definition: the mapped series, then `times` from the quarter columns |
| CsvExport.CsvPayloadShape | fetch-data.cjs:404-537 | a country's payload has distinct keys, `times` last, no derived key, and one entry per quarter column in each |
| CsvExport.BlankCountryMisaligned | fetch-data.cjs:540-613 | as written: a country whose one row is blank passes the test before pruning and is stored misaligned; the corrected finish skips it |
| CsvExport.FinishAsWritten | fetch-data.cjs:540-613 | definition: the finish as written, testing the time axis before `removeBlankValues` |
| CsvExport.FinishCountry | fetch-data.cjs:540-613 | definition: the corrected finish, testing the time axis after `removeBlankValues` |
| CsvExport.EmptyAxisMisaligned | fetch-data.cjs:599-601 | with an empty time axis and a private debt array, `credit` is `[0, null]`, so the record is not aligned |
| CsvExport.FinishCountryShape | fetch-data.cjs:539-614 | corrected: a country is stored exactly when a time point survives pruning; it is then aligned on those times, with `gdp` exactly when private debt and its percentage exist, and with the divisors of `CsvGdpDivisorsNonZero` never zero |
| CsvExport.CsvCountry | fetch-data.cjs:386-614 | computes one country's record with the corrected finish |
| CsvExport.CsvEntry | fetch-data.cjs:386-614 | definition: a grouped country's finished record, none when it is not stored |
| CsvExport.CountryEntry | fetch-data.cjs:386-614 | computes one country's entry |
| CsvExport.FillCsvDebt | fetch-data.cjs:386-614 | the loop over the grouped countries computes `DebtFrom` over them and its key order `DebtKeys` |
| CsvExport.GetDebtByCountryCsv | fetch-data.cjs:344-618 | the loop over the grouped countries computes `DebtByCountryCsv` and its key order `DebtByCountryCsvKeys` |
| CsvExport.DebtByCountryCsvKeys | fetch-data.cjs:386-614 | definition: the key order of the object, `DebtKeys` over the grouped countries |
| CsvExport.DebtByCountryCsv | fetch-data.cjs:344-618 | definition: the records of the grouped countries, each through the corrected finish |
| CsvExport.DebtByCountryCsvContents | fetch-data.cjs:344-618 | the result holds exactly the grouped countries whose record is stored, each aligned with at least one time point; its keys are exactly those countries, in the order they first appear in the records |
| PopulationJoin.Coerced | fetch-data.js:50-54 | a row read as numbers keeps its length |
| PopulationJoin.StoredLastWins | fetch-data.js:71-75 | a loop that stores by key holds exactly the keys seen, and the last value wins for a repeated key |
| PopulationJoin.ExpandedRows | fetch-data.js:71-75 | one expanded row per country |
| PopulationJoin.GetPopulationByCountry | fetch-data.js:66-78 | the loop computes the population object |
| PopulationJoin.PopulationByCountry | fetch-data.js:66-78 | definition: each country's expanded row, and `times` the expanded years |
| PopulationJoin.PopulationContents | fetch-data.js:66-78 | the object holds `times` and every country; `times` is the expanded years, and each country's entry is its last row expanded to quarters |
| PopulationJoin.ExpandedYears | fetch-data.js:76 | for consecutive years, entry 4i + j of the expanded years is year + j / 4 |
| PopulationJoin.PopulationTimesOnQuarterGrid | fetch-data.js:76 | the population times are the CSV quarter times `YYYY-Q(j+1)` of each year |
| PopulationJoin.PopValues | fetch-data.js:355-358 | one population value per population time |
| PopulationJoin.PopulationAt | fetch-data.js:361 | definition: `popByTime[t]`, the value stored under exactly that time, null otherwise |
| PopulationJoin.PopulationSeries | fetch-data.js:359-362 | one population value per time point of the country |
| PopulationJoin.PopulationSeriesEntries | fetch-data.js:352-362 | entry k is the population at the last index whose time equals the country's time k, and null when no time does |
| PopulationJoin.AddCountryPopulation | fetch-data.js:352-373 | the loops and assignments for one country compute `WithPopulation` |
| PopulationJoin.WithPopulationShape | fetch-data.js:359-373 | the join keeps the record aligned; it sets `population` and the three per-capita series from gdp and population, and changes nothing else |
| PopulationJoin.WithPopulation | fetch-data.js:359-373 | definition: a record with `population`, `gdpPerCapita`, `gdpChangePerCapita` and `gdpPerCapitaUsd` set |
| PopulationJoin.Throws | fetch-data.js:349-360 | definition: the join throws for a country with population when the population object has no `times` or the record no `times` array |
| PopulationJoin.Joined | fetch-data.js:347-373 | definition: a country with population gets `WithPopulation`, any other is left as it is |
| PopulationJoin.JoinCountry | fetch-data.js:347-374 | one pass fails exactly when the country has population but there is no `times` to iterate |
| PopulationJoin.AddPopulation | fetch-data.js:343-375 | the loop over the countries computes `AddedPopulation` |
| PopulationJoin.AddedPopulation | fetch-data.js:343-375 | definition: null when some country throws, otherwise every record joined |
| PopulationJoin.AddedPopulationKeepsAligned | fetch-data.js:343-375 | with population times and aligned non-empty records, the join succeeds, keeps the countries, keeps every record aligned on its times, and leaves countries without population untouched |
| PopulationJoin.EmptyRecordThrows | fetch-data.cjs:645-648 | a `{}` record of a country with population makes the join fail |
| PopulationJoin.UnsortedEmptyRecordThrows | fetch-data.cjs:620-660 | as written: a header country whose `.cjs` spreadsheet record is `{}` makes the join fail |
| PopulationJoin.NoDataRowsEmpty | fetch-data.js:284-288 | a sheet with no data rows gives every country `{}` |
| PopulationJoin.HeaderOnlySheetThrows | fetch-data.cjs:620-660 | as written: on a sheet with headers but no data rows, the `.cjs` spreadsheet run keeps `{}` records and the join fails, while the `.js` run gives an empty map |
| PopulationJoin.SkippedEmptyRecordsJoin | fetch-data.js:328-375 | corrected: when `{}` records are skipped, the join always succeeds if population has `times`, and every record stays aligned |
| ChartColors.IndexOf | src/chartUtil.js:58 | `indexOf` gives the first position of the name, and -1 exactly when the name is absent |
| ChartColors.ColorOf | src/chartUtil.js:63 | definition: `colors[i % colors.length]` for the first position i of a seen name |
| ChartColors.Palette.constructor | src/chartUtil.js:55 | the list of seen names starts empty |
| ChartColors.Palette.GetColor | src/chartUtil.js:57-64 | a new name is appended and a known one leaves the list unchanged; the list stays free of repeats; the colour is the one at the name's position modulo fifteen |
| ChartColors.IndexOfAppended | src/chartUtil.js:59-62 | a name appended to a list without it is found at the last index |
| ChartColors.ColorStable | src/chartUtil.js:57-64 | later calls never move a seen name, so its colour never changes |
| ChartColors.IndexOfDistinct | src/chartUtil.js:58 | in a list without repeats, the name at position i is found at i |
| ChartColors.ColorsDistinct | src/chartUtil.js:38-54 | the fifteen colours are pairwise different |
| ChartColors.ColorsCycle | src/chartUtil.js:57-64 | the first fifteen names get fifteen different colours, and the name at position i + 15 reuses the colour of the name at i |

## Left out

- Network downloads, file reading and writing, zip extraction, console logging and `JSON.stringify` are left out. The model takes the sheet, the CSV records and the population object as values.
- XLSX, ExcelJS and CSV parsing are not modelled. A sheet is a map from (column, row) to a cell: blank, number, string or date. A CSV record is a map from column name to string.
- `parseFloat` is a function parameter. `parseInt` on the year cells is taken as already done: the table holds integer years. Strings that parse to NaN are not modelled.
- The `run` functions are not modelled as a whole. That includes `.cjs` choosing between CSV and spreadsheet, its fallback when the CSV result is empty, and its error handling. Each reader and `addPopulation` are modelled separately.
- Numbers are exact reals, not IEEE doubles, so rounding is not modelled. Division by zero gives a missing value, where JavaScript gives Infinity or NaN. JSON writes null for such a value only where it is stored directly; a later computation on it can give a finite number (see the next line).
- Derived.AddLegacyDerived: the legacy script keeps zeros, so a `privateDebtPercent` of 0 makes JavaScript's `gdp` Infinity. The four percentages recomputed from it (`householdDebtPercent`, `publicDebtPercent`, `commercialDebtPercent`, `privateDebtPercent`) are then 0 (`x / Infinity * 100`), so they, `allDebtPercent` and the `creditPercent` entries next to them are numbers where the model gives null. The model does not carry Infinity through later steps.
- Spreadsheet.DebtKeys: JavaScript lists the integer-like keys of an object (such as `"123"`) first, in numeric order, and only then the others in insertion order. The model keeps insertion order for every key, which matches whenever no country name is an integer-like string.
- The key order inside one country record (`times`, `privateDebt`, …) is not modelled: a record is a map from metric to series. Only the order of the country keys of each result object is.
- Text.Less: strings are compared by code point. JavaScript compares UTF-16 code units, which orders differently only a character above U+FFFF against one in U+E000 to U+FFFF.
- Grid.Billions: a date cell multiplied by 1e9 reads as missing, not as JavaScript's number of milliseconds. A text cell in a data column reads as missing, while `toBillions` gives JavaScript's `NaN`, or a number when the text is numeric (`'12' * 1e9`). `NaN` is not nil, so the source keeps a row that holds it and the model drops it: in the legacy `removeBlankValues` (fetch-bis-debt-data.js:47-53) always, and in the canonical one when every other data key of the row is blank.
- Grid.Raw: a text or date cell in an unscaled column reads as missing. JavaScript copies the string or the date itself (fetch-data.js:266), which is not nil or 0, so both `removeBlankValues` keep its row where the model may drop it.
- Grid.DecimalTime: a blank or non-date time cell gets a missing time, while `convertDateStrToInt` (fetch-bis-debt-data.js:6-9, fetch-data.js:80-83) gives JavaScript's `NaN` for a cell `Date.parse` cannot read. `NaN` is not nil, so the legacy `removeBlankValues` (fetch-bis-debt-data.js:47-53) keeps such a row, while the model's `Rule.Legacy` drops it. The canonical rule does not test `times`, so there both keep the row.
- PopulationJoin.AddPopulation: when the source throws, the model returns `None` for the whole join. It does not model the countries already changed in place before the throw.
- PopulationJoin.PopulationSeries: `popByTime` keys are `String(time)` in JavaScript. The model keys them by the real number, so two times that print alike but differ are not identified.
- PopulationJoin.AddedPopulation: the keys of `dataByCountry` are visited as a set. Their order matters only for which country throws first, and the model does not report that.
- The records are modelled by value. The source updates `countryData` and `r` in place, and nothing else holds references to them, so aliasing is not modelled.
- Chart building other than `getColor` (`buildDataset`, the chart options) is not part of this model. Neither are the country list and `src/main.js`.

## Findings

| source | as written | input that shows it | evidently intended | confidence | as-written member | corrected member |
|---|---|---|---|---|---|---|
| fetch-data.cjs:540-613 | The CSV path tests `countryResult.times.length > 0` before `removeBlankValues`, so a country whose every row is blank is stored. It then has an empty time axis, while `credit = diff(privateDebt)` is `[0, null]`. | A country with one private domestic debt series whose only quarter is empty: payload `{privateDebt: [null], times: [t]}` | Test the time axis after pruning, as `getCountry` of the spreadsheet path does at fetch-data.js:285-288, and skip the country | not executed | CsvExport.FinishAsWritten, CsvExport.BlankCountryMisaligned | CsvExport.FinishCountryShape |
| fetch-data.cjs:620-660 | The `.cjs` spreadsheet `getDebtByCountry` keeps `{}` records. `addPopulation` then iterates `countryData.times` of such a record, which is undefined, and throws. | A sheet of four rows, headers and no data rows, whose header country also has population | Skip `{}` records, as fetch-data.js:334-337 does | not executed | PopulationJoin.HeaderOnlySheetThrows | PopulationJoin.SkippedEmptyRecordsJoin |

=== FILE: combinators.dfy ===
/**
 * The null-propagating series combinators `diff` and `combine`, and the
 * linear interpolation `expandValues`. The three fetch scripts carry
 * identical copies of `diff` and `combine`; `expandValues` is shared by the
 * two newer scripts.
 */
module Combinators {
  import opened Values

  // ---------------------------------------------------------------- diff

  /** Entry i >= 1 of `diff`: null when either neighbour is null. */
  function Step(prev: Value, cur: Value): Value {
    if prev.None? || cur.None? then None else Some(cur.value - prev.value)
  }

  /**
   * The array `diff` builds for a non-null input: it starts with 0 and then
   * pushes one first difference per later entry. For an empty input the
   * loop runs over `_.range(1, 0)`, which is `[1]`, and pushes one null
   * (both neighbours are past the end), so the result is `[0, null]`.
   */
  function Differences(values: Series): (r: Series)
    ensures |r| == if |values| == 0 then 2 else |values|
    decreases |values|
  {
    if |values| == 0 then [Some(0.0), None]
    else if |values| == 1 then [Some(0.0)]
    else Differences(values[..|values| - 1]) + [Step(values[|values| - 2], values[|values| - 1])]
  }

  /** Entry i >= 1 of `diff` is the step from entry i - 1 to entry i of the input. */
  lemma {:induction false} DifferencesAt(values: Series, i: nat)
    requires 1 <= i < |values|
    ensures Differences(values)[i] == Step(values[i - 1], values[i])
    decreases |values|
  {
    var n := |values|;
    var prefix := values[..n - 1];
    assert Differences(values) == Differences(prefix) + [Step(values[n - 2], values[n - 1])];
    if i < n - 1 {
      DifferencesAt(prefix, i);
      assert prefix[i - 1] == values[i - 1] && prefix[i] == values[i];
    }
  }

  /**
   * `diff` starts with 0; entry i >= 1 is null exactly when values[i - 1]
   * or values[i] is, and is otherwise values[i] - values[i - 1]; an empty
   * input gives 0 followed by one null.
   */
  lemma DifferencesEntries(values: Series)
    ensures Differences(values)[0] == Some(0.0)
    ensures |values| == 0 ==> Differences(values)[1].None?
    ensures forall i :: 1 <= i < |values| ==>
              (Differences(values)[i].None? <==> values[i - 1].None? || values[i].None?)
    ensures forall i :: 1 <= i < |values| && values[i - 1].Some? && values[i].Some? ==>
              Differences(values)[i] == Some(values[i].value - values[i - 1].value)
  {
    DifferencesHead(values);
    forall i | 1 <= i < |values|
      ensures Differences(values)[i].None? <==> values[i - 1].None? || values[i].None?
    {
      DifferencesAt(values, i);
    }
    forall i | 1 <= i < |values| && values[i - 1].Some? && values[i].Some?
      ensures Differences(values)[i] == Some(values[i].value - values[i - 1].value)
    {
      DifferencesAt(values, i);
    }
  }

  /** Entry 0 of `diff` is 0. */
  lemma {:induction false} DifferencesHead(values: Series)
    ensures Differences(values)[0] == Some(0.0)
    decreases |values|
  {
    var n := |values|;
    if n > 1 {
      var prefix := values[..n - 1];
      DifferencesHead(prefix);
      assert Differences(values) == Differences(prefix) + [Step(values[n - 2], values[n - 1])];
    }
  }

  /** `diff(values)`: a null input gives null. */
  function DiffOf(values: Option<Series>): (r: Option<Series>)
    ensures r.None? <==> values.None?
    ensures r.Some? ==> |r.value| == if |values.value| == 0 then 2 else |values.value|
  {
    if values.None? then None else Some(Differences(values.value))
  }

  /** The loop of `diff`, over `_.range(1, values.length)`. */
  method Diff(values: Option<Series>) returns (result: Option<Series>)
    ensures result == DiffOf(values)
  {
    if values.None? {
      return None;
    }
    var v := values.value;
    var r: Series := [Some(0.0)];
    var steps := Range(1, |v|);
    var j := 0;
    while j < |steps|
      invariant 0 <= j <= |steps|
      invariant |v| >= 1 ==> r == Differences(v[..j + 1])
      invariant |v| == 0 ==> r == [Some(0.0)] + (if j == 0 then [] else [None])
    {
      var i := steps[j];
      var a := At(v, i - 1);
      var b := At(v, i);
      var isBad := a.None? || b.None?;
      r := r + [if isBad then None else Some(b.value - a.value)];
      if |v| >= 1 {
        assert v[..j + 2][..j + 1] == v[..j + 1];
      }
      j := j + 1;
    }
    if |v| >= 1 {
      assert v[..j + 1] == v;
    } else {
      assert r == Differences(v);
    }
    return Some(r);
  }

  // ------------------------------------------------------------- combine

  /** The element functions the scripts pass to `combine`. */
  datatype Op =
    | Add        // (a, b) => a + b
    | Sub        // (a, b) => a - b
    | PercentOf  // (a, b) => (a / b) * 100
    | Per        // (a, b) => a / b

  /**
   * The element function applied to two numbers. A division by zero gives
   * Infinity or NaN in JavaScript, which JSON.stringify writes as null; the
   * model gives a missing value there.
   */
  function Apply(op: Op, a: real, b: real): Value {
    match op
    case Add => Some(a + b)
    case Sub => Some(a - b)
    case PercentOf => if b == 0.0 then None else Some(a / b * 100.0)
    case Per => if b == 0.0 then None else Some(a / b)
  }

  /** One entry of `combine`: null when either operand is null. */
  function Pair(op: Op, x: Value, y: Value): Value {
    if x.None? || y.None? then None else Apply(op, x.value, y.value)
  }

  /**
   * `combine(listA, listB, fn)`: null if either list is null; otherwise
   * `_.zip` pads the shorter list with undefined, so the result is as long
   * as the longer list, and entry i pairs entry i of each list.
   */
  function CombineOf(listA: Option<Series>, listB: Option<Series>, op: Op): (r: Option<Series>)
    ensures r.None? <==> listA.None? || listB.None?
  {
    if listA.None? || listB.None? then None
    else
      var a, b := listA.value, listB.value;
      Some(seq(Max(|a|, |b|), i requires 0 <= i => Pair(op, At(a, i), At(b, i))))
  }

  /**
   * Each entry of `combine` is null when either operand is null (read past
   * the end of the shorter list included) and is fn(a, b) otherwise; the
   * result is as long as the longer list.
   */
  lemma CombineOfEntries(listA: Series, listB: Series, op: Op)
    ensures var r := CombineOf(Some(listA), Some(listB), op).value;
            && |r| == Max(|listA|, |listB|)
            && (forall i :: 0 <= i < |r| ==> (At(listA, i).None? || At(listB, i).None? ==> r[i].None?))
            && (forall i :: 0 <= i < |r| && At(listA, i).Some? && At(listB, i).Some? ==>
                  r[i] == Apply(op, At(listA, i).value, At(listB, i).value))
  {
  }

  /** The loop of `combine`: one pushed entry per pair `_.zip` forms. */
  method Combine(listA: Option<Series>, listB: Option<Series>, op: Op) returns (result: Option<Series>)
    ensures result == CombineOf(listA, listB, op)
  {
    if listA.None? || listB.None? {
      return None;
    }
    var a, b := listA.value, listB.value;
    var n := Max(|a|, |b|);
    var r: Series := [];
    var i := 0;
    while i < n
      invariant 0 <= i <= n
      invariant |r| == i
      invariant forall j :: 0 <= j < i ==> r[j] == Pair(op, At(a, j), At(b, j))
    {
      var x, y := At(a, i), At(b, i);
      var isBad := x.None? || y.None?;
      r := r + [if isBad then None else Apply(op, x.value, y.value)];
      i := i + 1;
    }
    var expected := CombineOf(listA, listB, op).value;
    assert |expected| == n && forall j :: 0 <= j < n ==> r[j] == expected[j];
    assert r == expected;
    return Some(r);
  }

  /** For addition and subtraction an entry of `combine` is null exactly when an operand is. */
  lemma SumNullIff(listA: Series, listB: Series, op: Op, i: nat)
    requires op.Add? || op.Sub?
    requires i < Max(|listA|, |listB|)
    ensures CombineOf(Some(listA), Some(listB), op).value[i].None?
            <==> At(listA, i).None? || At(listB, i).None?
  {
    CombineOfEntries(listA, listB, op);
  }

  /**
   * When neither operand holds a 0, the division in `(a / b) * 100` never
   * meets a zero divisor: an entry is null exactly when an operand is, and
   * no entry of the result is 0.
   */
  lemma PercentOfZeroFree(listA: Series, listB: Series)
    requires NoZeros(listA) && NoZeros(listB)
    ensures var r := CombineOf(Some(listA), Some(listB), PercentOf).value;
            && NoZeros(r)
            && forall i :: 0 <= i < |r| ==> (r[i].None? <==> At(listA, i).None? || At(listB, i).None?)
  {
    var r := CombineOf(Some(listA), Some(listB), PercentOf).value;
    CombineOfEntries(listA, listB, PercentOf);
    forall i | 0 <= i < |r|
      ensures r[i] != Some(0.0)
      ensures r[i].None? <==> At(listA, i).None? || At(listB, i).None?
    {
      var x, y := At(listA, i), At(listB, i);
      if x.Some? && y.Some? {
        assert x.value != 0.0 && y.value != 0.0;
        assert x.value / y.value != 0.0;
      }
    }
  }

  // -------------------------------------------------------- expandValues

  /** The n points pushed for the pair (y, yNext): y + (yNext - y) * j / n. */
  function Segment(y: real, yNext: real, n: nat): (r: seq<real>)
    ensures |r| == n
  {
    seq(n, j requires 0 <= j < n => y + (yNext - y) * (j as real / n as real))
  }

  /** The array `expandValues(aList, n)` builds, one segment per consecutive pair. */
  function Expanded(aList: seq<real>, n: nat): (r: seq<real>)
    ensures |r| == if |aList| < 2 then 0 else n * (|aList| - 1)
    decreases |aList|
  {
    if |aList| < 2 then []
    else
      var m := |aList|;
      var r := Expanded(aList[..m - 1], n) + Segment(aList[m - 2], aList[m - 1], n);
      assert |r| == n * (m - 2) + n == n * (m - 1);
      r
  }

  /**
   * Entry i*n + j of the expansion is the point j/n of the way from
   * aList[i] to aList[i + 1]; in particular entry i*n is aList[i].
   */
  lemma {:induction false} ExpandedEntry(aList: seq<real>, n: nat, i: nat, j: nat)
    requires i + 1 < |aList| && j < n
    ensures i * n + j < |Expanded(aList, n)|
    ensures Expanded(aList, n)[i * n + j] == aList[i] + (aList[i + 1] - aList[i]) * (j as real / n as real)
    decreases |aList|
  {
    var m := |aList|;
    var prefix := aList[..m - 1];
    var front, last := Expanded(prefix, n), Segment(aList[m - 2], aList[m - 1], n);
    assert Expanded(aList, n) == front + last;
    if i + 2 < m {
      ExpandedEntry(prefix, n, i, j);
      assert prefix[i] == aList[i] && prefix[i + 1] == aList[i + 1];
    } else {
      assert |front| == n * i == i * n;
      assert (front + last)[i * n + j] == last[j];
    }
  }

  /** Entry i*n of the expansion reproduces the input point aList[i]. */
  lemma ExpandedKeepsPoints(aList: seq<real>, n: nat, i: nat)
    requires i + 1 < |aList| && n > 0
    ensures i * n < |Expanded(aList, n)| && Expanded(aList, n)[i * n] == aList[i]
  {
    ExpandedEntry(aList, n, i, 0);
  }

  /** The nested loops of `expandValues`. */
  method ExpandValues(aList: seq<real>, n: nat) returns (result: seq<real>)
    ensures result == Expanded(aList, n)
  {
    var chunks := seq(n, k requires 0 <= k < n => k as real / n as real);
    result := [];
    var nList := |aList|;
    var i := 0;
    while i < nList - 1
      invariant 0 <= i <= Max(0, nList - 1)
      invariant result == Expanded(aList[..Min(i + 1, nList)], n)
    {
      var y := aList[i];
      var yNext := aList[i + 1];
      var yDiff := yNext - y;
      ghost var before := result;
      var k := 0;
      while k < |chunks|
        invariant 0 <= k <= n
        invariant result == before + Segment(y, yNext, n)[..k]
      {
        assert Segment(y, yNext, n)[k] == y + yDiff * chunks[k];
        result := result + [y + yDiff * chunks[k]];
        assert Segment(y, yNext, n)[..k + 1] == Segment(y, yNext, n)[..k] + [y + yDiff * chunks[k]];
        k := k + 1;
      }
      assert aList[..i + 2][..i + 1] == aList[..i + 1];
      assert Segment(y, yNext, n)[..n] == Segment(y, yNext, n);
      i := i + 1;
    }
    assert aList[..Min(i + 1, nList)] == aList;
  }
}

=== FILE: csv.dfy ===
/**
 * `getDebtByCountryCsv` of fetch-data.cjs: the SDMX columnar export of the
 * BIS total-credit statistics, one CSV record per series with one column
 * per quarter, grouped by country, mapped onto the record keys and run
 * through the same pruning and the guarded derived graph as the spreadsheet.
 */
module CsvExport {
  import opened Values
  import opened Records
  import opened Text
  import opened Pruning
  import opened Derived
  import opened Spreadsheet

  /**
   * One parsed CSV record (`columns: true`): column name to field text.
   * Every record holds every column of the header line.
   */
  type CsvRow = map<string, string>

  const CountryColumn: string := "Borrowers' country"
  const SectorColumn: string := "Borrowing sector"
  const UnitTypeColumn: string := "Unit type"
  const ValuationColumn: string := "Valuation method"
  const AdjustmentColumn: string := "Adjustment"
  const MeasureColumn: string := "Unit of measure"

  /** `record[name]` where it is tested or compared: a missing column reads as "". */
  function Field(row: CsvRow, name: string): string {
    if name in row then row[name] else ""
  }

  /** `${record[name]}` inside the grouping key: a missing column prints as "undefined". */
  function KeyPart(row: CsvRow, name: string): string {
    if name in row then row[name] else "undefined"
  }

  /** The grouping key `${sector}|${valuation}|${unitType}|${measure}|${adjustment}`. */
  function KeyOf(row: CsvRow): string {
    KeyPart(row, SectorColumn) + "|" + KeyPart(row, ValuationColumn) + "|" + KeyPart(row, UnitTypeColumn)
      + "|" + KeyPart(row, MeasureColumn) + "|" + KeyPart(row, AdjustmentColumn)
  }

  // ------------------------------------------------------------- grouping

  /** One value of `countryData[country]`: the key and the record stored under it. */
  datatype Entry = Entry(key: string, record: CsvRow)

  /**
   * `countryData` after some records: the countries in the order their
   * first record came (`_.keys(countryData)`), and per country its entries
   * in the order their keys were first seen.
   */
  datatype Grouping = Grouping(countries: seq<string>, groups: map<string, seq<Entry>>)

  predicate HasKey(entries: seq<Entry>, key: string) {
    exists m :: 0 <= m < |entries| && entries[m].key == key
  }

  /**
   * One pass of the grouping loop: a record with an empty country is
   * skipped; otherwise it is stored unless its country already has an
   * entry under the same key.
   */
  function AddRow(g: Grouping, row: CsvRow, keyOf: CsvRow -> string): Grouping {
    var country := Field(row, CountryColumn);
    var e := Entry(keyOf(row), row);
    if country == "" then g
    else if country !in g.groups then Grouping(g.countries + [country], g.groups[country := [e]])
    else if HasKey(g.groups[country], e.key) then g
    else Grouping(g.countries, g.groups[country := g.groups[country] + [e]])
  }

  /** `countryData` after the grouping loop over the records, for a given grouping key. */
  function GroupedBy(rows: seq<CsvRow>, keyOf: CsvRow -> string): Grouping
    decreases |rows|
  {
    if rows == [] then Grouping([], map[])
    else AddRow(GroupedBy(rows[..|rows| - 1], keyOf), rows[|rows| - 1], keyOf)
  }

  /** `countryData` after the grouping loop over the records. */
  function Grouped(rows: seq<CsvRow>): Grouping {
    GroupedBy(rows, KeyOf)
  }

  /** The grouping loop. */
  method GroupByCountry(rows: seq<CsvRow>) returns (g: Grouping)
    ensures g == Grouped(rows)
  {
    g := Grouping([], map[]);
    var i := 0;
    while i < |rows|
      invariant 0 <= i <= |rows|
      invariant g == GroupedBy(rows[..i], KeyOf)
    {
      var row := rows[i];
      assert rows[..i + 1][..i] == rows[..i];
      var country := Field(row, CountryColumn);
      if country != "" {
        var key := KeyOf(row);
        if country !in g.groups {
          g := Grouping(g.countries + [country], g.groups[country := [Entry(key, row)]]);
        } else if !HasKey(g.groups[country], key) {
          g := Grouping(g.countries, g.groups[country := g.groups[country] + [Entry(key, row)]]);
        }
      }
      i := i + 1;
    }
    assert rows[..i] == rows;
  }

  /** The record belongs to `country` and has the grouping key `key`. */
  predicate RowHas(row: CsvRow, country: string, key: string, keyOf: CsvRow -> string) {
    Field(row, CountryColumn) == country && keyOf(row) == key
  }

  /** Record j is the first record with this country and key. */
  predicate FirstRow(rows: seq<CsvRow>, j: int, country: string, key: string, keyOf: CsvRow -> string) {
    && 0 <= j < |rows| && RowHas(rows[j], country, key, keyOf)
    && forall j' :: 0 <= j' < j ==> !RowHas(rows[j'], country, key, keyOf)
  }

  /** Some record belongs to `country`. */
  predicate Names(rows: seq<CsvRow>, country: string) {
    exists j :: 0 <= j < |rows| && Field(rows[j], CountryColumn) == country
  }

  /**
   * One grouping step only adds: every country keeps its entries as a
   * prefix, a new country starts with the record's entry, and a country
   * that grows is the record's own, which had no entry with its key.
   * Afterwards the record's country has an entry with its key.
   */
  lemma AddRowStep(g: Grouping, row: CsvRow, keyOf: CsvRow -> string)
    ensures var g', c0, e := AddRow(g, row, keyOf), Field(row, CountryColumn), Entry(keyOf(row), row);
            && (forall c :: c in g.groups ==> c in g'.groups && g.groups[c] <= g'.groups[c])
            && (forall c :: c in g'.groups && c !in g.groups ==> c == c0 && g'.groups[c] == [e])
            && (forall c :: c in g.groups && g'.groups[c] != g.groups[c] ==>
                  c == c0 && !HasKey(g.groups[c], e.key) && g'.groups[c] == g.groups[c] + [e])
            && (c0 != "" ==> c0 in g'.groups && HasKey(g'.groups[c0], e.key))
            && (c0 != "" && c0 !in g.groups ==> g'.countries == g.countries + [c0])
            && (c0 == "" || c0 in g.groups ==> g'.countries == g.countries)
  {
    var g', c0, e := AddRow(g, row, keyOf), Field(row, CountryColumn), Entry(keyOf(row), row);
    if c0 != "" {
      assert g'.groups[c0][|g'.groups[c0]| - 1] == e || g'.groups[c0] == g.groups[c0];
    }
  }

  /**
   * The countries are listed once each and are exactly the non-empty
   * country fields of the records; each has at least one entry.
   */
  lemma GroupedCountries(rows: seq<CsvRow>, keyOf: CsvRow -> string)
    ensures var g := GroupedBy(rows, keyOf);
            && Distinct(g.countries)
            && (forall c :: c in g.groups <==> c in g.countries)
            && (forall c :: c in g.groups <==> c != "" && Names(rows, c))
            && (forall c :: c in g.groups ==> |g.groups[c]| > 0)
  {
    GroupedCountriesListed(rows, keyOf);
    GroupedCountriesNamed(rows, keyOf);
  }

  /** The country list of a grouping: each country once, exactly the grouped ones, none without an entry. */
  ghost predicate CountriesListed(g: Grouping) {
    && Distinct(g.countries)
    && (forall c :: c in g.groups <==> c in g.countries)
    && (forall c :: c in g.groups ==> |g.groups[c]| > 0)
  }

  lemma {:induction false} GroupedCountriesListed(rows: seq<CsvRow>, keyOf: CsvRow -> string)
    ensures CountriesListed(GroupedBy(rows, keyOf))
    decreases |rows|
  {
    if rows != [] {
      var n := |rows|;
      var front := rows[..n - 1];
      GroupedCountriesListed(front, keyOf);
      var g0 := GroupedBy(front, keyOf);
      var g := GroupedBy(rows, keyOf);
      assert CountriesListed(g0);
      var country := Field(rows[n - 1], CountryColumn);
      AddRowStep(g0, rows[n - 1], keyOf);
      if country != "" && country !in g0.groups {
        forall i, i' | 0 <= i < i' < |g.countries|
          ensures g.countries[i] != g.countries[i']
        {
          if i' == |g.countries| - 1 {
            assert g0.countries[i] in g0.groups;
          } else {
            assert g.countries[i] == g0.countries[i] && g.countries[i'] == g0.countries[i'];
          }
        }
      }
    }
  }

  /** A record names a country exactly when an earlier one does or the last one does. */
  lemma NamesSnoc(rows: seq<CsvRow>, c: string)
    requires rows != []
    ensures Names(rows, c) <==> Names(rows[..|rows| - 1], c) || Field(rows[|rows| - 1], CountryColumn) == c
  {
    var n := |rows|;
    var front := rows[..n - 1];
    if Names(front, c) {
      var j :| 0 <= j < |front| && Field(front[j], CountryColumn) == c;
      assert rows[j] == front[j];
    }
    if Names(rows, c) && !Names(front, c) {
      var j :| 0 <= j < |rows| && Field(rows[j], CountryColumn) == c;
      assert j == n - 1;
    }
  }

  lemma {:induction false} GroupedCountriesNamed(rows: seq<CsvRow>, keyOf: CsvRow -> string)
    ensures forall c :: c in GroupedBy(rows, keyOf).groups <==> c != "" && Names(rows, c)
    decreases |rows|
  {
    if rows != [] {
      var n := |rows|;
      var front := rows[..n - 1];
      GroupedCountriesNamed(front, keyOf);
      var g0 := GroupedBy(front, keyOf);
      AddRowStep(g0, rows[n - 1], keyOf);
      forall c
        ensures c in GroupedBy(rows, keyOf).groups <==> c != "" && Names(rows, c)
      {
        NamesSnoc(rows, c);
      }
    }
  }


  /** Every record with a non-empty country has its key among that country's entries. */
  ghost predicate Recorded(g: Grouping, rows: seq<CsvRow>, keyOf: CsvRow -> string) {
    forall j :: 0 <= j < |rows| && Field(rows[j], CountryColumn) != "" ==>
      Field(rows[j], CountryColumn) in g.groups && HasKey(g.groups[Field(rows[j], CountryColumn)], keyOf(rows[j]))
  }

  /** No record is lost: its country and key are among the entries. */
  lemma {:induction false} GroupedComplete(rows: seq<CsvRow>, keyOf: CsvRow -> string)
    ensures Recorded(GroupedBy(rows, keyOf), rows, keyOf)
    decreases |rows|
  {
    if rows != [] {
      var n := |rows|;
      var front := rows[..n - 1];
      GroupedComplete(front, keyOf);
      var g0 := GroupedBy(front, keyOf);
      var g := GroupedBy(rows, keyOf);
      AddRowStep(g0, rows[n - 1], keyOf);
      forall j | 0 <= j < n - 1 && Field(rows[j], CountryColumn) != ""
        ensures Field(rows[j], CountryColumn) in g.groups
        ensures HasKey(g.groups[Field(rows[j], CountryColumn)], keyOf(rows[j]))
      {
        assert front[j] == rows[j];
        var c := Field(rows[j], CountryColumn);
        var m :| 0 <= m < |g0.groups[c]| && g0.groups[c][m].key == keyOf(rows[j]);
        assert g.groups[c][m] == g0.groups[c][m];
      }
    }
  }

  /** The keys of each country's entries are pairwise distinct. */
  ghost predicate KeysDistinct(g: Grouping) {
    forall c, m, m' :: c in g.groups && 0 <= m < m' < |g.groups[c]| ==>
      g.groups[c][m].key != g.groups[c][m'].key
  }

  lemma {:induction false} GroupedKeysDistinct(rows: seq<CsvRow>, keyOf: CsvRow -> string)
    ensures KeysDistinct(GroupedBy(rows, keyOf))
    decreases |rows|
  {
    if rows != [] {
      var front := rows[..|rows| - 1];
      var g0, row := GroupedBy(front, keyOf), rows[|rows| - 1];
      var g, e := GroupedBy(rows, keyOf), Entry(keyOf(row), row);
      GroupedKeysDistinct(front, keyOf);
      assert KeysDistinct(g0);
      AddRowStep(g0, row, keyOf);
      forall c, m, m' | c in g.groups && 0 <= m < m' < |g.groups[c]|
        ensures g.groups[c][m].key != g.groups[c][m'].key
      {
        if c in g0.groups {
          if g.groups[c] == g0.groups[c] {
            assert g0.groups[c][m].key != g0.groups[c][m'].key;
          } else if m' == |g0.groups[c]| {
            assert g.groups[c] == g0.groups[c] + [e];
            assert g.groups[c][m] == g0.groups[c][m] && g.groups[c][m'] == e;
            assert !HasKey(g0.groups[c], e.key);
          } else {
            assert g.groups[c] == g0.groups[c] + [e];
            assert g.groups[c][m] == g0.groups[c][m] && g.groups[c][m'] == g0.groups[c][m'];
            assert g0.groups[c][m].key != g0.groups[c][m'].key;
          }
        }
      }
    }
  }


  /** Entry e of `country` is the first record with that country and key. */
  ghost predicate EntryIsFirst(rows: seq<CsvRow>, keyOf: CsvRow -> string, country: string, e: Entry) {
    exists j :: FirstRow(rows, j, country, e.key, keyOf) && rows[j] == e.record
  }

  /** Every entry of every country is the first record with its country and key. */
  ghost predicate AllFirst(rows: seq<CsvRow>, keyOf: CsvRow -> string, g: Grouping) {
    forall c, m :: c in g.groups && 0 <= m < |g.groups[c]| ==> EntryIsFirst(rows, keyOf, c, g.groups[c][m])
  }

  /** First record wins: each entry of a country is the first record with that country and key. */
  lemma {:induction false} GroupedFirstWins(rows: seq<CsvRow>, keyOf: CsvRow -> string)
    ensures AllFirst(rows, keyOf, GroupedBy(rows, keyOf))
    decreases |rows|
  {
    if rows != [] {
      var n := |rows|;
      var front := rows[..n - 1];
      GroupedFirstWins(front, keyOf);
      GroupedComplete(front, keyOf);
      var g0 := GroupedBy(front, keyOf);
      assert AllFirst(front, keyOf, g0);
      var g := GroupedBy(rows, keyOf);
      var row := rows[n - 1];
      var key := keyOf(row);
      AddRowStep(g0, row, keyOf);
      forall c, m | c in g.groups && 0 <= m < |g.groups[c]|
        ensures EntryIsFirst(rows, keyOf, c, g.groups[c][m])
      {
        var e := g.groups[c][m];
        if c in g0.groups && m < |g0.groups[c]| {
          assert e == g0.groups[c][m];
          assert EntryIsFirst(front, keyOf, c, e);
          var j :| FirstRow(front, j, c, e.key, keyOf) && front[j] == e.record;
          assert forall j' :: 0 <= j' <= j ==> front[j'] == rows[j'];
          assert FirstRow(rows, j, c, e.key, keyOf);
        } else {
          assert e == Entry(key, row);
          forall j' | 0 <= j' < n - 1
            ensures !RowHas(rows[j'], c, key, keyOf)
          {
            assert front[j'] == rows[j'];
          }
          assert FirstRow(rows, n - 1, c, e.key, keyOf);
        }
      }
    }
  }

  // --------------------------------------------------------- quarter codes

  predicate IsDigit(ch: char) {
    '0' <= ch <= '9'
  }

  function Digit(ch: char): nat
    requires IsDigit(ch)
  {
    ch as int - '0' as int
  }

  function DigitChar(d: nat): char
    requires d < 10
  {
    (d + '0' as int) as char
  }

  /** `/^\d{4}-Q[1-4]$/.test(col)`. */
  predicate IsQuarterCode(s: string) {
    && |s| == 7
    && IsDigit(s[0]) && IsDigit(s[1]) && IsDigit(s[2]) && IsDigit(s[3])
    && s[4] == '-' && s[5] == 'Q' && '1' <= s[6] <= '4'
  }

  /** `parseInt(parts[0])` of `t.split('-Q')`: the four-digit year. */
  function Year(s: string): nat
    requires IsQuarterCode(s)
  {
    1000 * Digit(s[0]) + 100 * Digit(s[1]) + 10 * Digit(s[2]) + Digit(s[3])
  }

  /** `parseInt(parts[1])`: the quarter digit. */
  function Quarter(s: string): nat
    requires IsQuarterCode(s)
  {
    Digit(s[6])
  }

  /** `year + (quarter - 1) / 4`. */
  function QuarterTime(s: string): real
    requires IsQuarterCode(s)
  {
    Year(s) as real + (Quarter(s) - 1) as real / 4.0
  }

  /** The column name of a quarter, zero-padded to four year digits. */
  function QuarterCode(year: nat, q: nat): string
    requires year < 10000 && 1 <= q <= 4
  {
    var tens := year / 10;
    var hundreds := tens / 10;
    [DigitChar(hundreds / 10), DigitChar(hundreds % 10), DigitChar(tens % 10), DigitChar(year % 10),
     '-', 'Q', DigitChar(q)]
  }

  /** Formatting a quarter and converting it back gives the year, the quarter and `year + (q-1)/4`. */
  lemma QuarterCodeRoundTrip(year: nat, q: nat)
    requires year < 10000 && 1 <= q <= 4
    ensures IsQuarterCode(QuarterCode(year, q))
    ensures Year(QuarterCode(year, q)) == year && Quarter(QuarterCode(year, q)) == q
    ensures QuarterTime(QuarterCode(year, q)) == year as real + (q - 1) as real / 4.0
  {
    var tens := year / 10;
    var hundreds := tens / 10;
    var s := QuarterCode(year, q);
    assert Digit(s[0]) == hundreds / 10 && Digit(s[1]) == hundreds % 10;
    assert Digit(s[2]) == tens % 10 && Digit(s[3]) == year % 10;
    assert year == 10 * tens + year % 10 && tens == 10 * hundreds + tens % 10;
    assert hundreds == 10 * (hundreds / 10) + hundreds % 10;
  }

  /** Every quarter column is the formatted form of its own year and quarter. */
  lemma QuarterCodeOf(s: string)
    requires IsQuarterCode(s)
    ensures Year(s) < 10000 && 1 <= Quarter(s) <= 4
    ensures QuarterCode(Year(s), Quarter(s)) == s
  {
    var y := Year(s);
    var tens := 100 * Digit(s[0]) + 10 * Digit(s[1]) + Digit(s[2]);
    var hundreds := 10 * Digit(s[0]) + Digit(s[1]);
    assert y == 10 * tens + Digit(s[3]);
    assert y / 10 == tens && y % 10 == Digit(s[3]);
    assert tens / 10 == hundreds && tens % 10 == Digit(s[2]);
    assert hundreds / 10 == Digit(s[0]) && hundreds % 10 == Digit(s[1]);
    var t := QuarterCode(y, Quarter(s));
    assert forall k :: 0 <= k < 7 ==> t[k] == s[k];
  }

  /** Distinct quarter columns convert to distinct times. */
  lemma QuarterTimeInjective(s: string, s': string)
    requires IsQuarterCode(s) && IsQuarterCode(s')
    requires QuarterTime(s) == QuarterTime(s')
    ensures s == s'
  {
    QuarterCodeOf(s);
    QuarterCodeOf(s');
  }

  /** The quarter columns of a list of column names, in order. */
  function QuarterFilter(cols: seq<string>): seq<string>
    decreases |cols|
  {
    if cols == [] then []
    else
      var last := cols[|cols| - 1];
      QuarterFilter(cols[..|cols| - 1]) + (if IsQuarterCode(last) then [last] else [])
  }

  /** The filter keeps exactly the quarter columns, and keeps distinct columns distinct. */
  lemma {:induction false} QuarterFilterContents(cols: seq<string>)
    ensures forall s :: s in QuarterFilter(cols) <==> s in cols && IsQuarterCode(s)
    ensures Distinct(cols) ==> Distinct(QuarterFilter(cols))
    decreases |cols|
  {
    if cols != [] {
      var front := cols[..|cols| - 1];
      QuarterFilterContents(front);
      assert cols == front + [cols[|cols| - 1]];
      if Distinct(cols) {
        assert forall i, i' :: 0 <= i < i' < |front| ==> front[i] != front[i'];
        assert cols[|cols| - 1] !in front;
      }
    }
  }

  /**
   * The `times` list of a record: its keys (the header columns, each once,
   * in order) that match the quarter pattern.
   */
  function QuarterColumns(header: seq<string>): seq<string> {
    QuarterFilter(Uniq(header))
  }

  /** The quarter columns are the header's quarter columns, each once. */
  lemma QuarterColumnsContents(header: seq<string>)
    ensures var cols := QuarterColumns(header);
            && Distinct(cols)
            && (forall s :: s in cols <==> s in header && IsQuarterCode(s))
  {
    QuarterFilterContents(Uniq(header));
  }

  /** `countryResult.times`: `year + (quarter - 1) / 4` of every quarter column, in column order. */
  function QuarterTimes(header: seq<string>): (r: Series)
    ensures |r| == |QuarterColumns(header)|
  {
    var cols := QuarterColumns(header);
    assert forall k :: 0 <= k < |cols| ==> IsQuarterCode(cols[k]) by {
      QuarterColumnsContents(header);
    }
    seq(|cols|, k requires 0 <= k < |cols| => Some(QuarterTime(cols[k])))
  }

  /**
   * The time axis holds no null, and its entries are pairwise distinct:
   * entry k is the time of quarter column k.
   */
  lemma QuarterTimesDistinct(header: seq<string>)
    ensures var t := QuarterTimes(header);
            && NoNulls(t)
            && forall k, k' :: 0 <= k < k' < |t| ==> t[k] != t[k']
  {
    var cols := QuarterColumns(header);
    QuarterColumnsContents(header);
    forall k, k' | 0 <= k < k' < |cols|
      ensures QuarterTimes(header)[k] != QuarterTimes(header)[k']
    {
      if QuarterTime(cols[k]) == QuarterTime(cols[k']) {
        QuarterTimeInjective(cols[k], cols[k']);
      }
    }
  }

  // ------------------------------------------------------------ mapping

  /** The currencies accepted as private domestic debt. */
  const Currencies: seq<string> := [
    "New Zealand dollar", "Euro", "Japanese yen", "British pound", "Canadian dollar",
    "Australian dollar", "Swiss franc", "Swedish krona", "Norwegian krone", "Danish krone",
    "Polish zloty", "Mexican peso", "Brazilian real", "Chinese yuan", "Indian rupee",
    "Malaysian ringgit", "Singapore dollar", "Hong Kong dollar", "Thai baht",
    "South African rand", "Russian ruble", "Saudi riyal", "Turkish lira"]

  /**
   * The key an entry's series goes to: only market-value series adjusted
   * for breaks count; US dollar and per cent have their own keys; a
   * private domestic series must be in a listed currency, a public or
   * household one may be in anything else.
   */
  function MetricFor(row: CsvRow): Option<Metric> {
    var sector, measure := Field(row, SectorColumn), Field(row, MeasureColumn);
    if Field(row, ValuationColumn) != "Market value" || Field(row, AdjustmentColumn) != "Adjusted for breaks" then None
    else if sector == "Private non-financial sector" then
      if measure == "US dollar" then Some(PrivateDebtUsd)
      else if measure == "Per cent" then Some(PrivateDebtPercent)
      else if measure in Currencies then Some(PrivateDebt)
      else None
    else if sector == "General government" then
      if measure == "US dollar" then Some(PublicDebtUsd)
      else if measure == "Per cent" then Some(PublicDebtPercent)
      else Some(PublicDebt)
    else if sector == "Households & NPISHs" then
      if measure == "US dollar" then Some(HouseholdDebtUsd)
      else if measure == "Per cent" then Some(HouseholdDebtPercent)
      else Some(HouseholdDebt)
    else None
  }

  /** The keys that hold a share of GDP rather than an amount. */
  predicate IsPercent(k: Metric) {
    k.PrivateDebtPercent? || k.PublicDebtPercent? || k.HouseholdDebtPercent?
  }

  /**
   * Mapped series are raw keys; a series is a share of GDP exactly when
   * its measure is "Per cent"; and only market-value series adjusted for
   * breaks are mapped.
   */
  lemma MetricForKinds(row: CsvRow)
    ensures MetricFor(row).Some? ==>
              && !IsDerived(MetricFor(row).value) && MetricFor(row).value != Times
              && (IsPercent(MetricFor(row).value) <==> Field(row, MeasureColumn) == "Per cent")
              && Field(row, ValuationColumn) == "Market value"
              && Field(row, AdjustmentColumn) == "Adjusted for breaks"
  {
    // one case per sector branch of `MetricFor`
    var sector := Field(row, SectorColumn);
    if sector == "Private non-financial sector" {
    } else if sector == "General government" {
    } else if sector == "Households & NPISHs" {
    }
  }

  /**
   * Public and household domestic debt accept any measure other than per
   * cent and US dollar; private domestic debt only a listed currency.
   */
  lemma MetricForDomestic(row: CsvRow)
    requires Field(row, ValuationColumn) == "Market value"
    requires Field(row, AdjustmentColumn) == "Adjusted for breaks"
    requires Field(row, MeasureColumn) != "Per cent" && Field(row, MeasureColumn) != "US dollar"
    ensures Field(row, SectorColumn) == "General government" ==> MetricFor(row) == Some(PublicDebt)
    ensures Field(row, SectorColumn) == "Households & NPISHs" ==> MetricFor(row) == Some(HouseholdDebt)
    ensures Field(row, SectorColumn) == "Private non-financial sector" ==>
              (MetricFor(row) == Some(PrivateDebt) <==> Field(row, MeasureColumn) in Currencies)
  {
  }

  /**
   * `v ? parseFloat(v) * 1e9 : null` (or without the factor for per cent):
   * an empty field is null. Parsing the field text is a parameter.
   */
  function FieldValue(v: string, scaled: bool, parse: string -> real): Value {
    if v == "" then None
    else if scaled then Some(parse(v) * 1000000000.0)
    else Some(parse(v))
  }

  /** `_.map(times, t => …)`: one value per quarter column of the record. */
  function SeriesOf(row: CsvRow, header: seq<string>, scaled: bool, parse: string -> real): (r: Series)
    ensures |r| == |QuarterColumns(header)|
  {
    var cols := QuarterColumns(header);
    seq(|cols|, k requires 0 <= k < |cols| => FieldValue(Field(row, cols[k]), scaled, parse))
  }

  predicate HasColumn(p: Payload, k: Metric) {
    exists m :: 0 <= m < |p| && p[m].key == k
  }

  /**
   * `countryResult` after the mapping loop over a country's entries, for a
   * given mapping of records to keys: an entry mapped to a key that is
   * already set is ignored.
   */
  function MappedUpTo(entries: seq<Entry>, metricOf: CsvRow -> Option<Metric>, header: seq<string>, parse: string -> real): Payload
    decreases |entries|
  {
    if entries == [] then []
    else
      var prev := MappedUpTo(entries[..|entries| - 1], metricOf, header, parse);
      var e := entries[|entries| - 1];
      var k := metricOf(e.record);
      if k.None? || HasColumn(prev, k.value) then prev
      else prev + [Column(k.value, SeriesOf(e.record, header, !IsPercent(k.value), parse))]
  }

  /** Entry i is the first entry of the country mapped to key k. */
  predicate FirstMapped(entries: seq<Entry>, metricOf: CsvRow -> Option<Metric>, i: int, k: Metric) {
    && 0 <= i < |entries| && metricOf(entries[i].record) == Some(k)
    && forall i' :: 0 <= i' < i ==> metricOf(entries[i'].record) != Some(k)
  }

  /** Some entry of the country is mapped to key k. */
  predicate MapsTo(entries: seq<Entry>, metricOf: CsvRow -> Option<Metric>, k: Metric) {
    exists i :: 0 <= i < |entries| && metricOf(entries[i].record) == Some(k)
  }

  /** The mapping sends records only to raw keys, as `MetricFor` does. */
  ghost predicate RawMapping(metricOf: CsvRow -> Option<Metric>) {
    forall row :: metricOf(row).Some? ==> !IsDerived(metricOf(row).value) && metricOf(row).value != Times
  }

  /**
   * The mapped payload has distinct raw keys and one entry per quarter in
   * each column.
   */
  lemma {:induction false} MappedShape(entries: seq<Entry>, metricOf: CsvRow -> Option<Metric>, header: seq<string>, parse: string -> real)
    requires RawMapping(metricOf)
    ensures var p := MappedUpTo(entries, metricOf, header, parse);
            && DistinctKeys(p)
            && (forall m :: 0 <= m < |p| ==>
                  !IsDerived(p[m].key) && p[m].key != Times && |p[m].values| == |QuarterColumns(header)|)
    decreases |entries|
  {
    if entries != [] {
      MappedShape(entries[..|entries| - 1], metricOf, header, parse);
    }
  }

  /** A key is set exactly when some entry of the country maps to it. */
  lemma {:induction false} MappedKeys(entries: seq<Entry>, metricOf: CsvRow -> Option<Metric>, header: seq<string>, parse: string -> real)
    ensures var p := MappedUpTo(entries, metricOf, header, parse);
            forall k :: HasColumn(p, k) <==> MapsTo(entries, metricOf, k)
    decreases |entries|
  {
    if entries != [] {
      var n := |entries|;
      var front := entries[..n - 1];
      MappedKeys(front, metricOf, header, parse);
      var p0 := MappedUpTo(front, metricOf, header, parse);
      var p := MappedUpTo(entries, metricOf, header, parse);
      var km := metricOf(entries[n - 1].record);
      assert p == if km.None? || HasColumn(p0, km.value) then p0
                  else p0 + [Column(km.value, SeriesOf(entries[n - 1].record, header, !IsPercent(km.value), parse))];
      forall k
        ensures HasColumn(p, k) <==> MapsTo(entries, metricOf, k)
      {
        if MapsTo(front, metricOf, k) {
          var i :| 0 <= i < |front| && metricOf(front[i].record) == Some(k);
          assert entries[i] == front[i];
        }
        if MapsTo(entries, metricOf, k) {
          var i :| 0 <= i < n && metricOf(entries[i].record) == Some(k);
          if i < n - 1 {
            assert front[i] == entries[i];
          }
        }
        if HasColumn(p0, k) {
          var m :| 0 <= m < |p0| && p0[m].key == k;
          assert p[m] == p0[m];
        }
        if HasColumn(p, k) && !HasColumn(p0, k) {
          var m :| 0 <= m < |p| && p[m].key == k;
          assert m == |p0| && km == Some(k);
        }
        if MapsTo(entries, metricOf, k) && !MapsTo(front, metricOf, k) {
          assert km == Some(k);
          if !HasColumn(p0, k) {
            assert p[|p0|].key == k;
          }
        }
      }
    }
  }

  /** Column c holds the series of the first entry mapped to its key. */
  ghost predicate FromFirstMapped(entries: seq<Entry>, metricOf: CsvRow -> Option<Metric>, header: seq<string>, parse: string -> real, c: Column) {
    exists i :: FirstMapped(entries, metricOf, i, c.key)
                && c.values == SeriesOf(entries[i].record, header, !IsPercent(c.key), parse)
  }

  /** Every column holds the series of the first entry mapped to its key. */
  ghost predicate AllFromFirst(entries: seq<Entry>, metricOf: CsvRow -> Option<Metric>, header: seq<string>, parse: string -> real, p: Payload) {
    forall m :: 0 <= m < |p| ==> FromFirstMapped(entries, metricOf, header, parse, p[m])
  }

  /**
   * First group wins: each key holds the series of the first entry mapped
   * to it, per cent series unscaled and the others scaled by 1e9.
   */
  lemma {:induction false} MappedFirstWins(entries: seq<Entry>, metricOf: CsvRow -> Option<Metric>, header: seq<string>, parse: string -> real)
    ensures AllFromFirst(entries, metricOf, header, parse, MappedUpTo(entries, metricOf, header, parse))
    decreases |entries|
  {
    if entries != [] {
      var n := |entries|;
      var front := entries[..n - 1];
      MappedFirstWins(front, metricOf, header, parse);
      MappedKeys(front, metricOf, header, parse);
      var p0 := MappedUpTo(front, metricOf, header, parse);
      assert AllFromFirst(front, metricOf, header, parse, p0);
      var p := MappedUpTo(entries, metricOf, header, parse);
      assert forall i :: 0 <= i < n - 1 ==> front[i] == entries[i];
      var km := metricOf(entries[n - 1].record);
      assert p == if km.None? || HasColumn(p0, km.value) then p0
                  else p0 + [Column(km.value, SeriesOf(entries[n - 1].record, header, !IsPercent(km.value), parse))];
      forall m | 0 <= m < |p|
        ensures FromFirstMapped(entries, metricOf, header, parse, p[m])
      {
        if m < |p0| {
          assert p[m] == p0[m];
          assert FromFirstMapped(front, metricOf, header, parse, p0[m]);
          var i :| FirstMapped(front, metricOf, i, p0[m].key)
                   && p0[m].values == SeriesOf(front[i].record, header, !IsPercent(p0[m].key), parse);
          assert FirstMapped(entries, metricOf, i, p[m].key);
        } else {
          var k := metricOf(entries[n - 1].record).value;
          assert p[m].key == k && !HasColumn(p0, k);
          assert !MapsTo(front, metricOf, k);
          assert FirstMapped(entries, metricOf, n - 1, k);
        }
      }
    }
  }

  /** `MetricFor` sends records only to raw keys. */
  lemma MetricForRaw()
    ensures RawMapping(MetricFor)
  {
    forall row | MetricFor(row).Some?
      ensures !IsDerived(MetricFor(row).value) && MetricFor(row).value != Times
    {
      MetricForKinds(row);
    }
  }

  /**
   * `countryResult` before pruning: the mapped series, then `times` from
   * the quarter columns of the country's first record.
   */
  function CsvPayload(entries: seq<Entry>, header: seq<string>, parse: string -> real): Payload {
    MappedUpTo(entries, MetricFor, header, parse) + (if entries == [] then [] else [Column(Times, QuarterTimes(header))])
  }

  /** A country's payload has distinct raw keys, `times` last, every column one entry per quarter. */
  lemma CsvPayloadShape(entries: seq<Entry>, header: seq<string>, parse: string -> real)
    requires entries != []
    ensures var p := CsvPayload(entries, header, parse);
            && |p| > 0 && p[|p| - 1].key == Times && DistinctKeys(p)
            && (forall m :: 0 <= m < |p| - 1 ==> !IsDerived(p[m].key))
            && (forall m :: 0 <= m < |p| ==> |p[m].values| == |QuarterColumns(header)|)
  {
    MetricForRaw();
    MappedShape(entries, MetricFor, header, parse);
    var mapped := MappedUpTo(entries, MetricFor, header, parse);
    var p := CsvPayload(entries, header, parse);
    assert p == mapped + [Column(Times, QuarterTimes(header))];
    forall j, j' | 0 <= j < j' < |p|
      ensures p[j].key != p[j'].key
    {
      assert p[j] == mapped[j];
    }
  }

  // ------------------------------------------------------- finishing a country

  /**
   * fetch-data.cjs:540-613 as written: the emptiness test reads `times` before
   * `removeBlankValues`, so a country whose every row is blank is still
   * stored, with an empty time axis and the derived series computed over
   * empty arrays.
   */
  function FinishAsWritten(p: Payload): Option<Record> {
    if |p| > 0 && TimeCount(ToRecord(p)) > 0 then Some(CsvDerived(ToRecord(Pruned(Canonical, p))))
    else None
  }

  /**
   * A country's record with the emptiness test after pruning, as the
   * spreadsheet `getCountry` makes it: `None` when no time point survives.
   */
  function FinishCountry(p: Payload): Option<Record> {
    if |p| == 0 then None
    else
      var base := ToRecord(Pruned(Canonical, p));
      if TimeCount(base) > 0 then Some(CsvDerived(base)) else None
  }

  /**
   * The payload of a country with one private domestic debt series whose
   * field is empty at the only quarter column, the quarter at time t.
   */
  function BlankCountryPayload(t: real): Payload {
    [Column(PrivateDebt, [None]), Column(Times, [Some(t)])]
  }

  /**
   * The pre-pruning test lets a country through whose rows are all blank:
   * its record has an empty time axis but `credit` is `[0, null]`, so the record
   * is not aligned. The corrected finish skips that country.
   */
  lemma BlankCountryMisaligned(t: real)
    ensures FinishAsWritten(BlankCountryPayload(t)).Some?
    ensures !Aligned(FinishAsWritten(BlankCountryPayload(t)).value)
    ensures FinishCountry(BlankCountryPayload(t)).None?
  {
    var p := BlankCountryPayload(t);
    ToRecordSnoc([], p[0]);
    assert [p[0]] + [p[1]] == p;
    ToRecordSnoc([p[0]], p[1]);
    assert ToRecord(p) == map[PrivateDebt := Arr([None]), Times := Arr([Some(t)])];
    assert BlankRow(p, 0);
    assert PrunedUpTo(Canonical, p, 1) == PrunedUpTo(Canonical, p, 0);
    var q := Pruned(Canonical, p);
    assert q == [Column(PrivateDebt, []), Column(Times, [])];
    ToRecordSnoc([], q[0]);
    assert [q[0]] + [q[1]] == q;
    ToRecordSnoc([q[0]], q[1]);
    var base := ToRecord(q);
    assert base == map[PrivateDebt := Arr([]), Times := Arr([])];
    EmptyAxisMisaligned(base);
  }

  /**
   * On the CSV path a record with an empty time axis and a private debt
   * array comes out misaligned: `credit` is `diff(privateDebt)`, which
   * for an empty array is `[0, null]`.
   */
  lemma EmptyAxisMisaligned(r: Record)
    requires RawOnly(r) && Times in r && r[Times] == Arr([]) && Present(r, PrivateDebt)
    ensures !Aligned(CsvDerived(r))
  {
    var f := WithUsdFallback(r);
    UsdFallback(r);
    UsdFallbackRawOnly(r);
    var n := StepCount(Path.Csv);
    var w := Run(f, Path.Csv, n);
    RunComputes(Path.Csv, f, n);
    ComputedAssigned(Path.Csv, f, w, n, Credit);
    ComputedUnassigned(Path.Csv, f, w, n, Times);
  }

  /**
   * The corrected finish stores a country exactly when a time point
   * survives pruning; the record is then aligned on the pruned time axis
   * and carries the guarded derived series.
   */
  lemma FinishCountryShape(entries: seq<Entry>, header: seq<string>, parse: string -> real)
    requires entries != []
    ensures var p := CsvPayload(entries, header, parse);
            var base := ToRecord(Pruned(Canonical, p));
            && (FinishCountry(p).Some? <==> TimeCount(base) > 0)
            && (FinishCountry(p).Some? ==>
                  var w := FinishCountry(p).value;
                  && Aligned(w) && w[Times] == base[Times] && TimeCount(w) > 0
                  && (Present(w, Gdp) <==>
                        (Present(base, PrivateDebt) || Present(base, PrivateDebtUsd)) && Present(base, PrivateDebtPercent))
                  && CsvGdpDivisorsIn(base, w))
  {
    CsvPayloadShape(entries, header, parse);
    FinishShape(CsvPayload(entries, header, parse));
  }

  /**
   * `FinishCountryShape` for any payload with `times` last and no derived
   * key before it.
   */
  lemma FinishShape(p: Payload)
    requires |p| > 0 && p[|p| - 1].key == Times
    requires forall m :: 0 <= m < |p| - 1 ==> !IsDerived(p[m].key)
    ensures var base := ToRecord(Pruned(Canonical, p));
            && (FinishCountry(p).Some? <==> TimeCount(base) > 0)
            && (FinishCountry(p).Some? ==>
                  var w := FinishCountry(p).value;
                  && Aligned(w) && w[Times] == base[Times] && TimeCount(w) > 0
                  && (Present(w, Gdp) <==>
                        (Present(base, PrivateDebt) || Present(base, PrivateDebtUsd)) && Present(base, PrivateDebtPercent))
                  && CsvGdpDivisorsIn(base, w))
  {
    PrunedRecord(p);
    var q := Pruned(Canonical, p);
    var base := ToRecord(q);
    if TimeCount(base) > 0 {
      PrunedKeys(Canonical, p);
      forall k | k in base
        ensures !IsDerived(k)
      {
        ToRecordKeys(q, k);
        var m :| 0 <= m < |q| && q[m].key == k;
        assert p[m].key == k;
      }
      CsvDerivedShape(base);
      CsvGdpDivisorsNonZero(base);
    }
  }


  /** The per-country processing of fetch-data.cjs:386-614, with the emptiness test after pruning. */
  method CsvCountry(entries: seq<Entry>, header: seq<string>, parse: string -> real) returns (out: Option<Record>)
    ensures out == FinishCountry(CsvPayload(entries, header, parse))
  {
    var result: Payload := [];
    var i := 0;
    while i < |entries|
      invariant 0 <= i <= |entries|
      invariant result == MappedUpTo(entries[..i], MetricFor, header, parse)
    {
      var e := entries[i];
      assert entries[..i + 1][..i] == entries[..i];
      var k := MetricFor(e.record);
      if k.Some? && !HasColumn(result, k.value) {
        result := result + [Column(k.value, SeriesOf(e.record, header, !IsPercent(k.value), parse))];
      }
      i := i + 1;
    }
    assert entries[..i] == entries;
    if entries != [] {
      result := result + [Column(Times, QuarterTimes(header))];
    }
    if |result| == 0 {
      return None;
    }
    var pruned := RemoveBlankValues(result);
    var base := ToRecord(pruned);
    if TimeCount(base) == 0 {
      return None;
    }
    var r := AddCsvDerived(base);
    return Some(r);
  }

  // -------------------------------------------------------------- the run

  /** A grouped country's finished record, `None` when it is not stored. */
  function CsvEntry(g: Grouping, header: seq<string>, parse: string -> real, c: string): Option<Record> {
    if c in g.groups then FinishCountry(CsvPayload(g.groups[c], header, parse)) else None
  }

  /** `CsvEntry` for every country. */
  function CsvEntries(g: Grouping, header: seq<string>, parse: string -> real): string -> Option<Record> {
    c => CsvEntry(g, header, parse, c)
  }

  /** One pass of the loop over the countries: the country's record, when it is stored. */
  method CountryEntry(g: Grouping, c: string, header: seq<string>, parse: string -> real) returns (x: Option<Record>)
    ensures x == CsvEntry(g, header, parse, c)
  {
    x := None;
    if c in g.groups {
      x := CsvCountry(g.groups[c], header, parse);
    }
  }

  /** `getDebtByCountryCsv` over the parsed records, with the emptiness test after pruning. */
  function DebtByCountryCsv(rows: seq<CsvRow>, header: seq<string>, parse: string -> real): map<string, Record> {
    var g := Grouped(rows);
    DebtFrom(g.countries, CsvEntries(g, header, parse))
  }

  /** The key order of the object `getDebtByCountryCsv` builds. */
  function DebtByCountryCsvKeys(rows: seq<CsvRow>, header: seq<string>, parse: string -> real): seq<string> {
    var g := Grouped(rows);
    DebtKeys(g.countries, CsvEntries(g, header, parse))
  }

  /**
   * `getDebtByCountryCsv`: the grouping loop, then the loop over the
   * countries; `keys` is the key order of the object built.
   */
  method GetDebtByCountryCsv(rows: seq<CsvRow>, header: seq<string>, parse: string -> real)
    returns (result: map<string, Record>, keys: seq<string>)
    ensures result == DebtByCountryCsv(rows, header, parse)
    ensures keys == DebtByCountryCsvKeys(rows, header, parse)
  {
    var g := GroupByCountry(rows);
    result, keys := FillCsvDebt(g, header, parse);
  }

  /** The loop of `getDebtByCountryCsv` over the grouped countries, in their order. */
  method FillCsvDebt(g: Grouping, header: seq<string>, parse: string -> real)
    returns (result: map<string, Record>, keys: seq<string>)
    ensures result == DebtFrom(g.countries, CsvEntries(g, header, parse))
    ensures keys == DebtKeys(g.countries, CsvEntries(g, header, parse))
  {
    ghost var entry := CsvEntries(g, header, parse);
    result, keys := map[], [];
    var i := 0;
    while i < |g.countries|
      invariant 0 <= i <= |g.countries|
      invariant result == DebtFrom(g.countries[..i], entry)
      invariant keys == DebtKeys(g.countries[..i], entry)
    {
      var c := g.countries[i];
      DebtStep(g.countries, i, entry);
      var x := CountryEntry(g, c, header, parse);
      if x.Some? {
        result, keys := SetKey(result, keys, c, x.value);
      }
      i := i + 1;
    }
    assert g.countries[..i] == g.countries;
  }

  /**
   * The result holds exactly the non-empty country fields whose record
   * keeps a time point after pruning, each aligned on its pruned time axis;
   * its keys come in the order the countries first appear in the records.
   */
  lemma DebtByCountryCsvContents(rows: seq<CsvRow>, header: seq<string>, parse: string -> real)
    ensures var result, g := DebtByCountryCsv(rows, header, parse), Grouped(rows);
            && (forall c :: c in result <==>
                  c in g.groups && FinishCountry(CsvPayload(g.groups[c], header, parse)).Some?)
            && (forall c :: c in result ==> Aligned(result[c]) && TimeCount(result[c]) > 0)
    ensures var keys, g := DebtByCountryCsvKeys(rows, header, parse), Grouped(rows);
            && (forall c :: c in keys <==> c in DebtByCountryCsv(rows, header, parse))
            && (forall i, j :: 0 <= i < j < |keys| ==> FirstIndex(g.countries, keys[i]) < FirstIndex(g.countries, keys[j]))
  {
    var g := Grouped(rows);
    var entry := CsvEntries(g, header, parse);
    GroupedCountries(rows, KeyOf);
    DebtFromContents(g.countries, entry);
    DebtKeysOfResult(g.countries, entry);
    var result := DebtByCountryCsv(rows, header, parse);
    forall c | c in result
      ensures Aligned(result[c]) && TimeCount(result[c]) > 0
    {
      FinishCountryShape(g.groups[c], header, parse);
    }
  }
}

=== FILE: derived.dfy ===
/**
 * The derived indicators each `getCountry` adds to a pruned country record.
 *
 * A `getCountry` is a fixed list of assignments `r.k = combine(...)`,
 * `r.k = diff(...)` and `r.gdpPercent = _.map(r.times, t => 100)`, each
 * reading the record as the earlier ones left it. There are two lists:
 *  - the eleven assignments of fetch-data.js and fetch-data.cjs; the
 *    spreadsheet path makes all of them, the CSV path makes each one only
 *    when its inputs exist, after filling a missing domestic debt series
 *    from its US-dollar series;
 *  - the twelve of fetch-bis-debt-data.js, which also recompute the three
 *    debt percentages from gdp.
 *
 * Each derived array is specified by a formula over the record as pruning
 * leaves it (`FormulaOf`). The assignments are proved, by induction over
 * the list, to leave exactly those formulas in the record.
 */
module Derived {
  import opened Values
  import opened Records
  import opened Combinators

  /** `r.k` is truthy: the property is an array (an empty array included). */
  predicate Present(r: Record, k: Metric) {
    Get(r, k).Some?
  }

  // ------------------------------------------------------ one assignment

  /** One assignment of a `getCountry`. */
  datatype Assign =
    | Combo(key: Metric, a: Metric, b: Metric, op: Op)  // r.key = combine(r.a, r.b, op)
    | Delta(key: Metric, a: Metric)                     // r.key = diff(r.a)
    | Hundreds                                          // r.gdpPercent = _.map(r.times, t => 100)

  /** The key an assignment writes. */
  function Target(x: Assign): Metric {
    if x.Hundreds? then GdpPercent else x.key
  }

  /** `_.map(r.times, t => 100)`. */
  function HundredsOf(r: Record): Series {
    Constant(100.0, TimeCount(r))
  }

  /** The right-hand side of an assignment, evaluated on r: null or an array. */
  function Eval(r: Record, x: Assign): Option<Series> {
    match x
    case Combo(_, a, b, op) => CombineOf(Get(r, a), Get(r, b), op)
    case Delta(_, a) => DiffOf(Get(r, a))
    case Hundreds => Some(HundredsOf(r))
  }

  /** The assignment made: its key now holds the value computed. */
  function Exec(r: Record, x: Assign): Record {
    r[Target(x) := FromOption(Eval(r, x))]
  }

  /**
   * The condition the CSV path puts on an assignment: `if (r.a && r.b)`
   * for `combine`, `if (r.a)` for `diff`, `if (r.gdp || r.gdpUsd)` for
   * `gdpPercent`.
   */
  predicate Guard(r: Record, x: Assign) {
    match x
    case Combo(_, a, b, _) => Present(r, a) && Present(r, b)
    case Delta(_, a) => Present(r, a)
    case Hundreds => Present(r, Gdp) || Present(r, GdpUsd)
  }

  /** An assignment, made unconditionally or, when guarded, only under its condition. */
  function Step(r: Record, x: Assign, guarded: bool): Record {
    if guarded && !Guard(r, x) then r else Exec(r, x)
  }

  /** A guarded assignment that is made stores an array, never `null`. */
  lemma GuardedStoresArray(r: Record, x: Assign)
    requires Guard(r, x)
    ensures Eval(r, x).Some?
  {
  }

  /** An assignment leaves every other key as it was. */
  lemma StepKeeps(r: Record, x: Assign, guarded: bool, j: Metric)
    requires j != Target(x)
    ensures Lookup(Step(r, x, guarded), j) == Lookup(r, j)
    ensures Get(Step(r, x, guarded), j) == Get(r, j)
  {
  }

  /** One `combine` assignment, performed with the `combine` loop. */
  method StoreCombine(r: Record, k: Metric, a: Metric, b: Metric, op: Op) returns (out: Record)
    ensures out == Exec(r, Combo(k, a, b, op))
  {
    var s := Combine(Get(r, a), Get(r, b), op);
    out := r[k := FromOption(s)];
  }

  /** One `diff` assignment, performed with the `diff` loop. */
  method StoreDiff(r: Record, k: Metric, a: Metric) returns (out: Record)
    ensures out == Exec(r, Delta(k, a))
  {
    var s := Diff(Get(r, a));
    out := r[k := FromOption(s)];
  }

  /** `if (r.a && r.b) r.k = combine(r.a, r.b, op)`. */
  method StoreCombineWhen(r: Record, k: Metric, a: Metric, b: Metric, op: Op) returns (out: Record)
    ensures out == Step(r, Combo(k, a, b, op), true)
  {
    out := r;
    if Present(r, a) && Present(r, b) {
      out := StoreCombine(r, k, a, b, op);
    }
  }

  /** `if (r.a) r.k = diff(r.a)`. */
  method StoreDiffWhen(r: Record, k: Metric, a: Metric) returns (out: Record)
    ensures out == Step(r, Delta(k, a), true)
  {
    out := r;
    if Present(r, a) {
      out := StoreDiff(r, k, a);
    }
  }

  // ------------------------------------------------------------- the graphs

  /** The three paths that build country records. */
  datatype Path =
    | Spreadsheet  // getCountry of fetch-data.js and of the spreadsheet path of fetch-data.cjs
    | Csv          // the CSV path of fetch-data.cjs: guarded assignments
    | Legacy       // getCountry of fetch-bis-debt-data.js

  /** The number of assignments path p makes. */
  function StepCount(p: Path): nat {
    if p.Legacy? then 12 else 11
  }

  /**
   * The i-th assignment of path p, in the scripts' order. The spreadsheet
   * and CSV paths make the same eleven; the legacy path computes gdp from
   * the extracted private debt percentage, then recomputes the three debt
   * percentages from gdp, and has no US-dollar keys.
   */
  function Assignment(p: Path, i: nat): Assign
    requires i < StepCount(p)
  {
    if p.Legacy? then
      match i
      case 0 => Combo(CommercialDebt, PrivateDebt, HouseholdDebt, Sub)
      case 1 => Combo(Gdp, PrivateDebt, PrivateDebtPercent, PercentOf)
      case 2 => Hundreds
      case 3 => Combo(HouseholdDebtPercent, HouseholdDebt, Gdp, PercentOf)
      case 4 => Combo(PublicDebtPercent, PublicDebt, Gdp, PercentOf)
      case 5 => Combo(CommercialDebtPercent, CommercialDebt, Gdp, PercentOf)
      case 6 => Combo(PrivateDebtPercent, PrivateDebt, Gdp, PercentOf)
      case 7 => Delta(GdpChange, Gdp)
      case 8 => Combo(AllDebtPercent, PrivateDebtPercent, PublicDebtPercent, Add)
      case 9 => Delta(CreditPercent, PrivateDebtPercent)
      case 10 => Delta(Credit, PrivateDebt)
      case _ => Combo(KeenGrowth, GdpChange, Credit, Add)
    else
      match i
      case 0 => Combo(CommercialDebt, PrivateDebt, HouseholdDebt, Sub)
      case 1 => Combo(Gdp, PrivateDebt, PrivateDebtPercent, PercentOf)
      case 2 => Combo(GdpUsd, PrivateDebtUsd, PrivateDebtPercent, PercentOf)
      case 3 => Hundreds
      case 4 => Combo(CommercialDebtPercent, CommercialDebt, Gdp, PercentOf)
      case 5 => Delta(GdpChange, Gdp)
      case 6 => Combo(AllDebtPercent, PrivateDebtPercent, PublicDebtPercent, Add)
      case 7 => Delta(CreditPercent, PrivateDebtPercent)
      case 8 => Delta(Credit, PrivateDebt)
      case 9 => Combo(KeenGrowth, GdpChange, Credit, Add)
      case _ => Combo(CommercialDebtUsd, PrivateDebtUsd, HouseholdDebtUsd, Sub)
  }

  /** The record after the first n assignments of path p. */
  function Run(r: Record, p: Path, n: nat): Record
    requires n <= StepCount(p)
    decreases n
  {
    if n == 0 then r else Step(Run(r, p, n - 1), Assignment(p, n - 1), p.Csv?)
  }

  /** The unguarded `getCountry` of the spreadsheet paths. */
  function WithDerived(r: Record): Record {
    Run(r, Spreadsheet, StepCount(Spreadsheet))
  }

  /** The guarded assignments of the CSV path. */
  function WithGuardedDerived(r: Record): Record {
    Run(r, Csv, StepCount(Csv))
  }

  /** The legacy `getCountry`. */
  function WithLegacyDerived(r: Record): Record {
    Run(r, Legacy, StepCount(Legacy))
  }

  /** The assignments of the unguarded `getCountry`, one after the other. */
  method AddDerived(r: Record) returns (out: Record)
    ensures out == WithDerived(r)
  {
    out := StoreCombine(r, CommercialDebt, PrivateDebt, HouseholdDebt, Sub);
    assert out == Run(r, Spreadsheet, 1);
    out := StoreCombine(out, Gdp, PrivateDebt, PrivateDebtPercent, PercentOf);
    assert out == Run(r, Spreadsheet, 2);
    out := StoreCombine(out, GdpUsd, PrivateDebtUsd, PrivateDebtPercent, PercentOf);
    assert out == Run(r, Spreadsheet, 3);
    out := out[GdpPercent := Arr(HundredsOf(out))];
    assert out == Run(r, Spreadsheet, 4);
    out := StoreCombine(out, CommercialDebtPercent, CommercialDebt, Gdp, PercentOf);
    assert out == Run(r, Spreadsheet, 5);
    out := StoreDiff(out, GdpChange, Gdp);
    assert out == Run(r, Spreadsheet, 6);
    out := StoreCombine(out, AllDebtPercent, PrivateDebtPercent, PublicDebtPercent, Add);
    assert out == Run(r, Spreadsheet, 7);
    out := StoreDiff(out, CreditPercent, PrivateDebtPercent);
    assert out == Run(r, Spreadsheet, 8);
    out := StoreDiff(out, Credit, PrivateDebt);
    assert out == Run(r, Spreadsheet, 9);
    out := StoreCombine(out, KeenGrowth, GdpChange, Credit, Add);
    assert out == Run(r, Spreadsheet, 10);
    out := StoreCombine(out, CommercialDebtUsd, PrivateDebtUsd, HouseholdDebtUsd, Sub);
  }

  /** For a country that reports only in US dollars, copy each `…Usd` series to its domestic key. */
  function WithUsdFallback(r: Record): Record {
    var r1 := if !Present(r, PrivateDebt) && Present(r, PrivateDebtUsd) then r[PrivateDebt := r[PrivateDebtUsd]] else r;
    var r2 := if !Present(r1, HouseholdDebt) && Present(r1, HouseholdDebtUsd) then r1[HouseholdDebt := r1[HouseholdDebtUsd]] else r1;
    if !Present(r2, PublicDebt) && Present(r2, PublicDebtUsd) then r2[PublicDebt := r2[PublicDebtUsd]] else r2
  }

  /** The CSV post-processing after pruning: the USD fallback, then the guarded graph. */
  function CsvDerived(r: Record): Record {
    WithGuardedDerived(WithUsdFallback(r))
  }

  /** The USD fallback of the CSV path, one key after the other. */
  method ApplyUsdFallback(r: Record) returns (out: Record)
    ensures out == WithUsdFallback(r)
  {
    out := r;
    if !Present(out, PrivateDebt) && Present(out, PrivateDebtUsd) {
      out := out[PrivateDebt := out[PrivateDebtUsd]];
    }
    if !Present(out, HouseholdDebt) && Present(out, HouseholdDebtUsd) {
      out := out[HouseholdDebt := out[HouseholdDebtUsd]];
    }
    if !Present(out, PublicDebt) && Present(out, PublicDebtUsd) {
      out := out[PublicDebt := out[PublicDebtUsd]];
    }
  }

  /** The guarded assignments of the CSV path, one after the other. */
  method AddGuardedDerived(r: Record) returns (out: Record)
    ensures out == WithGuardedDerived(r)
  {
    out := StoreCombineWhen(r, CommercialDebt, PrivateDebt, HouseholdDebt, Sub);
    assert out == Run(r, Csv, 1);
    out := StoreCombineWhen(out, Gdp, PrivateDebt, PrivateDebtPercent, PercentOf);
    assert out == Run(r, Csv, 2);
    out := StoreCombineWhen(out, GdpUsd, PrivateDebtUsd, PrivateDebtPercent, PercentOf);
    assert out == Run(r, Csv, 3);
    if Present(out, Gdp) || Present(out, GdpUsd) {
      out := out[GdpPercent := Arr(HundredsOf(out))];
    }
    assert out == Run(r, Csv, 4);
    out := StoreCombineWhen(out, CommercialDebtPercent, CommercialDebt, Gdp, PercentOf);
    assert out == Run(r, Csv, 5);
    out := StoreDiffWhen(out, GdpChange, Gdp);
    assert out == Run(r, Csv, 6);
    out := StoreCombineWhen(out, AllDebtPercent, PrivateDebtPercent, PublicDebtPercent, Add);
    assert out == Run(r, Csv, 7);
    out := StoreDiffWhen(out, CreditPercent, PrivateDebtPercent);
    assert out == Run(r, Csv, 8);
    out := StoreDiffWhen(out, Credit, PrivateDebt);
    assert out == Run(r, Csv, 9);
    out := StoreCombineWhen(out, KeenGrowth, GdpChange, Credit, Add);
    assert out == Run(r, Csv, 10);
    out := StoreCombineWhen(out, CommercialDebtUsd, PrivateDebtUsd, HouseholdDebtUsd, Sub);
  }

  /** The fallback, then the guarded assignments: the CSV post-processing. */
  method AddCsvDerived(r: Record) returns (out: Record)
    ensures out == CsvDerived(r)
  {
    out := ApplyUsdFallback(r);
    out := AddGuardedDerived(out);
  }

  /** The assignments of the legacy `getCountry`, one after the other. */
  method AddLegacyDerived(r: Record) returns (out: Record)
    ensures out == WithLegacyDerived(r)
  {
    out := StoreCombine(r, CommercialDebt, PrivateDebt, HouseholdDebt, Sub);
    assert out == Run(r, Legacy, 1);
    out := StoreCombine(out, Gdp, PrivateDebt, PrivateDebtPercent, PercentOf);
    assert out == Run(r, Legacy, 2);
    out := out[GdpPercent := Arr(HundredsOf(out))];
    assert out == Run(r, Legacy, 3);
    out := StoreCombine(out, HouseholdDebtPercent, HouseholdDebt, Gdp, PercentOf);
    assert out == Run(r, Legacy, 4);
    out := StoreCombine(out, PublicDebtPercent, PublicDebt, Gdp, PercentOf);
    assert out == Run(r, Legacy, 5);
    out := StoreCombine(out, CommercialDebtPercent, CommercialDebt, Gdp, PercentOf);
    assert out == Run(r, Legacy, 6);
    out := StoreCombine(out, PrivateDebtPercent, PrivateDebt, Gdp, PercentOf);
    assert out == Run(r, Legacy, 7);
    out := StoreDiff(out, GdpChange, Gdp);
    assert out == Run(r, Legacy, 8);
    out := StoreCombine(out, AllDebtPercent, PrivateDebtPercent, PublicDebtPercent, Add);
    assert out == Run(r, Legacy, 9);
    out := StoreDiff(out, CreditPercent, PrivateDebtPercent);
    assert out == Run(r, Legacy, 10);
    out := StoreDiff(out, Credit, PrivateDebt);
    assert out == Run(r, Legacy, 11);
    out := StoreCombine(out, KeenGrowth, GdpChange, Credit, Add);
  }

  // ----------------------------------------------------------- formulas

  /** commercialDebt = privateDebt - householdDebt. */
  function CommercialDebtOf(r: Record): Option<Series> {
    CombineOf(Get(r, PrivateDebt), Get(r, HouseholdDebt), Sub)
  }

  /** gdp = privateDebt / privateDebtPercent * 100: private debt over its share of gdp. */
  function GdpOf(r: Record): Option<Series> {
    CombineOf(Get(r, PrivateDebt), Get(r, PrivateDebtPercent), PercentOf)
  }

  /** gdpUsd = privateDebtUsd / privateDebtPercent * 100. */
  function GdpUsdOf(r: Record): Option<Series> {
    CombineOf(Get(r, PrivateDebtUsd), Get(r, PrivateDebtPercent), PercentOf)
  }

  /** commercialDebtPercent = commercialDebt / gdp * 100. */
  function CommercialDebtPercentOf(r: Record): Option<Series> {
    CombineOf(CommercialDebtOf(r), GdpOf(r), PercentOf)
  }

  /** gdpChange = diff(gdp). */
  function GdpChangeOf(r: Record): Option<Series> {
    DiffOf(GdpOf(r))
  }

  /** allDebtPercent = privateDebtPercent + publicDebtPercent. */
  function AllDebtPercentOf(r: Record): Option<Series> {
    CombineOf(Get(r, PrivateDebtPercent), Get(r, PublicDebtPercent), Add)
  }

  /** creditPercent = diff(privateDebtPercent). */
  function CreditPercentOf(r: Record): Option<Series> {
    DiffOf(Get(r, PrivateDebtPercent))
  }

  /** credit = diff(privateDebt): the new private credit of each period. */
  function CreditOf(r: Record): Option<Series> {
    DiffOf(Get(r, PrivateDebt))
  }

  /** keenGrowth = gdpChange + credit. */
  function KeenGrowthOf(r: Record): Option<Series> {
    CombineOf(GdpChangeOf(r), CreditOf(r), Add)
  }

  /** commercialDebtUsd = privateDebtUsd - householdDebtUsd. */
  function CommercialDebtUsdOf(r: Record): Option<Series> {
    CombineOf(Get(r, PrivateDebtUsd), Get(r, HouseholdDebtUsd), Sub)
  }

  /**
   * The legacy `<k>Percent = k / gdp * 100`, for household, public and
   * private debt; gdp itself comes from the extracted private debt percentage.
   */
  function LegacyPercentOf(r: Record, k: Metric): Option<Series> {
    CombineOf(Get(r, k), GdpOf(r), PercentOf)
  }

  /** The legacy allDebtPercent, from the recomputed private and public percentages. */
  function LegacyAllDebtPercentOf(r: Record): Option<Series> {
    CombineOf(LegacyPercentOf(r, PrivateDebt), LegacyPercentOf(r, PublicDebt), Add)
  }

  /** The legacy creditPercent, from the recomputed private debt percentage. */
  function LegacyCreditPercentOf(r: Record): Option<Series> {
    DiffOf(LegacyPercentOf(r, PrivateDebt))
  }

  /**
   * What key k of a pruned record r reads as once path p has made all its
   * assignments: its formula for a key the path assigns, r's own value
   * for any other key.
   */
  function FormulaOf(p: Path, r: Record, k: Metric): Option<Series> {
    match k
    case CommercialDebt => CommercialDebtOf(r)
    case Gdp => GdpOf(r)
    case GdpUsd => if p.Legacy? then Get(r, k) else GdpUsdOf(r)
    case GdpPercent =>
      if p.Csv? && GdpOf(r).None? && GdpUsdOf(r).None? then None else Some(HundredsOf(r))
    case HouseholdDebtPercent => if p.Legacy? then LegacyPercentOf(r, HouseholdDebt) else Get(r, k)
    case PublicDebtPercent => if p.Legacy? then LegacyPercentOf(r, PublicDebt) else Get(r, k)
    case PrivateDebtPercent => if p.Legacy? then LegacyPercentOf(r, PrivateDebt) else Get(r, k)
    case CommercialDebtPercent => CommercialDebtPercentOf(r)
    case GdpChange => GdpChangeOf(r)
    case AllDebtPercent => if p.Legacy? then LegacyAllDebtPercentOf(r) else AllDebtPercentOf(r)
    case CreditPercent => if p.Legacy? then LegacyCreditPercentOf(r) else CreditPercentOf(r)
    case Credit => CreditOf(r)
    case KeenGrowth => KeenGrowthOf(r)
    case CommercialDebtUsd => if p.Legacy? then Get(r, k) else CommercialDebtUsdOf(r)
    case _ => Get(r, k)
  }

  /**
   * The position of the assignment to k in path p's list, or the length
   * of the list when p does not assign k.
   */
  function StepOf(p: Path, k: Metric): (i: nat)
    ensures i <= StepCount(p)
    ensures i < StepCount(p) ==> Target(Assignment(p, i)) == k
  {
    if p.Legacy? then
      match k
      case CommercialDebt => 0
      case Gdp => 1
      case GdpPercent => 2
      case HouseholdDebtPercent => 3
      case PublicDebtPercent => 4
      case CommercialDebtPercent => 5
      case PrivateDebtPercent => 6
      case GdpChange => 7
      case AllDebtPercent => 8
      case CreditPercent => 9
      case Credit => 10
      case KeenGrowth => 11
      case _ => 12
    else
      match k
      case CommercialDebt => 0
      case Gdp => 1
      case GdpUsd => 2
      case GdpPercent => 3
      case CommercialDebtPercent => 4
      case GdpChange => 5
      case AllDebtPercent => 6
      case CreditPercent => 7
      case Credit => 8
      case KeenGrowth => 9
      case CommercialDebtUsd => 10
      case _ => 11
  }

  /** No key is assigned twice: the i-th assignment is the one `StepOf` names. */
  lemma StepOfTarget(p: Path, i: nat)
    requires i < StepCount(p)
    ensures StepOf(p, Target(Assignment(p, i))) == i
  {
  }

  /** The eleven keys the newer `getCountry` assigns. */
  predicate IsDerived(k: Metric) {
    StepOf(Spreadsheet, k) < StepCount(Spreadsheet)
  }

  /** A record holding no derived key yet, as pruning leaves it. */
  predicate RawOnly(r: Record) {
    forall k :: k in r ==> !IsDerived(k)
  }

  // ----------------------------------------- the assignments compute the formulas

  /**
   * What an assigned key holds after the graph: the formula's array or
   * `null`; on the CSV path a null formula leaves the key absent.
   */
  function Assigned(p: Path, r: Record, k: Metric): Option<Prop> {
    var f := FormulaOf(p, r, k);
    if p.Csv? && f.None? then None else Some(FromOption(f))
  }

  /** What key k holds after the first n assignments of path p. */
  function Expected(p: Path, r: Record, k: Metric, n: nat): Option<Prop> {
    if StepOf(p, k) < n then Assigned(p, r, k) else Lookup(r, k)
  }

  /**
   * The invariant of the assignment list: after n assignments every key
   * assigned so far holds its formula over the pruned record, and every
   * other key is as it was.
   */
  predicate Computed(p: Path, r: Record, s: Record, n: nat) {
    forall k :: Lookup(s, k) == Expected(p, r, k, n)
  }

  /** Under the invariant every key reads as its formula or as it did. */
  lemma ComputedGet(p: Path, r: Record, s: Record, n: nat)
    requires n <= StepCount(p) && Computed(p, r, s, n)
    ensures forall k :: Get(s, k) == if StepOf(p, k) < n then FormulaOf(p, r, k) else Get(r, k)
    ensures TimeCount(s) == TimeCount(r)
  {
    forall k
      ensures Get(s, k) == if StepOf(p, k) < n then FormulaOf(p, r, k) else Get(r, k)
    {
      assert Lookup(s, k) == Expected(p, r, k, n);
    }
    assert Lookup(s, Times) == Lookup(r, Times);
  }

  /** Under the invariant a key not assigned yet reads as it did. */
  lemma ComputedUnassigned(p: Path, r: Record, s: Record, n: nat, k: Metric)
    requires Computed(p, r, s, n) && StepOf(p, k) >= n
    ensures Get(s, k) == Get(r, k)
  {
    assert Lookup(s, k) == Expected(p, r, k, n);
  }

  /** Under the invariant a key already assigned reads as its formula. */
  lemma ComputedAssigned(p: Path, r: Record, s: Record, n: nat, k: Metric)
    requires Computed(p, r, s, n) && StepOf(p, k) < n
    ensures Get(s, k) == FormulaOf(p, r, k)
  {
    assert Lookup(s, k) == Expected(p, r, k, n);
  }

  /** The extracted series the newer scripts' assignments read, and the time axis, as pruning left them. */
  predicate RawInputsKept(r: Record, s: Record) {
    && Get(s, PrivateDebt) == Get(r, PrivateDebt)
    && Get(s, HouseholdDebt) == Get(r, HouseholdDebt)
    && Get(s, PrivateDebtPercent) == Get(r, PrivateDebtPercent)
    && Get(s, PublicDebtPercent) == Get(r, PublicDebtPercent)
    && Get(s, PrivateDebtUsd) == Get(r, PrivateDebtUsd)
    && Get(s, HouseholdDebtUsd) == Get(r, HouseholdDebtUsd)
    && TimeCount(s) == TimeCount(r)
  }

  /** The derived inputs of the newer scripts' i-th assignment: each key assigned before i as its formula. */
  predicate DerivedInputsBefore(r: Record, s: Record, i: nat) {
    && (i > 0 ==> Get(s, CommercialDebt) == CommercialDebtOf(r))
    && (i > 1 ==> Get(s, Gdp) == GdpOf(r))
    && (i > 2 ==> Get(s, GdpUsd) == GdpUsdOf(r))
    && (i > 5 ==> Get(s, GdpChange) == GdpChangeOf(r))
    && (i > 8 ==> Get(s, Credit) == CreditOf(r))
  }

  /**
   * What the inputs of the newer scripts' i-th assignment read: the
   * extracted series as pruning left them, and each key assigned before
   * i as its formula.
   */
  predicate InputsBefore(r: Record, s: Record, i: nat) {
    RawInputsKept(r, s) && DerivedInputsBefore(r, s, i)
  }

  /** The extracted series the legacy assignments read, and the time axis, as pruning left them. */
  predicate LegacyRawInputsKept(r: Record, s: Record) {
    && Get(s, PrivateDebt) == Get(r, PrivateDebt)
    && Get(s, HouseholdDebt) == Get(r, HouseholdDebt)
    && Get(s, PublicDebt) == Get(r, PublicDebt)
    && TimeCount(s) == TimeCount(r)
  }

  /**
   * The derived inputs of the legacy i-th assignment: `privateDebtPercent`
   * is the extracted series up to its overwrite at assignment 6 and the
   * recomputed one after it.
   */
  predicate LegacyDerivedInputsBefore(r: Record, s: Record, i: nat) {
    && (i <= 6 ==> Get(s, PrivateDebtPercent) == Get(r, PrivateDebtPercent))
    && (i > 6 ==> Get(s, PrivateDebtPercent) == LegacyPercentOf(r, PrivateDebt))
    && (i > 4 ==> Get(s, PublicDebtPercent) == LegacyPercentOf(r, PublicDebt))
    && (i > 0 ==> Get(s, CommercialDebt) == CommercialDebtOf(r))
    && (i > 1 ==> Get(s, Gdp) == GdpOf(r))
    && (i > 7 ==> Get(s, GdpChange) == GdpChangeOf(r))
    && (i > 10 ==> Get(s, Credit) == CreditOf(r))
  }

  /** What the inputs of the legacy i-th assignment read. */
  predicate LegacyInputsBefore(r: Record, s: Record, i: nat) {
    LegacyRawInputsKept(r, s) && LegacyDerivedInputsBefore(r, s, i)
  }

  /** Under the invariant the newer scripts' extracted inputs read as pruning left them. */
  lemma RawInputsFromInvariant(p: Path, r: Record, s: Record, i: nat)
    requires !p.Legacy? && i < StepCount(p) && Computed(p, r, s, i)
    ensures RawInputsKept(r, s)
  {
    ComputedUnassigned(p, r, s, i, PrivateDebt);
    ComputedUnassigned(p, r, s, i, HouseholdDebt);
    ComputedUnassigned(p, r, s, i, PrivateDebtPercent);
    ComputedUnassigned(p, r, s, i, PublicDebtPercent);
    ComputedUnassigned(p, r, s, i, PrivateDebtUsd);
    ComputedUnassigned(p, r, s, i, HouseholdDebtUsd);
    ComputedUnassigned(p, r, s, i, Times);
  }

  /** Under the invariant the newer scripts' derived inputs read as their formulas. */
  lemma DerivedInputsFromInvariant(p: Path, r: Record, s: Record, i: nat)
    requires !p.Legacy? && i < StepCount(p) && Computed(p, r, s, i)
    ensures DerivedInputsBefore(r, s, i)
  {
    EarlyInputsFromInvariant(p, r, s, i);
    LateInputsFromInvariant(p, r, s, i);
  }

  /** The newer scripts' inputs assigned by the first three assignments. */
  lemma EarlyInputsFromInvariant(p: Path, r: Record, s: Record, i: nat)
    requires !p.Legacy? && i < StepCount(p) && Computed(p, r, s, i)
    ensures i > 0 ==> Get(s, CommercialDebt) == CommercialDebtOf(r)
    ensures i > 1 ==> Get(s, Gdp) == GdpOf(r)
    ensures i > 2 ==> Get(s, GdpUsd) == GdpUsdOf(r)
  {
    if i > 0 { ComputedAssigned(p, r, s, i, CommercialDebt); }
    if i > 1 { ComputedAssigned(p, r, s, i, Gdp); }
    if i > 2 { ComputedAssigned(p, r, s, i, GdpUsd); }
  }

  /** The newer scripts' inputs assigned by later assignments. */
  lemma LateInputsFromInvariant(p: Path, r: Record, s: Record, i: nat)
    requires !p.Legacy? && i < StepCount(p) && Computed(p, r, s, i)
    ensures i > 5 ==> Get(s, GdpChange) == GdpChangeOf(r)
    ensures i > 8 ==> Get(s, Credit) == CreditOf(r)
  {
    if i > 5 { ComputedAssigned(p, r, s, i, GdpChange); }
    if i > 8 { ComputedAssigned(p, r, s, i, Credit); }
  }

  /** Under the invariant the legacy extracted inputs read as pruning left them. */
  lemma LegacyRawInputsFromInvariant(r: Record, s: Record, i: nat)
    requires i < StepCount(Legacy) && Computed(Legacy, r, s, i)
    ensures LegacyRawInputsKept(r, s)
  {
    ComputedUnassigned(Legacy, r, s, i, PrivateDebt);
    ComputedUnassigned(Legacy, r, s, i, HouseholdDebt);
    ComputedUnassigned(Legacy, r, s, i, PublicDebt);
    ComputedUnassigned(Legacy, r, s, i, Times);
  }

  /** Under the invariant the legacy derived inputs read as stated. */
  lemma LegacyDerivedInputsFromInvariant(r: Record, s: Record, i: nat)
    requires i < StepCount(Legacy) && Computed(Legacy, r, s, i)
    ensures LegacyDerivedInputsBefore(r, s, i)
  {
    LegacyPercentInputsFromInvariant(r, s, i);
    LegacyGrowthInputsFromInvariant(r, s, i);
  }

  /** The legacy percentage inputs: the extracted one until overwritten, then the recomputed ones. */
  lemma LegacyPercentInputsFromInvariant(r: Record, s: Record, i: nat)
    requires i < StepCount(Legacy) && Computed(Legacy, r, s, i)
    ensures i <= 6 ==> Get(s, PrivateDebtPercent) == Get(r, PrivateDebtPercent)
    ensures i > 6 ==> Get(s, PrivateDebtPercent) == LegacyPercentOf(r, PrivateDebt)
    ensures i > 4 ==> Get(s, PublicDebtPercent) == LegacyPercentOf(r, PublicDebt)
  {
    if i <= 6 { ComputedUnassigned(Legacy, r, s, i, PrivateDebtPercent); }
    if i > 6 { ComputedAssigned(Legacy, r, s, i, PrivateDebtPercent); }
    if i > 4 { ComputedAssigned(Legacy, r, s, i, PublicDebtPercent); }
  }

  /** The legacy inputs of the growth and credit assignments. */
  lemma LegacyGrowthInputsFromInvariant(r: Record, s: Record, i: nat)
    requires i < StepCount(Legacy) && Computed(Legacy, r, s, i)
    ensures i > 0 ==> Get(s, CommercialDebt) == CommercialDebtOf(r)
    ensures i > 1 ==> Get(s, Gdp) == GdpOf(r)
    ensures i > 7 ==> Get(s, GdpChange) == GdpChangeOf(r)
    ensures i > 10 ==> Get(s, Credit) == CreditOf(r)
  {
    if i > 0 { ComputedAssigned(Legacy, r, s, i, CommercialDebt); }
    if i > 1 { ComputedAssigned(Legacy, r, s, i, Gdp); }
    if i > 7 { ComputedAssigned(Legacy, r, s, i, GdpChange); }
    if i > 10 { ComputedAssigned(Legacy, r, s, i, Credit); }
  }

  /**
   * The i-th assignment of path p, made on a record that holds the
   * formulas of the keys assigned before it, computes its own key's
   * formula; on the CSV path, a failed guard means the formula is null.
   */
  lemma EvalIsFormula(p: Path, r: Record, s: Record, i: nat)
    requires i < StepCount(p) && Computed(p, r, s, i)
    ensures var x := Assignment(p, i);
            FormulaOf(p, r, Target(x)) == if p.Csv? && !Guard(s, x) then None else Eval(s, x)
  {
    if p.Legacy? {
      LegacyRawInputsFromInvariant(r, s, i);
      LegacyDerivedInputsFromInvariant(r, s, i);
      if i < 4 {
        LegacyEvalA(r, s, i);
      } else if i < 8 {
        LegacyEvalB(r, s, i);
      } else if i < 10 {
        LegacyEvalC(r, s, i);
      } else {
        LegacyEvalD(r, s, i);
      }
    } else {
      RawInputsFromInvariant(p, r, s, i);
      DerivedInputsFromInvariant(p, r, s, i);
      if i < 4 {
        EvalA(p, r, s, i);
      } else if i < 6 {
        EvalB(p, r, s, i);
      } else if i < 8 {
        EvalC(p, r, s, i);
      } else if i < 10 {
        EvalD(p, r, s, i);
      } else {
        EvalE(p, r, s);
      }
    }
  }

  /** `EvalIsFormula` for the newer scripts' assignments 0 to 3. */
  lemma EvalA(p: Path, r: Record, s: Record, i: nat)
    requires !p.Legacy? && 0 <= i < 4 && InputsBefore(r, s, i)
    ensures var x := Assignment(p, i);
            FormulaOf(p, r, Target(x)) == if p.Csv? && !Guard(s, x) then None else Eval(s, x)
  {
    match i
    case 0 =>
    case 1 =>
    case 2 =>
    case _ =>
  }

  /** `EvalIsFormula` for the newer scripts' assignments 4 and 5. */
  lemma EvalB(p: Path, r: Record, s: Record, i: nat)
    requires !p.Legacy? && 4 <= i < 6 && InputsBefore(r, s, i)
    ensures var x := Assignment(p, i);
            FormulaOf(p, r, Target(x)) == if p.Csv? && !Guard(s, x) then None else Eval(s, x)
  {
    match i
    case 4 =>
    case _ =>
  }

  /** `EvalIsFormula` for the newer scripts' assignments 6 and 7. */
  lemma EvalC(p: Path, r: Record, s: Record, i: nat)
    requires !p.Legacy? && 6 <= i < 8 && InputsBefore(r, s, i)
    ensures var x := Assignment(p, i);
            FormulaOf(p, r, Target(x)) == if p.Csv? && !Guard(s, x) then None else Eval(s, x)
  {
    match i
    case 6 =>
    case _ =>
  }

  /** `EvalIsFormula` for the newer scripts' assignments 8 and 9. */
  lemma EvalD(p: Path, r: Record, s: Record, i: nat)
    requires !p.Legacy? && 8 <= i < 10 && InputsBefore(r, s, i)
    ensures var x := Assignment(p, i);
            FormulaOf(p, r, Target(x)) == if p.Csv? && !Guard(s, x) then None else Eval(s, x)
  {
    match i
    case 8 =>
    case _ =>
  }

  /** `EvalIsFormula` for the newer scripts' assignment 10. */
  lemma EvalE(p: Path, r: Record, s: Record)
    requires !p.Legacy? && InputsBefore(r, s, 10)
    ensures var x := Assignment(p, 10);
            FormulaOf(p, r, Target(x)) == if p.Csv? && !Guard(s, x) then None else Eval(s, x)
  {
  }

  /** `EvalIsFormula` for the legacy assignments 0 to 3. */
  lemma LegacyEvalA(r: Record, s: Record, i: nat)
    requires 0 <= i < 4 && LegacyInputsBefore(r, s, i)
    ensures FormulaOf(Legacy, r, Target(Assignment(Legacy, i))) == Eval(s, Assignment(Legacy, i))
  {
    match i
    case 0 =>
    case 1 =>
    case 2 =>
    case _ =>
  }

  /** `EvalIsFormula` for the legacy assignments 4 to 7. */
  lemma LegacyEvalB(r: Record, s: Record, i: nat)
    requires 4 <= i < 8 && LegacyInputsBefore(r, s, i)
    ensures FormulaOf(Legacy, r, Target(Assignment(Legacy, i))) == Eval(s, Assignment(Legacy, i))
  {
    match i
    case 4 =>
    case 5 =>
    case 6 =>
    case _ =>
  }

  /** `EvalIsFormula` for the legacy assignments 8 and 9. */
  lemma LegacyEvalC(r: Record, s: Record, i: nat)
    requires 8 <= i < 10 && LegacyInputsBefore(r, s, i)
    ensures FormulaOf(Legacy, r, Target(Assignment(Legacy, i))) == Eval(s, Assignment(Legacy, i))
  {
    match i
    case 8 =>
    case _ =>
  }

  /** `EvalIsFormula` for the legacy assignments 10 and 11. */
  lemma LegacyEvalD(r: Record, s: Record, i: nat)
    requires 10 <= i < 12 && LegacyInputsBefore(r, s, i)
    ensures FormulaOf(Legacy, r, Target(Assignment(Legacy, i))) == Eval(s, Assignment(Legacy, i))
  {
    match i
    case 10 =>
    case _ =>
  }

  /** One more assignment keeps the invariant. */
  lemma AssignComputes(p: Path, r: Record, s: Record, i: nat)
    requires i < StepCount(p) && Computed(p, r, s, i)
    requires p.Csv? ==> RawOnly(r)
    ensures Computed(p, r, Step(s, Assignment(p, i), p.Csv?), i + 1)
  {
    var x := Assignment(p, i);
    var t := Step(s, x, p.Csv?);
    EvalIsFormula(p, r, s, i);
    StepOfTarget(p, i);
    forall k
      ensures Lookup(t, k) == Expected(p, r, k, i + 1)
    {
      if k == Target(x) {
        assert Lookup(s, k) == Expected(p, r, k, i);
        if p.Csv? && Guard(s, x) {
          GuardedStoresArray(s, x);
        }
      } else {
        StepKeeps(s, x, p.Csv?, k);
        assert Lookup(s, k) == Expected(p, r, k, i);
      }
    }
  }

  /** After any number of assignments the invariant holds. */
  lemma {:induction false} RunComputes(p: Path, r: Record, n: nat)
    requires n <= StepCount(p)
    requires p.Csv? ==> RawOnly(r)
    ensures Computed(p, r, Run(r, p, n), n)
    decreases n
  {
    if n > 0 {
      var s := Run(r, p, n - 1);
      RunComputes(p, r, n - 1);
      AssignComputes(p, r, s, n - 1);
      assert Run(r, p, n) == Step(s, Assignment(p, n - 1), p.Csv?);
    }
  }

  /** Every key of w reads as path p's formula over the pruned record r says. */
  predicate ReadsAsFormulas(p: Path, r: Record, w: Record) {
    forall k :: Get(w, k) == FormulaOf(p, r, k)
  }

  /**
   * The scripts' assignment order computes every formula: no array is read
   * before it is assigned or after an input of it is overwritten. Every
   * key reads as `FormulaOf` says; an assigned key holds its formula (or
   * `null`, or on the CSV path nothing, when the formula is null) and every
   * other key is untouched. On the CSV path this needs a record with no
   * derived key yet, since there a guarded assignment may keep an old value.
   */
  lemma DerivedFormulas(p: Path, r: Record)
    requires p.Csv? ==> RawOnly(r)
    ensures var w := Run(r, p, StepCount(p));
            && ReadsAsFormulas(p, r, w)
            && (forall k :: StepOf(p, k) < StepCount(p) ==> Lookup(w, k) == Assigned(p, r, k))
            && (forall k :: StepOf(p, k) == StepCount(p) ==> Lookup(w, k) == Lookup(r, k))
  {
    var n := StepCount(p);
    var w := Run(r, p, n);
    RunComputes(p, r, n);
    ComputedGet(p, r, w, n);
    forall k
      ensures Get(w, k) == FormulaOf(p, r, k)
    {
      if StepOf(p, k) == n {
        assert FormulaOf(p, r, k) == Get(r, k);
      }
    }
  }

  // ----------------------------------------------------------- alignment

  /**
   * An assignment to a key other than `times` keeps an aligned record with
   * a non-empty time axis aligned: `combine` of two arrays as long as
   * `times` is as long, and so is `diff` (of an empty array it would be
   * `[0, null]`, two entries too many).
   */
  lemma StepAligned(r: Record, x: Assign, guarded: bool)
    requires Aligned(r) && TimeCount(r) > 0 && Target(x) != Times
    ensures Aligned(Step(r, x, guarded)) && Step(r, x, guarded)[Times] == r[Times]
  {
    var e := Eval(r, x);
    assert e.Some? ==> |e.value| == TimeCount(r);
  }

  /** The assignments of every path keep an aligned record with a non-empty time axis aligned. */
  lemma {:induction false} RunAligned(p: Path, r: Record, n: nat)
    requires n <= StepCount(p)
    requires Aligned(r) && TimeCount(r) > 0
    ensures Aligned(Run(r, p, n)) && Run(r, p, n)[Times] == r[Times]
    decreases n
  {
    if n > 0 {
      RunAligned(p, r, n - 1);
      StepOfTarget(p, n - 1);
      StepAligned(Run(r, p, n - 1), Assignment(p, n - 1), p.Csv?);
    }
  }

  // ------------------------------------------------ the spreadsheet path

  /**
   * After the canonical zero rewrite no array holds a 0, so the divisors of
   * `gdp` and `commercialDebtPercent` are never zero: `gdp` is null exactly
   * where `privateDebt` or `privateDebtPercent` is, is never 0 itself, and
   * `commercialDebtPercent` is null exactly where `commercialDebt` or `gdp` is.
   */
  lemma GdpDivisorsNonZero(r: Record)
    requires Aligned(r) && ZeroFree(r) && TimeCount(r) > 0
    requires Present(r, PrivateDebt) && Present(r, PrivateDebtPercent) && Present(r, HouseholdDebt)
    ensures GdpDivisorsIn(r, WithDerived(r))
  {
    DerivedFormulas(Spreadsheet, r);
    RunAligned(Spreadsheet, r, StepCount(Spreadsheet));
    GdpDivisorsFrom(r, WithDerived(r));
  }

  /** The conclusion of `GdpDivisorsNonZero`, about a record w derived from r. */
  predicate GdpDivisorsIn(r: Record, w: Record)
    requires Present(r, PrivateDebt) && Present(r, PrivateDebtPercent)
  {
    var pd, pct := r[PrivateDebt].values, r[PrivateDebtPercent].values;
    && |pd| == TimeCount(r) && |pct| == TimeCount(r)
    && Present(w, Gdp) && Present(w, CommercialDebt) && Present(w, CommercialDebtPercent)
    && var gdp, cd, cdp := Get(w, Gdp).value, Get(w, CommercialDebt).value, Get(w, CommercialDebtPercent).value;
    && NoZeros(gdp) && |gdp| == TimeCount(r) && |cd| == TimeCount(r) && |cdp| == TimeCount(r)
    && (forall i :: 0 <= i < TimeCount(r) ==> (gdp[i].Some? <==> pd[i].Some? && pct[i].Some?))
    && (forall i :: 0 <= i < TimeCount(r) ==> (cdp[i].Some? <==> cd[i].Some? && gdp[i].Some?))
  }

  /** `GdpDivisorsNonZero` for any aligned record that reads as the spreadsheet formulas. */
  lemma GdpDivisorsFrom(r: Record, w: Record)
    requires Aligned(r) && ZeroFree(r) && TimeCount(r) > 0
    requires Present(r, PrivateDebt) && Present(r, PrivateDebtPercent) && Present(r, HouseholdDebt)
    requires ReadsAsFormulas(Spreadsheet, r, w) && Aligned(w) && w[Times] == r[Times]
    ensures GdpDivisorsIn(r, w)
  {
    assert Get(w, Gdp) == GdpOf(r) && Get(w, CommercialDebt) == CommercialDebtOf(r);
    assert Get(w, CommercialDebtPercent) == CommercialDebtPercentOf(r);
    var pd, pct := r[PrivateDebt].values, r[PrivateDebtPercent].values;
    assert NoZeros(pd) && NoZeros(pct);
    PercentOfZeroFree(pd, pct);
    var gdp, cd := GdpOf(r).value, CommercialDebtOf(r).value;
    var cdp := CommercialDebtPercentOf(r).value;
    CombineOfEntries(cd, gdp, PercentOf);
    forall i | 0 <= i < TimeCount(r)
      ensures cdp[i].Some? <==> cd[i].Some? && gdp[i].Some?
    {
      if cd[i].Some? && gdp[i].Some? {
        assert gdp[i] != Some(0.0);
      }
    }
  }

  /**
   * Keen's growth measure: where gdp and private debt are known at two
   * consecutive time points, `keenGrowth` there is the change in gdp plus
   * the change in private debt.
   */
  lemma KeenGrowthIsSumOfChanges(r: Record, i: nat)
    requires Aligned(r) && TimeCount(r) > 0
    requires 1 <= i < TimeCount(r)
    requires Present(r, PrivateDebt) && Present(r, PrivateDebtPercent)
    ensures KeenGrowthIn(r, WithDerived(r), i)
  {
    DerivedFormulas(Spreadsheet, r);
    RunAligned(Spreadsheet, r, StepCount(Spreadsheet));
    KeenGrowthFrom(r, WithDerived(r), i);
  }

  /** The conclusion of `KeenGrowthIsSumOfChanges`, about a record w derived from r. */
  predicate KeenGrowthIn(r: Record, w: Record, i: nat)
    requires 1 <= i < TimeCount(r)
  {
    && Present(w, Gdp) && Present(w, PrivateDebt)
    && var gdp, pd := Get(w, Gdp).value, Get(w, PrivateDebt).value;
    && i < |gdp| && i < |pd|
    && (gdp[i - 1].Some? && gdp[i].Some? && pd[i - 1].Some? && pd[i].Some?
        ==> Present(w, KeenGrowth) && |Get(w, KeenGrowth).value| == TimeCount(r)
            && Get(w, KeenGrowth).value[i] == Some((gdp[i].value - gdp[i - 1].value) + (pd[i].value - pd[i - 1].value)))
  }

  /** `KeenGrowthIsSumOfChanges` for any aligned record that reads as the spreadsheet formulas. */
  lemma KeenGrowthFrom(r: Record, w: Record, i: nat)
    requires Aligned(r) && TimeCount(r) > 0
    requires 1 <= i < TimeCount(r)
    requires Present(r, PrivateDebt) && Present(r, PrivateDebtPercent)
    requires ReadsAsFormulas(Spreadsheet, r, w) && Aligned(w) && w[Times] == r[Times]
    ensures KeenGrowthIn(r, w, i)
  {
    assert Get(w, Gdp) == GdpOf(r) && Get(w, PrivateDebt) == Get(r, PrivateDebt);
    assert Get(w, KeenGrowth) == KeenGrowthOf(r);
    var gdp, pd := GdpOf(r).value, r[PrivateDebt].values;
    assert |gdp| == |pd| == TimeCount(r);
    assert KeenGrowthOf(r) == CombineOf(DiffOf(Some(gdp)), DiffOf(Some(pd)), Add);
    if gdp[i - 1].Some? && gdp[i].Some? && pd[i - 1].Some? && pd[i].Some? {
      KeenGrowthEntry(gdp, pd, i);
    }
  }

  /** Entry i of `combine(diff(gdp), diff(pd), +)` is the sum of the two changes. */
  lemma KeenGrowthEntry(gdp: Series, pd: Series, i: nat)
    requires 1 <= i < |gdp| && |gdp| == |pd|
    requires gdp[i - 1].Some? && gdp[i].Some? && pd[i - 1].Some? && pd[i].Some?
    ensures var k := CombineOf(DiffOf(Some(gdp)), DiffOf(Some(pd)), Add).value;
            && |k| == |gdp|
            && k[i] == Some((gdp[i].value - gdp[i - 1].value) + (pd[i].value - pd[i - 1].value))
  {
    DifferencesAt(gdp, i);
    DifferencesAt(pd, i);
    CombineOfEntries(Differences(gdp), Differences(pd), Add);
  }

  // --------------------------------------------------------- the CSV path

  /**
   * After the fallback each domestic series exists exactly when it or its
   * US-dollar series did, and a missing one is the US-dollar series;
   * present series are untouched and nothing else is added.
   */
  lemma UsdFallback(r: Record)
    ensures var f := WithUsdFallback(r);
            && (Present(f, PrivateDebt) <==> Present(r, PrivateDebt) || Present(r, PrivateDebtUsd))
            && (Present(f, HouseholdDebt) <==> Present(r, HouseholdDebt) || Present(r, HouseholdDebtUsd))
            && (Present(f, PublicDebt) <==> Present(r, PublicDebt) || Present(r, PublicDebtUsd))
            && (!Present(r, PrivateDebt) && Present(r, PrivateDebtUsd) ==> f[PrivateDebt] == r[PrivateDebtUsd])
            && (!Present(r, HouseholdDebt) && Present(r, HouseholdDebtUsd) ==> f[HouseholdDebt] == r[HouseholdDebtUsd])
            && (!Present(r, PublicDebt) && Present(r, PublicDebtUsd) ==> f[PublicDebt] == r[PublicDebtUsd])
            && (forall k :: Present(r, k) ==> k in f && f[k] == r[k])
            && (forall k :: k in f ==> k in r || k == PrivateDebt || k == HouseholdDebt || k == PublicDebt)
            && (forall k :: k != PrivateDebt && k != HouseholdDebt && k != PublicDebt ==> Lookup(f, k) == Lookup(r, k))
  {
  }

  /** The fallback only copies arrays of the record, so it keeps it aligned. */
  lemma UsdFallbackAligned(r: Record)
    requires Aligned(r)
    ensures Aligned(WithUsdFallback(r)) && WithUsdFallback(r)[Times] == r[Times]
  {
  }

  /** The fallback only fills domestic debt keys, so it adds no derived key. */
  lemma UsdFallbackRawOnly(r: Record)
    requires RawOnly(r)
    ensures RawOnly(WithUsdFallback(r))
  {
    UsdFallback(r);
  }

  /**
   * On a record with no derived key, the guarded graph sets `gdp` exactly
   * when private debt and its percentage exist, `gdpUsd` exactly when
   * private debt in US dollars and the percentage exist, and `gdpPercent`
   * exactly when one of them was set, to 100 at every time point.
   */
  lemma GuardedGdp(f: Record)
    requires RawOnly(f)
    ensures GuardedGdpIn(f, WithGuardedDerived(f))
  {
    DerivedFormulas(Csv, f);
    GuardedGdpFrom(f, WithGuardedDerived(f));
  }

  /** The conclusion of `GuardedGdp`, about a record w derived from f. */
  predicate GuardedGdpIn(f: Record, w: Record) {
    && (Present(w, Gdp) <==> Present(f, PrivateDebt) && Present(f, PrivateDebtPercent))
    && (Present(w, GdpUsd) <==> Present(f, PrivateDebtUsd) && Present(f, PrivateDebtPercent))
    && (GdpPercent in w <==> Present(w, Gdp) || Present(w, GdpUsd))
    && (GdpPercent in w ==> w[GdpPercent] == Arr(HundredsOf(f)))
  }

  /** `GuardedGdp` for any record that reads and holds as the CSV formulas say. */
  lemma GuardedGdpFrom(f: Record, w: Record)
    requires ReadsAsFormulas(Csv, f, w)
    requires Lookup(w, GdpPercent) == Assigned(Csv, f, GdpPercent)
    ensures GuardedGdpIn(f, w)
  {
    assert Get(w, Gdp) == GdpOf(f) && Get(w, GdpUsd) == GdpUsdOf(f);
  }

  /**
   * On an aligned record with a non-empty time axis and no derived key,
   * the CSV post-processing keeps the record aligned and `times`
   * unchanged; `gdp` exists exactly when private debt (domestic or,
   * failing that, in US dollars) and its percentage exist, `gdpUsd`
   * exactly when private debt in US dollars and the percentage exist, and
   * `gdpPercent` exists exactly when `gdp` or `gdpUsd` does and is then 100
   * at every time point.
   */
  lemma CsvDerivedShape(r: Record)
    requires Aligned(r) && TimeCount(r) > 0 && RawOnly(r)
    ensures var w := CsvDerived(r);
            && Aligned(w) && w[Times] == r[Times]
            && (Present(w, Gdp) <==> (Present(r, PrivateDebt) || Present(r, PrivateDebtUsd)) && Present(r, PrivateDebtPercent))
            && (Present(w, GdpUsd) <==> Present(r, PrivateDebtUsd) && Present(r, PrivateDebtPercent))
            && (GdpPercent in w <==> Present(w, Gdp) || Present(w, GdpUsd))
            && (GdpPercent in w ==> w[GdpPercent] == Arr(HundredsOf(r)))
  {
    FallbackInputs(r);
    var f := WithUsdFallback(r);
    RunAligned(Csv, f, StepCount(Csv));
    GuardedGdp(f);
  }

  /** What the guarded graph reads from the fallback's record, in terms of r. */
  lemma FallbackInputs(r: Record)
    requires Aligned(r) && TimeCount(r) > 0 && RawOnly(r)
    ensures var f := WithUsdFallback(r);
            && Aligned(f) && f[Times] == r[Times] && TimeCount(f) == TimeCount(r) && RawOnly(f)
            && (Present(f, PrivateDebt) <==> Present(r, PrivateDebt) || Present(r, PrivateDebtUsd))
            && Get(f, PrivateDebtPercent) == Get(r, PrivateDebtPercent)
            && Get(f, PrivateDebtUsd) == Get(r, PrivateDebtUsd)
  {
    UsdFallback(r);
    UsdFallbackAligned(r);
    UsdFallbackRawOnly(r);
  }

  /**
   * On the CSV path after the canonical zero rewrite the divisors are never
   * zero either: `gdp` and `gdpUsd`, where present, hold no 0, and
   * `commercialDebtPercent` is present exactly when `commercialDebt` and
   * `gdp` are, and is then null exactly where one of them is.
   */
  lemma CsvGdpDivisorsNonZero(r: Record)
    requires Aligned(r) && ZeroFree(r) && RawOnly(r) && TimeCount(r) > 0
    ensures CsvGdpDivisorsIn(r, CsvDerived(r))
  {
    FallbackInputs(r);
    var f := WithUsdFallback(r);
    assert ZeroFree(f) by {
      UsdFallback(r);
    }
    DerivedFormulas(Csv, f);
    RunAligned(Csv, f, StepCount(Csv));
    CsvGdpDivisorsFrom(f, CsvDerived(r));
  }

  /** The conclusion of `CsvGdpDivisorsNonZero`, about a record w derived from r. */
  predicate CsvGdpDivisorsIn(r: Record, w: Record) {
    && (Present(w, Gdp) ==> NoZeros(Get(w, Gdp).value))
    && (Present(w, GdpUsd) ==> NoZeros(Get(w, GdpUsd).value))
    && (Present(w, CommercialDebtPercent) <==> Present(w, CommercialDebt) && Present(w, Gdp))
    && (Present(w, CommercialDebtPercent) ==>
          var gdp, cd, cdp := Get(w, Gdp).value, Get(w, CommercialDebt).value, Get(w, CommercialDebtPercent).value;
          && |gdp| == TimeCount(r) && |cd| == TimeCount(r) && |cdp| == TimeCount(r)
          && forall i :: 0 <= i < TimeCount(r) ==> (cdp[i].Some? <==> cd[i].Some? && gdp[i].Some?))
  }

  /** `CsvGdpDivisorsNonZero` for any aligned record that reads as the CSV formulas. */
  lemma CsvGdpDivisorsFrom(f: Record, w: Record)
    requires Aligned(f) && ZeroFree(f) && TimeCount(f) > 0
    requires ReadsAsFormulas(Csv, f, w) && Aligned(w) && w[Times] == f[Times]
    ensures CsvGdpDivisorsIn(f, w)
  {
    assert Get(w, Gdp) == GdpOf(f) && Get(w, GdpUsd) == GdpUsdOf(f);
    assert Get(w, CommercialDebt) == CommercialDebtOf(f);
    assert Get(w, CommercialDebtPercent) == CommercialDebtPercentOf(f);
    if GdpOf(f).Some? {
      PercentOfZeroFree(Get(f, PrivateDebt).value, Get(f, PrivateDebtPercent).value);
    }
    if GdpUsdOf(f).Some? {
      PercentOfZeroFree(Get(f, PrivateDebtUsd).value, Get(f, PrivateDebtPercent).value);
    }
    if CommercialDebtPercentOf(f).Some? {
      var gdp, cd := GdpOf(f).value, CommercialDebtOf(f).value;
      var cdp := CommercialDebtPercentOf(f).value;
      CombineOfEntries(cd, gdp, PercentOf);
      forall i | 0 <= i < TimeCount(f)
        ensures cdp[i].Some? <==> cd[i].Some? && gdp[i].Some?
      {
        if cd[i].Some? && gdp[i].Some? {
          assert gdp[i] != Some(0.0);
        }
      }
    }
  }

  // ---------------------------------------------------------- the legacy path

  /** (a / (a / b * 100)) * 100 == b for non-zero a and b. */
  lemma PercentRoundTrip(a: real, b: real)
    requires a != 0.0 && b != 0.0
    ensures a / b * 100.0 != 0.0
    ensures a / (a / b * 100.0) * 100.0 == b
  {
    var g := a / b * 100.0;
    assert g * b == a * 100.0;
    assert (a / g) * g == a;
    assert (a / g * 100.0) * g == a * 100.0;
  }

  /**
   * The legacy overwrite of `privateDebtPercent` by privateDebt / gdp * 100
   * gives back the extracted percentage wherever both it and private debt
   * are non-zero numbers; where private debt is 0 (a blank cell scaled to
   * billions) gdp is 0 too and the overwritten percentage is null.
   */
  lemma LegacyPercentRecomputed(r: Record, i: nat)
    requires Present(r, PrivateDebt) && Present(r, PrivateDebtPercent)
    requires i < |r[PrivateDebt].values| && i < |r[PrivateDebtPercent].values|
    ensures LegacyPercentIn(r, WithLegacyDerived(r), i)
  {
    DerivedFormulas(Legacy, r);
    LegacyPercentFrom(r, WithLegacyDerived(r), i);
  }

  /** The conclusion of `LegacyPercentRecomputed`, about a record w derived from r. */
  predicate LegacyPercentIn(r: Record, w: Record, i: nat)
    requires Present(r, PrivateDebt) && Present(r, PrivateDebtPercent)
    requires i < |r[PrivateDebt].values| && i < |r[PrivateDebtPercent].values|
  {
    var pd, pct := r[PrivateDebt].values[i], r[PrivateDebtPercent].values[i];
    && Present(w, PrivateDebtPercent) && i < |Get(w, PrivateDebtPercent).value|
    && (pd.Some? && pct.Some? && pd.value != 0.0 && pct.value != 0.0
        ==> Get(w, PrivateDebtPercent).value[i] == pct)
    && (pd == Some(0.0) ==> Get(w, PrivateDebtPercent).value[i].None?)
  }

  /** `LegacyPercentRecomputed` for any record that reads as the legacy formulas. */
  lemma LegacyPercentFrom(r: Record, w: Record, i: nat)
    requires Present(r, PrivateDebt) && Present(r, PrivateDebtPercent)
    requires i < |r[PrivateDebt].values| && i < |r[PrivateDebtPercent].values|
    requires ReadsAsFormulas(Legacy, r, w)
    ensures LegacyPercentIn(r, w, i)
  {
    assert Get(w, PrivateDebtPercent) == LegacyPercentOf(r, PrivateDebt);
    var pdS, pctS := r[PrivateDebt].values, r[PrivateDebtPercent].values;
    var gdp := GdpOf(r).value;
    CombineOfEntries(pdS, pctS, PercentOf);
    CombineOfEntries(pdS, gdp, PercentOf);
    var pd, pct := pdS[i], pctS[i];
    if pd.Some? && pct.Some? && pd.value != 0.0 && pct.value != 0.0 {
      PercentRoundTrip(pd.value, pct.value);
      assert gdp[i] == Some(pd.value / pct.value * 100.0);
    }
    if pd == Some(0.0) && pct.Some? && pct.value != 0.0 {
      assert gdp[i] == Some(0.0 / pct.value * 100.0);
    }
  }
}

=== FILE: grid.dfy ===
/**
 * The BIS spreadsheet as a grid of cells, and the read-only helpers the
 * spreadsheet paths use on it: `getCell`, `findIColInHeader`,
 * `getColValues`, `getHeaders`, and the conversions applied to the cells
 * they return (`toBillions`, `convertDateStrToInt`).
 *
 * The newer scripts address the grid 0-based; the legacy script reads the
 * same sheet through a 1-based reader, so its cell (c, r) is the grid's
 * cell (c - 1, r - 1).
 */
module Grid {
  import opened Values
  import opened Text

  /** A month index as `Date.getMonth` returns it: 0 is January. */
  type Month = m: int | 0 <= m < 12

  /** The value of a cell: missing, a number, a string, or a date. */
  datatype Cell =
    | Blank
    | Num(x: real)
    | Str(s: string)
    | Date(year: int, month: Month)

  /**
   * A worksheet: its extent and the cells it holds, keyed by
   * (column, row), both 0-based.
   */
  datatype Sheet = Sheet(nRow: nat, nCol: nat, cells: map<(nat, nat), Cell>)

  /** `getCell(iCol, iRow)`: an address with no cell reads as null. */
  function GetCell(sheet: Sheet, col: nat, row: nat): Cell {
    if (col, row) in sheet.cells then sheet.cells[(col, row)] else Blank
  }

  /** The legacy reader's `getCell`, 1-based in both coordinates. */
  function LegacyCell(sheet: Sheet, col: nat, row: nat): Cell {
    if col == 0 || row == 0 then Blank else GetCell(sheet, col - 1, row - 1)
  }

  // ------------------------------------------------------- header lookup

  /** `_.includes(v, p)`: only a string value can contain a substring. */
  predicate Includes(v: Cell, p: string) {
    v.Str? && Contains(v.s, p)
  }

  /** `_.every(patterns, p => _.includes(v, p))`. */
  predicate HeaderMatches(v: Cell, patterns: seq<string>) {
    forall k :: 0 <= k < |patterns| ==> Includes(v, patterns[k])
  }

  /** A missing header cell matches no non-empty list of patterns. */
  lemma BlankNeverMatches(patterns: seq<string>)
    requires |patterns| > 0
    ensures !HeaderMatches(Blank, patterns)
  {
    assert !Includes(Blank, patterns[0]);
  }

  /** The scan of `findIColInHeader` from column `from` on, over row 0. */
  function FindFrom(sheet: Sheet, patterns: seq<string>, from: nat): (r: Option<nat>)
    ensures r.Some? ==> from <= r.value < sheet.nCol
                        && HeaderMatches(GetCell(sheet, r.value, 0), patterns)
                        && forall c :: from <= c < r.value ==> !HeaderMatches(GetCell(sheet, c, 0), patterns)
    ensures r.None? ==> forall c :: from <= c < sheet.nCol ==> !HeaderMatches(GetCell(sheet, c, 0), patterns)
    decreases sheet.nCol - from
  {
    if from >= sheet.nCol then None
    else if HeaderMatches(GetCell(sheet, from, 0), patterns) then Some(from)
    else FindFrom(sheet, patterns, from + 1)
  }

  /**
   * `findIColInHeader(patterns)`: the smallest column of [0, nCol) whose
   * row-0 header contains every pattern, or null.
   */
  function FindIColInHeader(sheet: Sheet, patterns: seq<string>): Option<nat> {
    FindFrom(sheet, patterns, 0)
  }

  /** The legacy scan from 1-based column `from` on, over row 1, up to nCol inclusive. */
  function LegacyFindFrom(sheet: Sheet, patterns: seq<string>, from: nat): (r: Option<nat>)
    ensures r.Some? ==> 1 <= r.value && from <= r.value <= sheet.nCol
                        && HeaderMatches(LegacyCell(sheet, r.value, 1), patterns)
                        && forall c :: 1 <= c && from <= c < r.value ==> !HeaderMatches(LegacyCell(sheet, c, 1), patterns)
    ensures r.None? ==> forall c :: 1 <= c && from <= c <= sheet.nCol ==> !HeaderMatches(LegacyCell(sheet, c, 1), patterns)
    decreases sheet.nCol + 1 - from
  {
    if from > sheet.nCol then None
    else if from >= 1 && HeaderMatches(LegacyCell(sheet, from, 1), patterns) then Some(from)
    else LegacyFindFrom(sheet, patterns, from + 1)
  }

  /** The legacy `findIColInHeader(patterns)`: 1-based columns 1..nCol of row 1. */
  function LegacyFindIColInHeader(sheet: Sheet, patterns: seq<string>): Option<nat> {
    LegacyFindFrom(sheet, patterns, 1)
  }

  /** Both lookups find the same header: the legacy index is one more. */
  lemma {:induction false} LegacyFindShift(sheet: Sheet, patterns: seq<string>, from: nat)
    ensures LegacyFindFrom(sheet, patterns, from + 1)
            == if FindFrom(sheet, patterns, from).Some?
               then Some(FindFrom(sheet, patterns, from).value + 1) else None
    decreases sheet.nCol - from
  {
    if from < sheet.nCol {
      assert LegacyCell(sheet, from + 1, 1) == GetCell(sheet, from, 0);
      LegacyFindShift(sheet, patterns, from + 1);
    }
  }

  /**
   * The legacy lookup returns the 1-based index of the very header the
   * 0-based lookup finds, and neither returns anything past the last column.
   */
  lemma LegacyFindIsShifted(sheet: Sheet, patterns: seq<string>)
    ensures var r := LegacyFindIColInHeader(sheet, patterns);
            var c := FindIColInHeader(sheet, patterns);
            && (r.Some? <==> c.Some?)
            && (r.Some? ==> r.value == c.value + 1 && 1 <= r.value <= sheet.nCol)
  {
    LegacyFindShift(sheet, patterns, 0);
  }

  // ------------------------------------------------------- column values

  /**
   * The rows `getColValues` reads, `_.range(4, nRow)`: rows 4..nRow-1
   * (0-based). A sheet of fewer than 4 rows makes the range count down from
   * 4, past the sheet's last row.
   */
  function DataRowIndices(sheet: Sheet): seq<nat> {
    Range(4, sheet.nRow)
  }

  /** The number of data rows `getColValues` returns. */
  function DataRows(sheet: Sheet): nat {
    |DataRowIndices(sheet)|
  }

  /** `getColValues(iCol)`: the cells of one column over the data rows. */
  function ColValues(sheet: Sheet, col: nat): (r: seq<Cell>)
    ensures |r| == DataRows(sheet) == if sheet.nRow >= 4 then sheet.nRow - 4 else 4 - sheet.nRow
    ensures forall k :: 0 <= k < |r| ==>
              r[k] == GetCell(sheet, col, if sheet.nRow >= 4 then k + 4 else 4 - k)
  {
    var rows := DataRowIndices(sheet);
    seq(|rows|, k requires 0 <= k < |rows| => GetCell(sheet, col, rows[k]))
  }

  /** The legacy `getColValues(iCol)`: `_.range(5, nRow + 1)` over 1-based rows. */
  function LegacyColValues(sheet: Sheet, col: nat): (r: seq<Cell>)
    ensures |r| == DataRows(sheet)
  {
    var rows := Range(5, sheet.nRow + 1);
    seq(|rows|, k requires 0 <= k < |rows| => LegacyCell(sheet, col, rows[k]))
  }

  /**
   * The legacy reader's column c + 1 holds the same values as the grid's
   * column c; in particular its `times` column 1 is the grid's column 0.
   */
  lemma LegacyColValuesShift(sheet: Sheet, col: nat)
    ensures LegacyColValues(sheet, col + 1) == ColValues(sheet, col)
  {
    var a, b := LegacyColValues(sheet, col + 1), ColValues(sheet, col);
    var rows, legacyRows := DataRowIndices(sheet), Range(5, sheet.nRow + 1);
    forall k | 0 <= k < |a|
      ensures a[k] == b[k]
    {
      assert legacyRows[k] == rows[k] + 1;
      assert a[k] == LegacyCell(sheet, col + 1, legacyRows[k]);
    }
  }

  /** Every cell the sheet holds lies inside its extent of nCol x nRow. */
  predicate InExtent(sheet: Sheet) {
    forall a :: a in sheet.cells ==> a.0 < sheet.nCol && a.1 < sheet.nRow
  }

  /**
   * A sheet of fewer than 4 rows yields 4 - nRow data rows, all read past
   * the last row, so every value is null.
   */
  lemma ShortSheetBlank(sheet: Sheet, col: nat)
    requires InExtent(sheet) && sheet.nRow < 4
    ensures |ColValues(sheet, col)| == 4 - sheet.nRow > 0
    ensures forall k :: 0 <= k < 4 - sheet.nRow ==> ColValues(sheet, col)[k] == Blank
  {
    forall k | 0 <= k < 4 - sheet.nRow
      ensures ColValues(sheet, col)[k] == Blank
    {
      assert (col, 4 - k) !in sheet.cells;
    }
  }

  // ------------------------------------------------------------- headers

  /**
   * `getHeaders()`: row 0 of `_.range(1, nCol)`, columns 1..nCol-1; a sheet
   * of no columns gives the single column 1 (the range counts down).
   */
  function Headers(sheet: Sheet): (r: seq<Cell>)
    ensures |r| == if sheet.nCol > 0 then sheet.nCol - 1 else 1
    ensures forall k :: 0 <= k < |r| ==> r[k] == GetCell(sheet, k + 1, 0)
  {
    var cols := Range(1, sheet.nCol);
    seq(|cols|, k requires 0 <= k < |cols| => GetCell(sheet, cols[k], 0))
  }

  /** The legacy `getHeaders()`: row 1 of `_.range(2, nCol + 1)`, 1-based. */
  function LegacyHeaders(sheet: Sheet): (r: seq<Cell>)
    ensures |r| == if sheet.nCol > 0 then sheet.nCol - 1 else 1
  {
    var cols := Range(2, sheet.nCol + 1);
    seq(|cols|, k requires 0 <= k < |cols| => LegacyCell(sheet, cols[k], 1))
  }

  /** Both readers list the same header cells. */
  lemma LegacyHeadersSame(sheet: Sheet)
    ensures LegacyHeaders(sheet) == Headers(sheet)
  {
    var a, b := LegacyHeaders(sheet), Headers(sheet);
    var cols := Range(2, sheet.nCol + 1);
    forall k | 0 <= k < |a|
      ensures a[k] == b[k]
    {
      assert cols[k] == k + 2;
      assert a[k] == LegacyCell(sheet, cols[k], 1);
    }
  }

  /**
   * A sheet of no columns still yields one header, the blank cell of column
   * 1 (the range counts down), so splitting the headers into countries throws.
   */
  lemma NoColumnsHeaderThrows(sheet: Sheet)
    requires InExtent(sheet) && sheet.nCol == 0
    ensures Headers(sheet) == LegacyHeaders(sheet) == [Blank]
    ensures CountryParts(Headers(sheet)).None?
  {
    LegacyHeadersSame(sheet);
    assert (1, 0) !in sheet.cells;
    assert Headers(sheet)[0] == Blank;
  }

  /**
   * `_.map(headers, c => _.trim(c.split('-')[0]))`. `split` exists only on
   * strings: a missing or non-string header throws a TypeError, which is
   * the `None` result.
   */
  function CountryParts(headers: seq<Cell>): (r: Option<seq<string>>)
    ensures r.Some? <==> forall k :: 0 <= k < |headers| ==> headers[k].Str?
    ensures r.Some? ==> |r.value| == |headers|
                        && forall k :: 0 <= k < |headers| ==> r.value[k] == CountryPart(headers[k].s)
  {
    if forall k :: 0 <= k < |headers| ==> headers[k].Str?
    then Some(seq(|headers|, k requires 0 <= k < |headers| => CountryPart(headers[k].s)))
    else None
  }

  // --------------------------------------------------------- conversions

  /** A cell copied unchanged: a number, or null. Other cells read as null. */
  function Raw(c: Cell): (v: Value)
    ensures v.Some? <==> c.Num?
  {
    if c.Num? then Some(c.x) else None
  }

  /**
   * `toBillions = d => d * 1e9`. JavaScript turns null into 0 before
   * multiplying, so a missing cell becomes the number 0, not null.
   */
  function Billions(c: Cell): (v: Value)
    ensures c.Blank? ==> v == Some(0.0)
    ensures c.Num? ==> v == Some(c.x * 1000000000.0)
    ensures (c.Str? || c.Date?) ==> v.None?
  {
    match c
    case Blank => Some(0.0)
    case Num(x) => Some(x * 1000000000.0)
    case _ => None
  }

  /** `convertDateStrToInt`: year + (month - 2) / 12; a non-date cell has no time. */
  function DecimalTime(c: Cell): (v: Value)
    ensures v.Some? <==> c.Date?
  {
    if c.Date? then Some(c.year as real + (c.month - 2) as real / 12.0) else None
  }

  /**
   * Dated at the last month of quarter q, a row gets time
   * year + (q - 1) / 4: January to March is year + 0, December is year + 0.75.
   */
  lemma QuarterEndTime(year: int, q: int)
    requires 1 <= q <= 4
    ensures DecimalTime(Date(year, 3 * q - 1)) == Some(year as real + (q - 1) as real / 4.0)
  {
  }
}

=== FILE: legacy.dfy ===
/**
 * fetch-bis-debt-data.js, the legacy spreadsheet script: the same sheet read
 * through a 1-based reader, four header patterns instead of nine, the
 * any-null `removeBlankValues`, and the twelve-assignment `getCountry`.
 */
module LegacyScript {
  import opened Values
  import opened Records
  import opened Text
  import opened Grid
  import opened Pruning
  import opened Derived
  import opened Spreadsheet

  /** The four patterns of the legacy `getCountryData`, in order. */
  function LegacyPatterns(): seq<Pattern> {
    [ Pattern(PrivateDebtPercent, false, NonFinancialSector, PercentageOfGdp),
      Pattern(PrivateDebt, true, NonFinancialSector, DomesticCurrency),
      Pattern(PublicDebt, true, GeneralGovernment, DomesticCurrency),
      Pattern(HouseholdDebt, true, Households, DomesticCurrency) ]
  }

  /**
   * The legacy script extracts four of the nine keys, with the same header
   * phrases and scaling as the newer scripts; no US-dollar key.
   */
  lemma LegacyPatternsAmongNine()
    ensures |LegacyPatterns()| == 4 && DistinctPatternKeys(LegacyPatterns())
    ensures forall j :: 0 <= j < 4 ==> LegacyPatterns()[j] in Patterns() && LegacyPatterns()[j].unit != UsDollar
  {
    assert LegacyPatterns()[0] == Patterns()[0];
    assert LegacyPatterns()[1] == Patterns()[1];
    assert LegacyPatterns()[2] == Patterns()[4];
    assert LegacyPatterns()[3] == Patterns()[6];
  }

  /** The legacy `getColValues(iCol)` (1-based rows 5..nRow), through `toBillions` when scaled. */
  function LegacyExtractColumn(sheet: Sheet, col: nat, scaled: bool): (r: Series)
    ensures |r| == DataRows(sheet)
  {
    var cells := LegacyColValues(sheet, col);
    seq(|cells|, k requires 0 <= k < |cells| => Convert(scaled, cells[k]))
  }

  /** The column the legacy lookup fills a pattern's key with, or `None`. */
  function LegacyColumnFor(sheet: Sheet, country: string, pat: Pattern): Option<Series> {
    match LegacyFindIColInHeader(sheet, Matches(country, pat))
    case None => None
    case Some(c) => Some(LegacyExtractColumn(sheet, c, pat.scaled))
  }

  function LegacyColumnsOf(sheet: Sheet, country: string): Pattern -> Option<Series> {
    pat => LegacyColumnFor(sheet, country, pat)
  }

  /** `_.map(getColValues(1), convertDateStrToInt)`: times from 1-based column 1. */
  function LegacyTimesColumn(sheet: Sheet): (r: Series)
    ensures |r| == DataRows(sheet)
  {
    var cells := LegacyColValues(sheet, 1);
    seq(|cells|, k requires 0 <= k < |cells| => DecimalTime(cells[k]))
  }

  /** The payload the legacy `getCountryData` prunes. */
  function LegacyRawPayload(sheet: Sheet, country: string): Payload {
    Extracted(LegacyPatterns(), LegacyColumnsOf(sheet, country)) + [Column(Times, LegacyTimesColumn(sheet))]
  }

  /** The object the legacy `getCountryData` returns: the raw payload with any-null rows dropped. */
  function LegacyCountryData(sheet: Sheet, country: string): Payload {
    Pruned(Rule.Legacy, LegacyRawPayload(sheet, country))
  }

  /** The legacy `getCountryData(country)`. */
  method LegacyGetCountryData(sheet: Sheet, country: string) returns (payload: Payload)
    ensures payload == LegacyCountryData(sheet, country)
  {
    var pats := LegacyPatterns();
    ghost var column := LegacyColumnsOf(sheet, country);
    var result: Payload := [];
    var i := 0;
    while i < |pats|
      invariant 0 <= i <= |pats|
      invariant result == Extracted(pats[..i], column)
    {
      var pat := pats[i];
      assert pats[..i + 1][..i] == pats[..i];
      assert column(pat) == LegacyColumnFor(sheet, country, pat);
      var col := LegacyFindIColInHeader(sheet, Matches(country, pat));
      if col.Some? {
        var values := LegacyExtractColumn(sheet, col.value, pat.scaled);
        result := result + [Column(pat.key, values)];
      }
      i := i + 1;
    }
    assert pats[..i] == pats;
    result := result + [Column(Times, LegacyTimesColumn(sheet))];
    payload := RemoveBlankValuesLegacy(result);
  }

  /**
   * The 1-based reader sees the grid the newer scripts read: each legacy
   * pattern finds the same header and extracts the same column as the
   * newer script's, and the time column 1 is the newer script's column 0.
   */
  lemma LegacyReadsSameColumns(sheet: Sheet, country: string, pat: Pattern)
    ensures LegacyColumnFor(sheet, country, pat) == ColumnFor(sheet, country, pat)
    ensures LegacyTimesColumn(sheet) == TimesColumn(sheet)
  {
    LegacyFindIsShifted(sheet, Matches(country, pat));
    LegacyColValuesShift(sheet, 0);
    var c := FindIColInHeader(sheet, Matches(country, pat));
    if c.Some? {
      LegacyColValuesShift(sheet, c.value);
    }
  }

  /** The legacy raw payload has distinct keys, `times` last. */
  lemma LegacyRawPayloadShape(sheet: Sheet, country: string)
    ensures var p := LegacyRawPayload(sheet, country);
            && |p| > 0 && p[|p| - 1].key == Times && DistinctKeys(p)
  {
    ExtractedWithTimesKeys(LegacyPatterns(), LegacyColumnsOf(sheet, country), LegacyTimesColumn(sheet));
  }

  /** The pruned legacy payload read as a record: what the legacy `getCountry` adds to. */
  function LegacyBaseRecord(sheet: Sheet, country: string): Record {
    ToRecord(LegacyCountryData(sheet, country))
  }

  /**
   * The record the legacy `getCountry` starts from is aligned and holds no
   * null anywhere, `times` included; its time axis has one point per row
   * with no null in any key.
   */
  lemma LegacyBaseShape(sheet: Sheet, country: string)
    ensures var base := LegacyBaseRecord(sheet, country);
            var p := LegacyRawPayload(sheet, country);
            && Aligned(base) && NullFree(base)
            && TimeCount(base) == |KeptRows(Rule.Legacy, p, RowCount(p))|
  {
    var p := LegacyRawPayload(sheet, country);
    var q := LegacyCountryData(sheet, country);
    LegacyRawPayloadShape(sheet, country);
    LegacyPrunedRecord(p);
    PrunedKeys(Rule.Legacy, p);
    PrunedUpToShape(Rule.Legacy, p, RowCount(p));
    assert DistinctKeys(q);
    ToRecordAt(q, |q| - 1);
  }

  /**
   * The legacy `getCountry(country)`: `{}` when pruning left no time
   * point, otherwise the pruned record with the twelve assignments made.
   */
  function LegacyCountryRecord(sheet: Sheet, country: string): Record {
    var base := LegacyBaseRecord(sheet, country);
    if TimeCount(base) == 0 then map[] else WithLegacyDerived(base)
  }

  /** The legacy `getCountry(country)`. */
  method LegacyGetCountry(sheet: Sheet, country: string) returns (r: Record)
    ensures r == LegacyCountryRecord(sheet, country)
  {
    var payload := LegacyGetCountryData(sheet, country);
    var data := ToRecord(payload);
    if TimeCount(data) == 0 {
      return map[];
    }
    r := AddLegacyDerived(data);
  }

  /**
   * The legacy `getCountry` returns `{}` exactly when no row was free of
   * nulls; otherwise the record is aligned with the same time axis, and
   * every key reads as the legacy formulas over the pruned record.
   */
  lemma LegacyCountryRecordShape(sheet: Sheet, country: string)
    ensures var out := LegacyCountryRecord(sheet, country);
            var base := LegacyBaseRecord(sheet, country);
            && (out == map[] <==> TimeCount(base) == 0)
            && (out != map[] ==>
                  && Aligned(out) && out[Times] == base[Times] && TimeCount(out) > 0
                  && ReadsAsFormulas(Path.Legacy, base, out))
  {
    var base := LegacyBaseRecord(sheet, country);
    LegacyBaseShape(sheet, country);
    if TimeCount(base) > 0 {
      DerivedFormulas(Path.Legacy, base);
      RunAligned(Path.Legacy, base, StepCount(Path.Legacy));
      var out := WithLegacyDerived(base);
      assert Lookup(out, CommercialDebt) == Assigned(Path.Legacy, base, CommercialDebt);
    }
  }

  // ------------------------------------------------------------------ run

  /** The legacy `getCountry` as a function of the country name. */
  function LegacyCountryRecords(sheet: Sheet): string -> Record {
    c => LegacyCountryRecord(sheet, c)
  }

  /** Each country's legacy `getCountry` record, `{}` skipped. */
  function LegacyCountryEntries(sheet: Sheet): string -> Option<Record> {
    SkippingEmpty(LegacyCountryRecords(sheet))
  }

  /** The country names in the legacy headers: row 1 of 1-based columns 2 on. */
  function LegacyCountries(sheet: Sheet): Option<seq<string>> {
    CountryParts(LegacyHeaders(sheet))
  }

  /** `run`: sorted unique countries, `{}` records skipped. */
  function LegacyDebtByCountry(sheet: Sheet): Option<map<string, Record>> {
    match LegacyCountries(sheet)
    case None => None
    case Some(names) => Some(DebtFrom(SortedUnique(names), LegacyCountryEntries(sheet)))
  }

  /** The key order of the object `run` builds. */
  function LegacyDebtByCountryKeys(sheet: Sheet): seq<string> {
    match LegacyCountries(sheet)
    case None => []
    case Some(names) => DebtKeys(SortedUnique(names), LegacyCountryEntries(sheet))
  }

  /** The loop of `run` over the sorted unique country list; `keys` is the key order of the object. */
  method LegacyRun(sheet: Sheet) returns (result: Option<map<string, Record>>, keys: seq<string>)
    ensures result == LegacyDebtByCountry(sheet)
    ensures keys == LegacyDebtByCountryKeys(sheet)
  {
    var names := LegacyCountries(sheet);
    if names.None? {
      return None, [];
    }
    var m, k := FillDebt(SortedUnique(names.value), LegacyCountryEntries(sheet));
    return Some(m), k;
  }

  /**
   * The legacy run lists the same countries as fetch-data.js: it fails
   * exactly when the newer script does, and otherwise maps exactly the
   * header prefixes whose legacy record is not `{}` to those records, its
   * keys in ascending order.
   */
  lemma LegacyDebtByCountryContents(sheet: Sheet)
    ensures LegacyCountries(sheet) == Countries(sheet)
    ensures LegacyDebtByCountry(sheet).Some? <==> Countries(sheet).Some?
    ensures LegacyDebtByCountry(sheet).Some? ==>
              var names, result := Countries(sheet).value, LegacyDebtByCountry(sheet).value;
              && (forall c :: c in result <==> c in names && LegacyCountryRecord(sheet, c) != map[])
              && (forall c :: c in result ==> result[c] == LegacyCountryRecord(sheet, c))
    ensures LegacyDebtByCountry(sheet).Some? ==>
              && StrictlySorted(LegacyDebtByCountryKeys(sheet))
              && forall c :: c in LegacyDebtByCountryKeys(sheet) <==> c in LegacyDebtByCountry(sheet).value
  {
    LegacyHeadersSame(sheet);
    if Countries(sheet).Some? {
      var names := SortedUnique(Countries(sheet).value);
      SkippingEmptyContents(names, LegacyCountryRecords(sheet));
      DebtKeysOfResult(names, LegacyCountryEntries(sheet));
      SortedDebtKeys(names, LegacyCountryEntries(sheet));
    }
  }
}

=== FILE: palette.dfy ===
/**
 * `getColor` of src/chartUtil.js: a module-level list of the series names
 * seen so far, and a colour per name drawn from a fixed cycle of fifteen.
 */
module ChartColors {
  import opened Text

  /** The fifteen series colours, in the order they are handed out. */
  const Colors: seq<string> := [
    "#4ABDAC", "#FC4A1A", "#F78733", "#037584", "#007849",
    "#FAA43A", "#60BD68", "#F17CB0", "#B2912F", "#B276B2",
    "#DECF3F", "#F15854", "#C08283", "#dcd0c0", "#E37222"]

  /** `names.indexOf(name)`: the first index holding the name, or -1. */
  function IndexOf(names: seq<string>, name: string): (i: int)
    ensures -1 <= i < |names|
    ensures i >= 0 ==> names[i] == name && forall k :: 0 <= k < i ==> names[k] != name
    ensures i < 0 <==> name !in names
  {
    if |names| == 0 then -1
    else if names[0] == name then 0
    else
      var j := IndexOf(names[1..], name);
      if j < 0 then -1 else j + 1
  }

  /** The colour a seen name gets: its first position in the list, modulo fifteen. */
  function ColorOf(seen: seq<string>, name: string): string
    requires name in seen
  {
    Colors[IndexOf(seen, name) % |Colors|]
  }

  /** The state behind `getColor`: the names in the order they were first asked for. */
  class Palette {
    var seenNames: seq<string>

    /** No name is recorded twice. */
    ghost predicate Valid()
      reads this
    {
      Distinct(seenNames)
    }

    /** The empty list the module starts with. */
    constructor()
      ensures seenNames == [] && Valid()
    {
      seenNames := [];
    }

    /**
     * `getColor(name)`: a new name is appended; the colour is that of the
     * name's position in the list.
     */
    method GetColor(name: string) returns (color: string)
      requires Valid()
      modifies this
      ensures Valid()
      ensures seenNames == if name in old(seenNames) then old(seenNames) else old(seenNames) + [name]
      ensures name in seenNames && color == ColorOf(seenNames, name)
    {
      var i := IndexOf(seenNames, name);
      if i < 0 {
        seenNames := seenNames + [name];
        i := |seenNames| - 1;
        IndexOfAppended(old(seenNames), name);
      }
      color := Colors[i % |Colors|];
    }
  }

  /** A name just appended to a list that lacked it sits at the last index. */
  lemma IndexOfAppended(seen: seq<string>, name: string)
    requires name !in seen
    ensures IndexOf(seen + [name], name) == |seen|
  {
    assert (seen + [name])[|seen|] == name;
  }

  /**
   * Appending names never moves one already seen: a name keeps its colour
   * over any later calls.
   */
  lemma {:induction false} ColorStable(seen: seq<string>, later: seq<string>, name: string)
    requires name in seen
    ensures IndexOf(seen + later, name) == IndexOf(seen, name)
    ensures ColorOf(seen + later, name) == ColorOf(seen, name)
  {
    var i := IndexOf(seen, name);
    var j := IndexOf(seen + later, name);
    assert (seen + later)[i] == name;
    assert seen[j] == (seen + later)[j] by {
      if j > i {
        assert false;
      }
    }
  }

  /** In a list without repeats, the name at position i is found at i. */
  lemma IndexOfDistinct(seen: seq<string>, i: nat)
    requires Distinct(seen) && i < |seen|
    ensures IndexOf(seen, seen[i]) == i
  {
  }

  /** The fifteen colours are pairwise different. */
  lemma ColorsDistinct()
    ensures |Colors| == 15 && Distinct(Colors)
  {
    forall i, j | 0 <= i < j < 15
      ensures Colors[i] != Colors[j]
    {
      assert Colors[i][1..3] != Colors[j][1..3] || Colors[i][3..] != Colors[j][3..];
    }
  }

  /**
   * Of the names a palette has seen, the first fifteen get fifteen
   * different colours, and the name at position i + 15 reuses the colour
   * of the name at position i.
   */
  lemma ColorsCycle(seen: seq<string>, i: nat, j: nat)
    requires Distinct(seen) && i < |seen| && j < |seen|
    ensures i < j < 15 ==> ColorOf(seen, seen[i]) != ColorOf(seen, seen[j])
    ensures j == i + 15 ==> ColorOf(seen, seen[i]) == ColorOf(seen, seen[j])
  {
    IndexOfDistinct(seen, i);
    IndexOfDistinct(seen, j);
    ColorsDistinct();
    CycleOf(Colors, i, j);
  }

  /** Picking from fifteen by position modulo fifteen: distinct below fifteen, periodic beyond. */
  lemma CycleOf(cs: seq<string>, i: nat, j: nat)
    requires Distinct(cs) && |cs| == 15
    ensures i < j < 15 ==> cs[i % 15] != cs[j % 15]
    ensures j == i + 15 ==> cs[i % 15] == cs[j % 15]
  {
  }
}

=== FILE: population.dfy ===
/**
 * The population side of fetch-data.js and fetch-data.cjs:
 * `getPopulationByCountry` turns the World Bank annual table into
 * quarterly series, and `addPopulation` joins them onto each country record
 * by exact time and derives the per-capita series.
 */
module PopulationJoin {
  import opened Values
  import opened Records
  import opened Combinators
  import opened Grid
  import opened Spreadsheet
  import opened CsvExport

  // ---------------------------------------------------- getPopulationByCountry

  /**
   * The sheet 'Data' as `getPopulationByCountry` reads it: the names in
   * column 0 from row 4 on, the years of row 3 from column 4 on (through
   * `parseInt`), and for the i-th name the cells of row i + 4 from column
   * 4 on, a blank cell being null.
   */
  datatype PopulationTable = PopulationTable(countries: seq<string>, years: seq<int>, rows: seq<seq<Value>>)

  /** The value row of the i-th name; a row the table lacks reads as empty. */
  function RowOf(t: PopulationTable, i: nat): seq<Value> {
    if i < |t.rows| then t.rows[i] else []
  }

  /** The cells as `expandValues` computes with them: arithmetic reads null as 0. */
  function Coerced(values: seq<Value>): (r: seq<real>)
    ensures |r| == |values|
  {
    seq(|values|, k requires 0 <= k < |values| => if values[k].None? then 0.0 else values[k].value)
  }

  function AsReals(years: seq<int>): (r: seq<real>)
    ensures |r| == |years|
  {
    seq(|years|, k requires 0 <= k < |years| => years[k] as real)
  }

  /** The property that holds the time axis of the population object. */
  const TimesKey: string := "times"

  /** The population object, a name mapped to its quarterly series. */
  type PopulationData = map<string, seq<real>>

  /**
   * The map a loop builds by storing `vals[i]` under `keys[i]` for every
   * i below n, in order: a repeated key keeps its last value.
   */
  function Stored<K(==), V>(keys: seq<K>, vals: seq<V>, n: nat): map<K, V>
    requires n <= |keys| == |vals|
  {
    if n == 0 then map[] else Stored(keys, vals, n - 1)[keys[n - 1] := vals[n - 1]]
  }

  /** Index i is the last of the first n keys equal to its key. */
  predicate LastIndex<K(==)>(keys: seq<K>, n: nat, i: int) {
    0 <= i < n <= |keys| && forall i' :: i < i' < n ==> keys[i'] != keys[i]
  }

  /**
   * The stored map holds exactly the first n keys, and each key holds the
   * value of its last index.
   */
  lemma {:induction false} StoredLastWins<K, V>(keys: seq<K>, vals: seq<V>, n: nat)
    requires n <= |keys| == |vals|
    ensures forall x :: x in Stored(keys, vals, n) <==> x in keys[..n]
    ensures forall i :: LastIndex(keys, n, i) ==> Stored(keys, vals, n)[keys[i]] == vals[i]
    decreases n
  {
    if n > 0 {
      StoredLastWins(keys, vals, n - 1);
      assert keys[..n] == keys[..n - 1] + [keys[n - 1]];
      forall i | LastIndex(keys, n, i)
        ensures Stored(keys, vals, n)[keys[i]] == vals[i]
      {
        if i < n - 1 {
          assert LastIndex(keys, n - 1, i);
        }
      }
    }
  }

  /** Every row of the table expanded with n = 4. */
  function ExpandedRows(t: PopulationTable): (r: seq<seq<real>>)
    ensures |r| == |t.countries|
  {
    seq(|t.countries|, i requires 0 <= i < |t.countries| => Expanded(Coerced(RowOf(t, i)), 4))
  }

  /** `getPopulationByCountry`: each name's expanded row, a repeated name keeping its last; `times` set last. */
  function PopulationByCountry(t: PopulationTable): PopulationData {
    Stored(t.countries, ExpandedRows(t), |t.countries|)[TimesKey := Expanded(AsReals(t.years), 4)]
  }

  /** The loop of `getPopulationByCountry`. */
  method GetPopulationByCountry(t: PopulationTable) returns (pop: PopulationData)
    ensures pop == PopulationByCountry(t)
  {
    pop := map[];
    var i := 0;
    while i < |t.countries|
      invariant 0 <= i <= |t.countries|
      invariant pop == Stored(t.countries, ExpandedRows(t), i)
    {
      var values := ExpandValues(Coerced(RowOf(t, i)), 4);
      pop := pop[t.countries[i] := values];
      i := i + 1;
    }
    var times := ExpandValues(AsReals(t.years), 4);
    pop := pop[TimesKey := times];
  }

  /**
   * The population object holds `times` and every name of the table; the
   * time axis is the expanded years, and every name other than `times`
   * holds the expansion of its last row.
   */
  lemma PopulationContents(t: PopulationTable)
    ensures var pop := PopulationByCountry(t);
            && (forall c :: c in pop <==> c == TimesKey || c in t.countries)
            && pop[TimesKey] == Expanded(AsReals(t.years), 4)
            && (forall i :: LastIndex(t.countries, |t.countries|, i) && t.countries[i] != TimesKey ==>
                  pop[t.countries[i]] == Expanded(Coerced(RowOf(t, i)), 4))
  {
    StoredLastWins(t.countries, ExpandedRows(t), |t.countries|);
    assert t.countries[..|t.countries|] == t.countries;
  }

  /** Entry 4i + j of the expanded years of consecutive years i, i + 1 is year i plus j quarters. */
  lemma ExpandedYears(years: seq<int>, i: nat, j: nat)
    requires i + 1 < |years| && years[i + 1] == years[i] + 1 && j < 4
    ensures 4 * i + j < |Expanded(AsReals(years), 4)|
    ensures Expanded(AsReals(years), 4)[4 * i + j] == years[i] as real + j as real / 4.0
  {
    var a := AsReals(years);
    ExpandedEntry(a, 4, i, j);
    assert i * 4 + j == 4 * i + j;
    assert a[i + 1] - a[i] == 1.0;
  }

  /**
   * For consecutive integer years the population time axis is the quarter
   * grid: entry 4i + j is `years[i] + j/4`, the time of quarter j + 1 of
   * that year as the CSV conversion computes it.
   */
  lemma PopulationTimesOnQuarterGrid(t: PopulationTable, i: nat, j: nat)
    requires i + 1 < |t.years| && t.years[i + 1] == t.years[i] + 1 && j < 4
    requires 0 <= t.years[i] < 10000
    ensures var times := PopulationByCountry(t)[TimesKey];
            && 4 * i + j < |times|
            && times[4 * i + j] == t.years[i] as real + j as real / 4.0
            && times[4 * i + j] == QuarterTime(QuarterCode(t.years[i], j + 1))
  {
    ExpandedYears(t.years, i, j);
    QuarterCodeRoundTrip(t.years[i], j + 1);
    assert (j + 1 - 1) as real == j as real;
  }

  // ------------------------------------------------------------- addPopulation

  /** `population[i]`: undefined, read as null, past the end of the series. */
  function PopAt(population: seq<real>, i: nat): Value {
    if i < |population| then Some(population[i]) else None
  }

  /** The population read at each time index, for the first |popTimes| indices. */
  function PopValues(popTimes: seq<real>, population: seq<real>): (r: seq<Value>)
    ensures |r| == |popTimes|
  {
    seq(|popTimes|, i requires 0 <= i < |popTimes| => PopAt(population, i))
  }

  /** `popByTime` after the first n time points: a repeated time keeps its last entry. */
  function PopByTime(popTimes: seq<real>, population: seq<real>, n: nat): map<real, Value>
    requires n <= |popTimes|
  {
    Stored(popTimes, PopValues(popTimes, population), n)
  }

  /** `popByTime[t]`: only an exactly equal number finds an entry; null finds none. */
  function PopulationAt(byTime: map<real, Value>, t: Value): Value {
    if t.Some? && t.value in byTime then byTime[t.value] else None
  }

  /** `countryData.population`: one lookup per time point of the record. */
  function PopulationSeries(times: Series, popTimes: seq<real>, population: seq<real>): (r: Series)
    ensures |r| == |times|
  {
    var byTime := PopByTime(popTimes, population, |popTimes|);
    seq(|times|, k requires 0 <= k < |times| => PopulationAt(byTime, times[k]))
  }

  /**
   * Entry k of the population series is the population at the last index
   * whose time equals `times[k]` exactly, and null when no time does.
   */
  lemma PopulationSeriesEntries(times: Series, popTimes: seq<real>, population: seq<real>, k: nat)
    requires k < |times|
    ensures var r := PopulationSeries(times, popTimes, population);
            && ((times[k].None? || times[k].value !in popTimes) ==> r[k].None?)
            && (forall i :: LastIndex(popTimes, |popTimes|, i) && times[k] == Some(popTimes[i]) ==>
                  r[k] == PopAt(population, i))
  {
    StoredLastWins(popTimes, PopValues(popTimes, population), |popTimes|);
    assert popTimes[..|popTimes|] == popTimes;
  }

  /**
   * One country of `addPopulation`: `population`, then `gdpPerCapita`,
   * `gdpChangePerCapita` and `gdpPerCapitaUsd`, in that order.
   */
  function WithPopulation(r: Record, popTimes: seq<real>, population: seq<real>): Record
    requires Get(r, Times).Some?
  {
    var pop := PopulationSeries(Get(r, Times).value, popTimes, population);
    var r1 := r[Population := Arr(pop)];
    var r2 := r1[GdpPerCapita := FromOption(CombineOf(Get(r1, Gdp), Some(pop), Per))];
    var r3 := r2[GdpChangePerCapita := FromOption(DiffOf(Get(r2, GdpPerCapita)))];
    r3[GdpPerCapitaUsd := FromOption(CombineOf(Get(r3, GdpUsd), Some(pop), Per))]
  }

  /** The assignments to one country record, with the loops that build `population`. */
  method AddCountryPopulation(r: Record, popTimes: seq<real>, population: seq<real>) returns (out: Record)
    requires Get(r, Times).Some?
    ensures out == WithPopulation(r, popTimes, population)
  {
    var byTime: map<real, Value> := map[];
    var i := 0;
    while i < |popTimes|
      invariant 0 <= i <= |popTimes|
      invariant byTime == PopByTime(popTimes, population, i)
    {
      byTime := byTime[popTimes[i] := PopAt(population, i)];
      i := i + 1;
    }
    var times := Get(r, Times).value;
    var pop: Series := [];
    var k := 0;
    while k < |times|
      invariant 0 <= k <= |times|
      invariant pop == PopulationSeries(times, popTimes, population)[..k]
    {
      pop := pop + [PopulationAt(byTime, times[k])];
      k := k + 1;
    }
    assert pop == PopulationSeries(times, popTimes, population);
    out := r[Population := Arr(pop)];
    var perCapita := Combine(Get(out, Gdp), Some(pop), Per);
    out := out[GdpPerCapita := FromOption(perCapita)];
    var change := Diff(Get(out, GdpPerCapita));
    out := out[GdpChangePerCapita := FromOption(change)];
    var perCapitaUsd := Combine(Get(out, GdpUsd), Some(pop), Per);
    out := out[GdpPerCapitaUsd := FromOption(perCapitaUsd)];
  }

  /**
   * On an aligned record with a non-empty time axis the join keeps the
   * record aligned and every other key as it was; `population` has one
   * entry per time point, `gdpPerCapita` is gdp over population,
   * `gdpChangePerCapita` its differences and `gdpPerCapitaUsd` gdpUsd over
   * population.
   */
  lemma WithPopulationShape(r: Record, popTimes: seq<real>, population: seq<real>)
    requires Aligned(r) && TimeCount(r) > 0
    ensures var w, pop := WithPopulation(r, popTimes, population), PopulationSeries(r[Times].values, popTimes, population);
            && Aligned(w) && w[Times] == r[Times]
            && w[Population] == Arr(pop) && |pop| == TimeCount(r)
            && Get(w, GdpPerCapita) == CombineOf(Get(r, Gdp), Some(pop), Per)
            && Get(w, GdpChangePerCapita) == DiffOf(CombineOf(Get(r, Gdp), Some(pop), Per))
            && Get(w, GdpPerCapitaUsd) == CombineOf(Get(r, GdpUsd), Some(pop), Per)
            && (forall k :: k != Population && k != GdpPerCapita && k != GdpChangePerCapita && k != GdpPerCapitaUsd ==>
                  Lookup(w, k) == Lookup(r, k))
  {
    var n := TimeCount(r);
    var pop := PopulationSeries(r[Times].values, popTimes, population);
    var g := Get(r, Gdp);
    if g.Some? {
      assert |g.value| == n;
      assert |CombineOf(g, Some(pop), Per).value| == n;
    }
    var u := Get(r, GdpUsd);
    if u.Some? {
      assert |u.value| == n;
      assert |CombineOf(u, Some(pop), Per).value| == n;
    }
  }

  /**
   * `addPopulation` throws for a country the population object names when
   * the object has no `times` or the record no `times` array to iterate.
   */
  predicate Throws(data: map<string, Record>, pop: PopulationData, c: string) {
    c in data && c in pop && (TimesKey !in pop || Get(data[c], Times).None?)
  }

  /**
   * `addPopulation` over the records: `None` when it throws for some
   * country, otherwise every named country joined and the others untouched.
   */
  function AddedPopulation(data: map<string, Record>, pop: PopulationData): Option<map<string, Record>> {
    if exists c :: c in data && Throws(data, pop, c) then None
    else Some(map c | c in data :: Joined(data, pop, c))
  }

  /** The record of country c after the join, when it does not throw there. */
  function Joined(data: map<string, Record>, pop: PopulationData, c: string): Record
    requires c in data && !Throws(data, pop, c)
  {
    if c in pop then WithPopulation(data[c], pop[TimesKey], pop[c]) else data[c]
  }

  /** One pass of the loop of `addPopulation`: `None` where it throws. */
  method JoinCountry(data: map<string, Record>, pop: PopulationData, c: string) returns (r: Option<Record>)
    requires c in data
    ensures r.None? <==> Throws(data, pop, c)
    ensures r.Some? ==> !Throws(data, pop, c) && r.value == Joined(data, pop, c)
  {
    if c !in pop {
      return Some(data[c]);
    }
    if TimesKey !in pop || Get(data[c], Times).None? {
      return None;
    }
    var joined := AddCountryPopulation(data[c], pop[TimesKey], pop[c]);
    return Some(joined);
  }

  /** The loop of `addPopulation` over the countries, in whatever order the keys come. */
  method AddPopulation(data: map<string, Record>, pop: PopulationData) returns (out: Option<map<string, Record>>)
    ensures out == AddedPopulation(data, pop)
  {
    var result := data;
    var todo := data.Keys;
    while todo != {}
      invariant todo <= data.Keys && result.Keys == data.Keys
      invariant forall c :: c in data && c !in todo ==> !Throws(data, pop, c)
      invariant forall c :: c in todo ==> result[c] == data[c]
      invariant forall c :: c in data && c !in todo ==> result[c] == Joined(data, pop, c)
      decreases |todo|
    {
      var c :| c in todo;
      var joined := JoinCountry(data, pop, c);
      if joined.None? {
        return None;
      }
      result := result[c := joined.value];
      todo := todo - {c};
    }
    assert !exists c :: c in data && Throws(data, pop, c);
    assert result == map c | c in data :: Joined(data, pop, c);
    return Some(result);
  }

  /**
   * When the population object has `times` and every record has a
   * non-empty aligned time axis, the join never throws; every record stays
   * aligned on the same axis, and a country the object does not name is
   * left unchanged.
   */
  lemma AddedPopulationKeepsAligned(data: map<string, Record>, pop: PopulationData)
    requires TimesKey in pop
    requires forall c :: c in data ==> Aligned(data[c]) && TimeCount(data[c]) > 0
    ensures AddedPopulation(data, pop).Some?
    ensures var out := AddedPopulation(data, pop).value;
            && out.Keys == data.Keys
            && (forall c :: c in out ==> Aligned(out[c]) && out[c][Times] == data[c][Times])
            && (forall c :: c in out && c !in pop ==> out[c] == data[c])
  {
    forall c | c in data && c in pop
      ensures Aligned(WithPopulation(data[c], pop[TimesKey], pop[c]))
      ensures WithPopulation(data[c], pop[TimesKey], pop[c])[Times] == data[c][Times]
    {
      WithPopulationShape(data[c], pop[TimesKey], pop[c]);
    }
  }

  /** A `{}` record of a country the population object names makes the join throw. */
  lemma EmptyRecordThrows(data: map<string, Record>, pop: PopulationData, c: string)
    requires c in data && data[c] == map[] && c in pop
    ensures AddedPopulation(data, pop).None?
  {
    assert Throws(data, pop, c);
  }

  /**
   * fetch-data.cjs as written: its spreadsheet branch keeps a `{}` record
   * for a country without data, so `addPopulation` throws whenever the
   * population object names such a country.
   */
  lemma UnsortedEmptyRecordThrows(sheet: Sheet, pop: PopulationData, c: string)
    requires DebtByCountryUnsorted(sheet).Some? && c in Countries(sheet).value
    requires CountryRecord(sheet, c) == map[] && c in pop
    ensures AddedPopulation(DebtByCountryUnsorted(sheet).value, pop).None?
  {
    DebtByCountryUnsortedContents(sheet);
    EmptyRecordThrows(DebtByCountryUnsorted(sheet).value, pop, c);
  }

  /** A sheet with no data rows (exactly four rows) gives every country a `{}` record. */
  lemma NoDataRowsEmpty(sheet: Sheet, country: string)
    requires DataRows(sheet) == 0
    ensures CountryRecord(sheet, country) == map[]
  {
    RawPayloadShape(sheet, country);
    BaseTimeCount(sheet, country);
  }

  /**
   * The concrete case: a sheet whose headers name countries but which has
   * no data rows, its four rows all header rows. fetch-data.cjs keeps a `{}` record for every country and
   * the join throws as soon as the population object names one of them;
   * fetch-data.js keeps no record at all.
   */
  lemma HeaderOnlySheetThrows(sheet: Sheet, pop: PopulationData, c: string)
    requires DataRows(sheet) == 0 && Countries(sheet).Some? && c in Countries(sheet).value && c in pop
    ensures DebtByCountryUnsorted(sheet).Some? && c in DebtByCountryUnsorted(sheet).value
    ensures AddedPopulation(DebtByCountryUnsorted(sheet).value, pop).None?
    ensures DebtByCountry(sheet) == Some(map[])
  {
    DebtByCountryContents(sheet);
    DebtByCountryUnsortedContents(sheet);
    NoDataRowsEmpty(sheet, c);
    UnsortedEmptyRecordThrows(sheet, pop, c);
    var result := DebtByCountry(sheet).value;
    forall x
      ensures x !in result
    {
      NoDataRowsEmpty(sheet, x);
    }
    assert result == map[];
  }

  /**
   * With `{}` records skipped, as fetch-data.js does, the join never throws
   * on the spreadsheet result when the population object has `times`,
   * and every record stays aligned on its time axis.
   */
  lemma SkippedEmptyRecordsJoin(sheet: Sheet, pop: PopulationData)
    requires DebtByCountry(sheet).Some? && TimesKey in pop
    ensures AddedPopulation(DebtByCountry(sheet).value, pop).Some?
    ensures var out := AddedPopulation(DebtByCountry(sheet).value, pop).value;
            forall c :: c in out ==> Aligned(out[c])
  {
    var data := DebtByCountry(sheet).value;
    DebtByCountryContents(sheet);
    forall c | c in data
      ensures Aligned(data[c]) && TimeCount(data[c]) > 0
    {
      CountryRecordShape(sheet, c);
    }
    AddedPopulationKeepsAligned(data, pop);
  }
}

=== FILE: pruning.dfy ===
/**
 * Row pruning: `removeBlankValues`, which drops time points from every array
 * of a country payload at once, so all arrays stay index-aligned.
 *
 * The payload is a JavaScript object of arrays, and its key order matters:
 * the first key gives the row count, and the canonical rule leaves the last
 * key (`times`) out of its blank test.
 */
module Pruning {
  import opened Values
  import opened Records

  /** One property of the payload object. */
  datatype Column = Column(key: Metric, values: Series)

  /** An object of arrays, properties in insertion order. */
  type Payload = seq<Column>

  /** The two variants of `removeBlankValues`. */
  datatype Rule =
    | Canonical  // fetch-data.cjs and fetch-data.js
    | Legacy     // fetch-bis-debt-data.js

  /** `payload[keys[0]].length`: the first key decides how many rows are visited. */
  function RowCount(p: Payload): nat
    requires |p| > 0
  {
    |p[0].values|
  }

  /** Canonical test: every key but the last is null or 0 at row i. */
  predicate BlankRow(p: Payload, i: nat) {
    forall j :: 0 <= j < |p| - 1 ==> IsBlank(At(p[j].values, i))
  }

  /** Legacy test: some key, the last one included, is null at row i. */
  predicate AnyNullRow(p: Payload, i: nat) {
    exists j :: 0 <= j < |p| && At(p[j].values, i).None?
  }

  predicate Drops(rule: Rule, p: Payload, i: nat) {
    match rule
    case Canonical => BlankRow(p, i)
    case Legacy => AnyNullRow(p, i)
  }

  /** What is pushed for a kept value: the canonical rule turns 0 into null. */
  function Clean(rule: Rule, v: Value): Value {
    if rule.Canonical? then ZeroToNull(v) else v
  }

  /** The row indices below n that the loop keeps, in visiting order. */
  function KeptRows(rule: Rule, p: Payload, n: nat): seq<nat> {
    if n == 0 then []
    else KeptRows(rule, p, n - 1) + (if Drops(rule, p, n - 1) then [] else [n - 1])
  }

  /**
   * The kept rows are exactly the indices below n that the rule does not
   * drop, in ascending order.
   */
  lemma {:induction false} KeptRowsExactly(rule: Rule, p: Payload, n: nat)
    ensures var rows := KeptRows(rule, p, n);
            && (forall m :: 0 <= m < |rows| ==> rows[m] < n && !Drops(rule, p, rows[m]))
            && (forall m, m' :: 0 <= m < m' < |rows| ==> rows[m] < rows[m'])
            && (forall i :: 0 <= i < n && !Drops(rule, p, i) ==> i in rows)
  {
    if n > 0 {
      KeptRowsExactly(rule, p, n - 1);
    }
  }

  /** Every key of p with an empty array. */
  function EmptyLike(p: Payload): (r: Payload)
    ensures |r| == |p|
  {
    seq(|p|, j requires 0 <= j < |p| => Column(p[j].key, []))
  }

  /** One pass of the inner loop: row i of p pushed onto every array of acc. */
  function PushRow(rule: Rule, acc: Payload, p: Payload, i: nat): (r: Payload)
    requires |acc| == |p|
    ensures |r| == |p|
  {
    seq(|acc|, j requires 0 <= j < |acc| =>
      Column(acc[j].key, acc[j].values + [Clean(rule, At(p[j].values, i))]))
  }

  /** The result object once the loop has visited the first n rows. */
  function PrunedUpTo(rule: Rule, p: Payload, n: nat): (r: Payload)
    ensures |r| == |p|
  {
    if n == 0 then EmptyLike(p)
    else
      var prev := PrunedUpTo(rule, p, n - 1);
      if Drops(rule, p, n - 1) then prev else PushRow(rule, prev, p, n - 1)
  }

  /**
   * After the first n rows every key of the payload is still there, in
   * order, and each array holds the cleaned values of the kept rows, in row
   * order.
   */
  lemma {:induction false} PrunedUpToShape(rule: Rule, p: Payload, n: nat)
    ensures var r := PrunedUpTo(rule, p, n);
            var rows := KeptRows(rule, p, n);
            && (forall j :: 0 <= j < |p| ==> r[j].key == p[j].key)
            && (forall j :: 0 <= j < |p| ==> |r[j].values| == |rows|)
            && (forall j, m :: 0 <= j < |p| && 0 <= m < |rows| ==>
                 r[j].values[m] == Clean(rule, At(p[j].values, rows[m])))
  {
    if n > 0 {
      PrunedUpToShape(rule, p, n - 1);
      var prev := PrunedUpTo(rule, p, n - 1);
      var prevRows := KeptRows(rule, p, n - 1);
      if !Drops(rule, p, n - 1) {
        var r := PushRow(rule, prev, p, n - 1);
        var rows := prevRows + [n - 1];
        assert PrunedUpTo(rule, p, n) == r && KeptRows(rule, p, n) == rows;
        forall j, m | 0 <= j < |p| && 0 <= m < |rows|
          ensures r[j].values[m] == Clean(rule, At(p[j].values, rows[m]))
        {
          assert r[j].values == prev[j].values + [Clean(rule, At(p[j].values, n - 1))];
          if m < |prevRows| {
            assert rows[m] == prevRows[m];
          }
        }
      }
    }
  }

  /** `removeBlankValues(payload)` under the given rule. */
  function Pruned(rule: Rule, p: Payload): Payload
    requires |p| > 0
  {
    PrunedUpTo(rule, p, RowCount(p))
  }

  /** The canonical loops (fetch-data.cjs, fetch-data.js). */
  method RemoveBlankValues(payload: Payload) returns (result: Payload)
    requires |payload| > 0
    ensures result == Pruned(Canonical, payload)
  {
    result := EmptyLike(payload);
    var n := |payload[0].values|;
    var i := 0;
    while i < n
      invariant 0 <= i <= n
      invariant result == PrunedUpTo(Canonical, payload, i)
    {
      if !BlankRow(payload, i) {
        ghost var before := result;
        var k := 0;
        while k < |payload|
          invariant 0 <= k <= |payload| && |result| == |payload|
          invariant forall j :: 0 <= j < k ==> result[j] == PushRow(Canonical, before, payload, i)[j]
          invariant forall j :: k <= j < |payload| ==> result[j] == before[j]
        {
          var value := At(payload[k].values, i);
          if value == Some(0.0) {
            value := None;
          }
          result := result[k := Column(result[k].key, result[k].values + [value])];
          k := k + 1;
        }
        assert result == PushRow(Canonical, before, payload, i);
      }
      assert PrunedUpTo(Canonical, payload, i + 1) == result;
      i := i + 1;
    }
  }

  /** The legacy loops (fetch-bis-debt-data.js). */
  method RemoveBlankValuesLegacy(payload: Payload) returns (result: Payload)
    requires |payload| > 0
    ensures result == Pruned(Legacy, payload)
  {
    result := EmptyLike(payload);
    var n := |payload[0].values|;
    var i := 0;
    while i < n
      invariant 0 <= i <= n
      invariant result == PrunedUpTo(Legacy, payload, i)
    {
      if !AnyNullRow(payload, i) {
        ghost var before := result;
        var k := 0;
        while k < |payload|
          invariant 0 <= k <= |payload| && |result| == |payload|
          invariant forall j :: 0 <= j < k ==> result[j] == PushRow(Legacy, before, payload, i)[j]
          invariant forall j :: k <= j < |payload| ==> result[j] == before[j]
        {
          result := result[k := Column(result[k].key, result[k].values + [At(payload[k].values, i)])];
          k := k + 1;
        }
        assert result == PushRow(Legacy, before, payload, i);
      }
      assert PrunedUpTo(Legacy, payload, i + 1) == result;
      i := i + 1;
    }
  }

  // ------------------------------------------------------------ properties

  /**
   * Canonical pruning keeps row i (below the row count) exactly when some
   * key other than the last holds a value that is neither null nor 0; the
   * kept rows are in their original order, every array has one entry per
   * kept row, and no entry anywhere, `times` included, is 0.
   */
  lemma CanonicalPruning(p: Payload)
    requires |p| > 0
    ensures var rows := KeptRows(Canonical, p, RowCount(p));
            && (forall i :: 0 <= i < RowCount(p) ==>
                 (i in rows <==> exists j :: 0 <= j < |p| - 1 && !IsBlank(At(p[j].values, i))))
            && (forall m, m' :: 0 <= m < m' < |rows| ==> rows[m] < rows[m'])
            && (forall j :: 0 <= j < |p| ==> |Pruned(Canonical, p)[j].values| == |rows|)
            && (forall j :: 0 <= j < |p| ==> NoZeros(Pruned(Canonical, p)[j].values))
  {
    var rows := KeptRows(Canonical, p, RowCount(p));
    var r := Pruned(Canonical, p);
    PrunedUpToShape(Canonical, p, RowCount(p));
    KeptRowsExactly(Canonical, p, RowCount(p));
    forall j | 0 <= j < |p|
      ensures NoZeros(r[j].values)
    {
      forall m | 0 <= m < |r[j].values|
        ensures r[j].values[m] != Some(0.0)
      {
        assert r[j].values[m] == ZeroToNull(At(p[j].values, rows[m]));
      }
    }
  }

  /** A kept value is copied unchanged unless it is 0, which becomes null. */
  lemma CanonicalValues(p: Payload, j: nat, m: nat)
    requires 0 < |p| && j < |p| && m < |KeptRows(Canonical, p, RowCount(p))|
    ensures var v := At(p[j].values, KeptRows(Canonical, p, RowCount(p))[m]);
            && m < |Pruned(Canonical, p)[j].values|
            && Pruned(Canonical, p)[j].values[m] == if v == Some(0.0) then None else v
  {
    PrunedUpToShape(Canonical, p, RowCount(p));
  }

  /**
   * With distinct keys, the canonically pruned record holds at the key of
   * column i the kept rows of that column, 0 read as null.
   */
  lemma PrunedRecordAt(p: Payload, i: nat, m: nat)
    requires DistinctKeys(p) && i < |p| && m < |KeptRows(Canonical, p, RowCount(p))|
    ensures var r := ToRecord(Pruned(Canonical, p));
            var v := At(p[i].values, KeptRows(Canonical, p, RowCount(p))[m]);
            && Get(r, p[i].key).Some? && m < |Get(r, p[i].key).value|
            && Get(r, p[i].key).value[m] == if v == Some(0.0) then None else v
  {
    var q := Pruned(Canonical, p);
    PrunedKeys(Canonical, p);
    assert DistinctKeys(q);
    ToRecordAt(q, i);
    CanonicalValues(p, i, m);
  }

  /** With `times` as the only key there is no value key, so every row is dropped. */
  lemma TimesOnlyDropsEverything(p: Payload)
    requires |p| == 1
    ensures Pruned(Canonical, p)[0].values == []
  {
    var rows := KeptRows(Canonical, p, RowCount(p));
    PrunedUpToShape(Canonical, p, RowCount(p));
    KeptRowsExactly(Canonical, p, RowCount(p));
    if |rows| > 0 {
      assert BlankRow(p, rows[0]);
    }
  }

  /**
   * Legacy pruning keeps row i exactly when no key, `times` included, is
   * null there; kept values are copied unchanged, so every array is free of
   * nulls and all arrays have one entry per kept row.
   */
  lemma LegacyPruning(p: Payload)
    requires |p| > 0
    ensures var rows := KeptRows(Legacy, p, RowCount(p));
            && (forall i :: 0 <= i < RowCount(p) ==>
                 (i in rows <==> forall j :: 0 <= j < |p| ==> At(p[j].values, i).Some?))
            && (forall m, m' :: 0 <= m < m' < |rows| ==> rows[m] < rows[m'])
            && (forall j :: 0 <= j < |p| ==> |Pruned(Legacy, p)[j].values| == |rows|)
            && (forall j, m :: 0 <= j < |p| && 0 <= m < |rows| ==>
                 Pruned(Legacy, p)[j].values[m] == At(p[j].values, rows[m]))
            && (forall j :: 0 <= j < |p| ==> NoNulls(Pruned(Legacy, p)[j].values))
  {
    var rows := KeptRows(Legacy, p, RowCount(p));
    var r := Pruned(Legacy, p);
    PrunedUpToShape(Legacy, p, RowCount(p));
    KeptRowsExactly(Legacy, p, RowCount(p));
    forall j, m | 0 <= j < |p| && 0 <= m < |rows|
      ensures r[j].values[m] == At(p[j].values, rows[m]) && r[j].values[m].Some?
    {
      assert !AnyNullRow(p, rows[m]);
      assert At(p[j].values, rows[m]).Some?;
    }
    forall j | 0 <= j < |p|
      ensures NoNulls(r[j].values)
    {
      forall m | 0 <= m < |r[j].values|
        ensures r[j].values[m].Some?
      {
        assert !AnyNullRow(p, rows[m]);
      }
    }
  }

  // --------------------------------------------------- payload as a record

  /** The payload read as a record: a later property with the same key overwrites. */
  function ToRecord(p: Payload): Record {
    if p == [] then map[]
    else ToRecord(p[..|p| - 1])[p[|p| - 1].key := Arr(p[|p| - 1].values)]
  }

  /**
   * The record has exactly the payload's keys, and each holds the array of
   * some property with that key.
   */
  lemma {:induction false} ToRecordContents(p: Payload)
    ensures forall j :: 0 <= j < |p| ==> p[j].key in ToRecord(p)
    ensures forall k :: k in ToRecord(p) ==>
              ToRecord(p)[k].Arr? && exists j :: 0 <= j < |p| && p[j].key == k && ToRecord(p)[k].values == p[j].values
  {
    if p != [] {
      var q := p[..|p| - 1];
      ToRecordContents(q);
      assert forall j :: 0 <= j < |q| ==> q[j] == p[j];
    }
  }

  /** Adding a property to the payload stores it in the record. */
  lemma ToRecordSnoc(p: Payload, c: Column)
    ensures ToRecord(p + [c]) == ToRecord(p)[c.key := Arr(c.values)]
  {
    assert (p + [c])[..|p|] == p;
  }

  /** A key is in the record exactly when some property of the payload has it. */
  lemma ToRecordKeys(p: Payload, k: Metric)
    ensures k in ToRecord(p) <==> exists j :: 0 <= j < |p| && p[j].key == k
  {
    ToRecordContents(p);
  }

  /** Pruning keeps every key, in order. */
  lemma PrunedKeys(rule: Rule, p: Payload)
    requires |p| > 0
    ensures forall j :: 0 <= j < |p| ==> Pruned(rule, p)[j].key == p[j].key
    ensures forall k :: k in ToRecord(Pruned(rule, p)) <==> k in ToRecord(p)
  {
    var q := Pruned(rule, p);
    PrunedUpToShape(rule, p, RowCount(p));
    forall k
      ensures k in ToRecord(q) <==> k in ToRecord(p)
    {
      ToRecordKeys(p, k);
      ToRecordKeys(q, k);
      if k in ToRecord(p) {
        var j :| 0 <= j < |p| && p[j].key == k;
        assert q[j].key == k;
      }
    }
  }

  /** Keys of a payload are distinct, as the keys of a JavaScript object are. */
  predicate DistinctKeys(p: Payload) {
    forall j, j' :: 0 <= j < j' < |p| ==> p[j].key != p[j'].key
  }

  /** With distinct keys, reading key p[j].key gives back column j. */
  lemma {:induction false} ToRecordAt(p: Payload, j: nat)
    requires DistinctKeys(p) && j < |p|
    ensures p[j].key in ToRecord(p) && ToRecord(p)[p[j].key] == Arr(p[j].values)
    decreases |p|
  {
    if j < |p| - 1 {
      var q := p[..|p| - 1];
      assert q[j] == p[j];
      assert DistinctKeys(q);
      ToRecordAt(q, j);
      assert p[|p| - 1].key != p[j].key;
    }
  }

  /**
   * A payload whose arrays all have the same length, with a `times` key,
   * reads as an aligned record; if no array holds a 0, neither does the record.
   */
  lemma ToRecordAligned(p: Payload)
    requires exists j :: 0 <= j < |p| && p[j].key == Times
    requires forall j, j' :: 0 <= j < |p| && 0 <= j' < |p| ==> |p[j].values| == |p[j'].values|
    ensures Aligned(ToRecord(p))
    ensures (forall j :: 0 <= j < |p| ==> NoZeros(p[j].values)) ==> ZeroFree(ToRecord(p))
  {
    ToRecordContents(p);
  }

  /** Canonical pruning of a payload with a `times` key yields an aligned record without zeros. */
  lemma PrunedRecord(p: Payload)
    requires |p| > 0 && p[|p| - 1].key == Times
    ensures Aligned(ToRecord(Pruned(Canonical, p)))
    ensures ZeroFree(ToRecord(Pruned(Canonical, p)))
  {
    CanonicalPruning(p);
    PrunedUpToShape(Canonical, p, RowCount(p));
    var r := Pruned(Canonical, p);
    assert r[|p| - 1].key == Times;
    ToRecordAligned(r);
  }

  /** Legacy pruning of a payload with a `times` key yields an aligned record without nulls. */
  lemma LegacyPrunedRecord(p: Payload)
    requires |p| > 0 && p[|p| - 1].key == Times
    ensures Aligned(ToRecord(Pruned(Legacy, p)))
    ensures NullFree(ToRecord(Pruned(Legacy, p)))
  {
    LegacyPruning(p);
    PrunedUpToShape(Legacy, p, RowCount(p));
    var r := Pruned(Legacy, p);
    assert r[|p| - 1].key == Times;
    ToRecordAligned(r);
    ToRecordContents(r);
  }
}

=== FILE: records.dfy ===
/**
 * Country records: the JavaScript objects the fetch scripts build per country,
 * mapping a metric name to an array of nullable numbers.
 */
module Records {
  import opened Values

  /** The property names the scripts use, `times` included. */
  datatype Metric =
    | PrivateDebt | PrivateDebtPercent | PrivateDebtUsd
    | PublicDebt | PublicDebtPercent | PublicDebtUsd
    | HouseholdDebt | HouseholdDebtPercent | HouseholdDebtUsd
    | CommercialDebt | Gdp | GdpUsd | GdpPercent | CommercialDebtPercent
    | GdpChange | AllDebtPercent | CreditPercent | Credit | KeenGrowth
    | CommercialDebtUsd
    | Population | GdpPerCapita | GdpChangePerCapita | GdpPerCapitaUsd
    | Times

  /** The value of a property that is present: `null` or an array. */
  datatype Prop = Null | Arr(values: Series)

  /** A country record; a key not in the map is an absent (`undefined`) property. */
  type Record = map<Metric, Prop>

  /** `r[k]` read as a nullable array: `None` when absent or `null`. */
  function Get(r: Record, k: Metric): Option<Series> {
    if k in r && r[k].Arr? then Some(r[k].values) else None
  }

  /** The property `r[k]` as a whole: `None` when absent, `null` and arrays kept apart. */
  function Lookup(r: Record, k: Metric): Option<Prop> {
    if k in r then Some(r[k]) else None
  }

  /** Storing the result of `combine` or `diff`, which is `null` or an array. */
  function FromOption(s: Option<Series>): Prop {
    if s.Some? then Arr(s.value) else Null
  }

  /** The length of the time axis, 0 when `times` is absent. */
  function TimeCount(r: Record): nat {
    if Times in r && r[Times].Arr? then |r[Times].values| else 0
  }

  /**
   * The alignment invariant of a country record: `times` is an array and
   * every array in the record has exactly as many entries as `times`.
   */
  predicate Aligned(r: Record) {
    && Times in r && r[Times].Arr?
    && forall k :: k in r && r[k].Arr? ==> |r[k].values| == |r[Times].values|
  }

  /** Every array in the record is free of the number 0. */
  predicate ZeroFree(r: Record) {
    forall k :: k in r && r[k].Arr? ==> NoZeros(r[k].values)
  }

  /** Every array in the record is free of null. */
  predicate NullFree(r: Record) {
    forall k :: k in r && r[k].Arr? ==> NoNulls(r[k].values)
  }
}

=== FILE: spreadsheet.dfy ===
/**
 * The spreadsheet path shared by fetch-data.js and the spreadsheet branch
 * of fetch-data.cjs: `getCountryData` pulls nine header-matched columns and
 * the time column out of the "Quarterly Series" sheet and prunes them,
 * `getCountry` adds the derived indicators, and `getDebtByCountry` runs
 * over every country named in the headers.
 */
module Spreadsheet {
  import opened Values
  import opened Records
  import opened Text
  import opened Grid
  import opened Pruning
  import opened Derived

  // ------------------------------------------------------------- patterns

  /** The borrowing sector a header names. */
  datatype Borrower = NonFinancialSector | GeneralGovernment | Households

  /** The unit a header names. */
  datatype Unit = PercentageOfGdp | DomesticCurrency | UsDollar

  function BorrowerPhrase(b: Borrower): string {
    match b
    case NonFinancialSector => "Credit to Non financial sector"
    case GeneralGovernment => "Credit to General government"
    case Households => "Credit to Households"
  }

  function UnitPhrase(u: Unit): string {
    match u
    case PercentageOfGdp => "Percentage of GDP"
    case DomesticCurrency => "Domestic currency"
    case UsDollar => "US dollar"
  }

  /**
   * One entry of the `patterns` list: the key to fill, whether the column
   * goes through `toBillions` (the entry has `fn`), and what its header names.
   */
  datatype Pattern = Pattern(key: Metric, scaled: bool, borrower: Borrower, unit: Unit)

  /** The substrings the header must contain: `[country, sector, 'All sectors at Market value', unit]`. */
  function Matches(country: string, pat: Pattern): seq<string> {
    [country, BorrowerPhrase(pat.borrower), "All sectors at Market value", UnitPhrase(pat.unit)]
  }

  /** The nine patterns of `getCountryData`, in order. */
  function Patterns(): seq<Pattern> {
    [ Pattern(PrivateDebtPercent, false, NonFinancialSector, PercentageOfGdp),
      Pattern(PrivateDebt, true, NonFinancialSector, DomesticCurrency),
      Pattern(PrivateDebtUsd, true, NonFinancialSector, UsDollar),
      Pattern(PublicDebtPercent, false, GeneralGovernment, PercentageOfGdp),
      Pattern(PublicDebt, true, GeneralGovernment, DomesticCurrency),
      Pattern(PublicDebtUsd, true, GeneralGovernment, UsDollar),
      Pattern(HouseholdDebt, true, Households, DomesticCurrency),
      Pattern(HouseholdDebtPercent, false, Households, PercentageOfGdp),
      Pattern(HouseholdDebtUsd, true, Households, UsDollar) ]
  }

  /** No two patterns fill the same key. */
  predicate DistinctPatternKeys(pats: seq<Pattern>) {
    forall j, j' :: 0 <= j < j' < |pats| ==> pats[j].key != pats[j'].key
  }

  /**
   * The nine patterns fill nine different raw keys, and a column goes
   * through `toBillions` exactly when it is not a percentage of gdp.
   */
  lemma PatternsExtractionKeys()
    ensures |Patterns()| == 9 && DistinctPatternKeys(Patterns())
    ensures forall j :: 0 <= j < 9 ==> Patterns()[j].key != Times && !IsDerived(Patterns()[j].key)
    ensures forall j :: 0 <= j < 9 ==> (Patterns()[j].scaled <==> Patterns()[j].unit != PercentageOfGdp)
  {
  }

  // ------------------------------------------------------------ extraction

  /** A cell as stored: through `toBillions` for a scaled column, unchanged otherwise. */
  function Convert(scaled: bool, c: Cell): Value {
    if scaled then Billions(c) else Raw(c)
  }

  /** `getColValues(iCol)`, mapped through `toBillions` when scaled. */
  function ExtractColumn(sheet: Sheet, col: nat, scaled: bool): (r: Series)
    ensures |r| == DataRows(sheet)
  {
    var cells := ColValues(sheet, col);
    seq(|cells|, k requires 0 <= k < |cells| => Convert(scaled, cells[k]))
  }

  /** The column a pattern fills its key with, or `None` when no header matches. */
  function ColumnFor(sheet: Sheet, country: string, pat: Pattern): (r: Option<Series>)
    ensures r.Some? ==> |r.value| == DataRows(sheet)
  {
    match FindIColInHeader(sheet, Matches(country, pat))
    case None => None
    case Some(c) => Some(ExtractColumn(sheet, c, pat.scaled))
  }

  /** `_.map(getColValues(0), convertDateStrToInt)`. */
  function TimesColumn(sheet: Sheet): (r: Series)
    ensures |r| == DataRows(sheet)
  {
    var cells := ColValues(sheet, 0);
    seq(|cells|, k requires 0 <= k < |cells| => DecimalTime(cells[k]))
  }

  /**
   * The payload once the pattern loop has visited pats, given the column
   * each pattern finds: a property per matched header, in pattern order.
   */
  function Extracted(pats: seq<Pattern>, column: Pattern -> Option<Series>): Payload
    decreases |pats|
  {
    if pats == [] then []
    else
      var prev := Extracted(pats[..|pats| - 1], column);
      var pat := pats[|pats| - 1];
      if column(pat).None? then prev else prev + [Column(pat.key, column(pat).value)]
  }

  /**
   * The pattern loop fills each key at most once, and a key it fills
   * belongs to a pattern whose header was found, with that column.
   */
  lemma {:induction false} ExtractedKeys(pats: seq<Pattern>, column: Pattern -> Option<Series>)
    requires DistinctPatternKeys(pats)
    ensures var e := Extracted(pats, column);
            && DistinctKeys(e)
            && (forall m :: 0 <= m < |e| ==>
                  exists j :: 0 <= j < |pats| && e[m].key == pats[j].key && column(pats[j]) == Some(e[m].values))
    decreases |pats|
  {
    if pats != [] {
      var n := |pats|;
      var front := pats[..n - 1];
      var pat := pats[n - 1];
      assert forall j :: 0 <= j < n - 1 ==> front[j] == pats[j];
      ExtractedKeys(front, column);
      var prev := Extracted(front, column);
      forall m | 0 <= m < |prev|
        ensures prev[m].key != pat.key
      {
        var j :| 0 <= j < n - 1 && prev[m].key == front[j].key && column(front[j]) == Some(prev[m].values);
      }
    }
  }

  /**
   * Read as a record, the payload the pattern loop builds has a pattern's
   * key exactly when its header is found, holding that column.
   */
  lemma {:induction false} ExtractedRecord(pats: seq<Pattern>, column: Pattern -> Option<Series>)
    requires DistinctPatternKeys(pats)
    ensures forall j :: 0 <= j < |pats| ==> Get(ToRecord(Extracted(pats, column)), pats[j].key) == column(pats[j])
    decreases |pats|
  {
    if pats != [] {
      var n := |pats|;
      var front := pats[..n - 1];
      var pat := pats[n - 1];
      ExtractedRecord(front, column);
      var prev := Extracted(front, column);
      if column(pat).Some? {
        ToRecordSnoc(prev, Column(pat.key, column(pat).value));
      } else {
        assert forall j :: 0 <= j < n - 1 ==> front[j] == pats[j];
        ExtractedKeys(front, column);
        ToRecordKeys(prev, pat.key);
        if pat.key in ToRecord(prev) {
          assert false;
        }
      }
      var r := ToRecord(Extracted(pats, column));
      forall j | 0 <= j < n
        ensures Get(r, pats[j].key) == column(pats[j])
      {
        if j < n - 1 {
          assert front[j] == pats[j];
          assert pats[j].key != pat.key;
        }
      }
    }
  }

  /** What `findIColInHeader` and `getColValues` give each pattern of a country. */
  function ColumnsOf(sheet: Sheet, country: string): Pattern -> Option<Series> {
    pat => ColumnFor(sheet, country, pat)
  }

  /** The payload `getCountryData` prunes: the matched columns, then `times`. */
  function RawPayload(sheet: Sheet, country: string): Payload {
    Extracted(Patterns(), ColumnsOf(sheet, country)) + [Column(Times, TimesColumn(sheet))]
  }

  /** The object `getCountryData` returns: the raw payload, canonically pruned. */
  function CountryData(sheet: Sheet, country: string): Payload {
    Pruned(Canonical, RawPayload(sheet, country))
  }

  /** `getCountryData(country)`: the pattern loop, the time column, then `removeBlankValues`. */
  method GetCountryData(sheet: Sheet, country: string) returns (payload: Payload)
    ensures payload == CountryData(sheet, country)
  {
    var pats := Patterns();
    ghost var column := ColumnsOf(sheet, country);
    var result: Payload := [];
    var i := 0;
    while i < |pats|
      invariant 0 <= i <= |pats|
      invariant result == Extracted(pats[..i], column)
    {
      var pat := pats[i];
      assert pats[..i + 1][..i] == pats[..i];
      assert column(pat) == ColumnFor(sheet, country, pat);
      var col := FindIColInHeader(sheet, Matches(country, pat));
      if col.Some? {
        var values := ExtractColumn(sheet, col.value, pat.scaled);
        result := result + [Column(pat.key, values)];
      }
      i := i + 1;
    }
    assert pats[..i] == pats;
    result := result + [Column(Times, TimesColumn(sheet))];
    payload := RemoveBlankValues(result);
  }

  /**
   * The pattern loop's payload with a time column appended reads as an
   * aligned record when every found column is as long as the time column:
   * `times` holds that column and each pattern's key its found column.
   */
  lemma ExtractedWithTimes(pats: seq<Pattern>, column: Pattern -> Option<Series>, times: Series)
    requires DistinctPatternKeys(pats)
    requires forall j :: 0 <= j < |pats| ==> pats[j].key != Times
    requires forall j :: 0 <= j < |pats| && column(pats[j]).Some? ==> |column(pats[j]).value| == |times|
    ensures var r := ToRecord(Extracted(pats, column) + [Column(Times, times)]);
            && Aligned(r) && TimeCount(r) == |times| && Get(r, Times) == Some(times)
            && (forall j :: 0 <= j < |pats| ==> Get(r, pats[j].key) == column(pats[j]))
  {
    var e := Extracted(pats, column);
    var p := e + [Column(Times, times)];
    ExtractedRecord(pats, column);
    ExtractedKeys(pats, column);
    ToRecordSnoc(e, Column(Times, times));
    var r := ToRecord(p);
    forall j | 0 <= j < |pats|
      ensures Get(r, pats[j].key) == column(pats[j])
    {
      assert pats[j].key != Times;
    }
    forall m | 0 <= m < |p|
      ensures |p[m].values| == |times|
    {
      if m < |e| {
        var j :| 0 <= j < |pats| && e[m].key == pats[j].key && column(pats[j]) == Some(e[m].values);
      }
    }
    assert p[|p| - 1].key == Times;
    ToRecordAligned(p);
  }

  /** The pattern loop's payload with a time column appended has distinct keys, `times` last. */
  lemma ExtractedWithTimesKeys(pats: seq<Pattern>, column: Pattern -> Option<Series>, times: Series)
    requires DistinctPatternKeys(pats)
    requires forall j :: 0 <= j < |pats| ==> pats[j].key != Times
    ensures var p := Extracted(pats, column) + [Column(Times, times)];
            && |p| > 0 && p[|p| - 1].key == Times && DistinctKeys(p)
  {
    var e := Extracted(pats, column);
    ExtractedKeys(pats, column);
    forall m | 0 <= m < |e|
      ensures e[m].key != Times
    {
      var j :| 0 <= j < |pats| && e[m].key == pats[j].key && column(pats[j]) == Some(e[m].values);
    }
  }

  /** The raw payload has distinct keys, `times` last, and one entry per data row everywhere. */
  lemma RawPayloadShape(sheet: Sheet, country: string)
    ensures var p := RawPayload(sheet, country);
            && |p| > 0 && p[|p| - 1].key == Times && DistinctKeys(p)
            && (forall m :: 0 <= m < |p| ==> |p[m].values| == DataRows(sheet))
            && (forall m :: 0 <= m < |p| ==> !IsDerived(p[m].key))
  {
    var column := ColumnsOf(sheet, country);
    var pats := Patterns();
    PatternsExtractionKeys();
    ExtractedWithTimesKeys(pats, column, TimesColumn(sheet));
    ExtractedKeys(pats, column);
    var e := Extracted(pats, column);
    forall m | 0 <= m < |e|
      ensures |e[m].values| == DataRows(sheet) && !IsDerived(e[m].key)
    {
      var j :| 0 <= j < |pats| && e[m].key == pats[j].key && column(pats[j]) == Some(e[m].values);
      assert ColumnFor(sheet, country, pats[j]) == Some(e[m].values);
    }
  }


  /**
   * Before pruning, each of the nine keys holds the column of the first
   * header containing the country and the pattern's three phrases, through
   * `toBillions` for the scaled ones, or is absent when no header matches;
   * `times` holds the converted column 0. All are one entry per data row.
   */
  lemma RawRecord(sheet: Sheet, country: string)
    ensures var r := ToRecord(RawPayload(sheet, country));
            && Aligned(r) && TimeCount(r) == DataRows(sheet)
            && Get(r, Times) == Some(TimesColumn(sheet))
            && (forall j :: 0 <= j < |Patterns()| ==>
                  Get(r, Patterns()[j].key) == ColumnFor(sheet, country, Patterns()[j]))
  {
    PatternsExtractionKeys();
    ExtractedWithTimes(Patterns(), ColumnsOf(sheet, country), TimesColumn(sheet));
  }

  // ----------------------------------------------------------- getCountry

  /** The pruned payload read as a record: what `getCountry` adds to. */
  function BaseRecord(sheet: Sheet, country: string): Record {
    ToRecord(CountryData(sheet, country))
  }

  /** The record `getCountry` starts from is aligned and free of zeros. */
  lemma BaseRecordAligned(sheet: Sheet, country: string)
    ensures Aligned(BaseRecord(sheet, country)) && ZeroFree(BaseRecord(sheet, country))
  {
    RawPayloadShape(sheet, country);
    PrunedRecord(RawPayload(sheet, country));
  }

  /** Pruning keeps every key of the raw record, so the base record holds no derived key. */
  lemma BaseRecordKeys(sheet: Sheet, country: string)
    ensures forall k :: Present(BaseRecord(sheet, country), k) <==> Present(ToRecord(RawPayload(sheet, country)), k)
    ensures RawOnly(BaseRecord(sheet, country))
  {
    var p := RawPayload(sheet, country);
    RawPayloadShape(sheet, country);
    PrunedKeys(Canonical, p);
    ToRecordContents(p);
    ToRecordContents(CountryData(sheet, country));
    forall k | k in BaseRecord(sheet, country)
      ensures !IsDerived(k)
    {
      ToRecordKeys(p, k);
    }
  }

  /** The base record's time axis has one point per row pruning kept. */
  lemma BaseTimeCount(sheet: Sheet, country: string)
    ensures var p := RawPayload(sheet, country);
            TimeCount(BaseRecord(sheet, country)) == |KeptRows(Canonical, p, RowCount(p))|
  {
    var p := RawPayload(sheet, country);
    var q := CountryData(sheet, country);
    RawPayloadShape(sheet, country);
    PrunedKeys(Canonical, p);
    PrunedUpToShape(Canonical, p, RowCount(p));
    assert DistinctKeys(q);
    ToRecordAt(q, |q| - 1);
  }

  /**
   * The record `getCountry` starts from is aligned and free of zeros, holds
   * no derived key, and has a pattern's key exactly when a header matches;
   * its time axis has one point per row pruning kept.
   */
  lemma BaseRecordShape(sheet: Sheet, country: string)
    ensures var base := BaseRecord(sheet, country);
            var p := RawPayload(sheet, country);
            && Aligned(base) && ZeroFree(base) && RawOnly(base)
            && TimeCount(base) == |KeptRows(Canonical, p, RowCount(p))|
            && (forall j :: 0 <= j < |Patterns()| ==>
                  (Present(base, Patterns()[j].key) <==> FindIColInHeader(sheet, Matches(country, Patterns()[j])).Some?))
  {
    BaseRecordAligned(sheet, country);
    BaseRecordKeys(sheet, country);
    BaseTimeCount(sheet, country);
    RawRecord(sheet, country);
  }

  /**
   * A value the record keeps is the one extracted for its key at the kept
   * row, 0 turned into null: for a matched pattern, the m-th entry is the
   * scaled or raw cell of the row pruning kept m-th.
   */
  lemma BaseRecordValues(sheet: Sheet, country: string, j: nat, m: nat)
    requires j < |Patterns()|
    requires ColumnFor(sheet, country, Patterns()[j]).Some?
    requires m < TimeCount(BaseRecord(sheet, country))
    ensures var pat := Patterns()[j];
            var p := RawPayload(sheet, country);
            var rows := KeptRows(Canonical, p, RowCount(p));
            var col := ColumnFor(sheet, country, pat).value;
            && Present(BaseRecord(sheet, country), pat.key)
            && m < |rows| && rows[m] < |col| && m < |Get(BaseRecord(sheet, country), pat.key).value|
            && Get(BaseRecord(sheet, country), pat.key).value[m] == ZeroToNull(col[rows[m]])
  {
    var pat := Patterns()[j];
    var p := RawPayload(sheet, country);
    BaseTimeCount(sheet, country);
    RawPayloadShape(sheet, country);
    RawRecord(sheet, country);
    KeptRowsExactly(Canonical, p, RowCount(p));
    ToRecordKeys(p, pat.key);
    var i :| 0 <= i < |p| && p[i].key == pat.key;
    ToRecordAt(p, i);
    PrunedRecordAt(p, i, m);
  }

  /**
   * `getCountry(country)`: `{}` when pruning left no time point, otherwise
   * the pruned record with the eleven derived keys.
   */
  function CountryRecord(sheet: Sheet, country: string): Record {
    var base := BaseRecord(sheet, country);
    if TimeCount(base) == 0 then map[] else WithDerived(base)
  }

  /** `getCountry(country)`. */
  method GetCountry(sheet: Sheet, country: string) returns (r: Record)
    ensures r == CountryRecord(sheet, country)
  {
    var payload := GetCountryData(sheet, country);
    var data := ToRecord(payload);
    if TimeCount(data) == 0 {
      return map[];
    }
    r := AddDerived(data);
  }

  /**
   * `getCountry` returns `{}` exactly when pruning kept no time point;
   * otherwise the record is aligned, every derived key is set, and every
   * key reads as the spreadsheet formulas over the pruned record.
   */
  lemma CountryRecordShape(sheet: Sheet, country: string)
    ensures var out := CountryRecord(sheet, country);
            var base := BaseRecord(sheet, country);
            && (out == map[] <==> TimeCount(base) == 0)
            && (out != map[] ==>
                  && Aligned(out) && out[Times] == base[Times] && TimeCount(out) > 0
                  && (forall k :: IsDerived(k) ==> k in out)
                  && ReadsAsFormulas(Spreadsheet, base, out))
  {
    var base := BaseRecord(sheet, country);
    BaseRecordAligned(sheet, country);
    if TimeCount(base) > 0 {
      DerivedFormulas(Spreadsheet, base);
      RunAligned(Spreadsheet, base, StepCount(Spreadsheet));
      var out := WithDerived(base);
      forall k | IsDerived(k)
        ensures k in out
      {
        assert Lookup(out, k) == Assigned(Spreadsheet, base, k);
      }
      assert CommercialDebt in out;
    }
  }

  // ----------------------------------------------------- getDebtByCountry

  /**
   * The result object of a run over the listed countries, given what each
   * country yields: its record, or `None` when the run skips it.
   */
  function DebtFrom(names: seq<string>, entry: string -> Option<Record>): map<string, Record>
    decreases |names|
  {
    if names == [] then map[]
    else
      var prev := DebtFrom(names[..|names| - 1], entry);
      var c := names[|names| - 1];
      if entry(c).None? then prev else prev[c := entry(c).value]
  }

  /**
   * Every listed country that is not skipped maps to its record, and
   * nothing else is in the result.
   */
  lemma {:induction false} DebtFromContents(names: seq<string>, entry: string -> Option<Record>)
    ensures var result := DebtFrom(names, entry);
            && (forall c :: c in result <==> c in names && entry(c).Some?)
            && (forall c :: c in result ==> entry(c) == Some(result[c]))
    decreases |names|
  {
    if names != [] {
      var front := names[..|names| - 1];
      DebtFromContents(front, entry);
      assert names == front + [names[|names| - 1]];
    }
  }

  /**
   * The key order of the result object: a key takes its place when it is
   * first assigned, and assigning it again keeps that place. The keys are
   * the stored countries, in the order of their first listing.
   */
  function DebtKeys(names: seq<string>, entry: string -> Option<Record>): (r: seq<string>)
    ensures Distinct(r)
    ensures forall c :: c in r <==> c in names && entry(c).Some?
    ensures forall i, j :: 0 <= i < j < |r| ==> FirstIndex(names, r[i]) < FirstIndex(names, r[j])
    decreases |names|
  {
    if names == [] then []
    else
      var prefix, c := names[..|names| - 1], names[|names| - 1];
      assert names == prefix + [c];
      var prev := DebtKeys(prefix, entry);
      FirstIndexSnoc(prefix, c);
      if entry(c).None? || c in prev then prev else prev + [c]
  }

  /**
   * One pass of the loop over the names: the i-th name is stored unless it
   * is skipped, and becomes the last key unless it already is a key.
   */
  lemma DebtStep(names: seq<string>, i: nat, entry: string -> Option<Record>)
    requires i < |names|
    ensures var c, prev, keys := names[i], DebtFrom(names[..i], entry), DebtKeys(names[..i], entry);
            && DebtFrom(names[..i + 1], entry) == (if entry(c).None? then prev else prev[c := entry(c).value])
            && DebtKeys(names[..i + 1], entry) == (if entry(c).None? || c in keys then keys else keys + [c])
  {
    assert names[..i + 1][..i] == names[..i];
  }

  /** The keys of the object are exactly the keys of the result. */
  lemma DebtKeysOfResult(names: seq<string>, entry: string -> Option<Record>)
    ensures forall c :: c in DebtKeys(names, entry) <==> c in DebtFrom(names, entry)
  {
    DebtFromContents(names, entry);
  }

  /** Over a strictly sorted list the object's keys come out strictly sorted. */
  lemma SortedDebtKeys(names: seq<string>, entry: string -> Option<Record>)
    requires StrictlySorted(names)
    ensures StrictlySorted(DebtKeys(names, entry))
  {
    var r := DebtKeys(names, entry);
    forall i, j | 0 <= i < j < |r|
      ensures Less(r[i], r[j])
    {
      var a, b := FirstIndex(names, r[i]), FirstIndex(names, r[j]);
      assert names[a] == r[i] && names[b] == r[j];
    }
  }

  /** When no country is skipped, the object's keys are the list itself. */
  lemma {:induction false} AllDebtKeys(names: seq<string>, entry: string -> Option<Record>)
    requires Distinct(names) && forall c :: c in names ==> entry(c).Some?
    ensures DebtKeys(names, entry) == names
    decreases |names|
  {
    if names != [] {
      var prefix, c := names[..|names| - 1], names[|names| - 1];
      assert names == prefix + [c];
      AllDebtKeys(prefix, entry);
      assert c !in prefix by {
        forall k | 0 <= k < |prefix|
          ensures prefix[k] != c
        {
          assert prefix[k] == names[k];
        }
      }
    }
  }

  /**
   * `result[c] = x` on an object with key order `keys`: a new key goes
   * last, an existing one keeps its place.
   */
  method SetKey(result: map<string, Record>, keys: seq<string>, c: string, x: Record)
    returns (result': map<string, Record>, keys': seq<string>)
    ensures result' == result[c := x]
    ensures keys' == if c in keys then keys else keys + [c]
  {
    result', keys' := result[c := x], keys;
    if c !in keys {
      keys' := keys + [c];
    }
  }

  /**
   * The loop over the country list: what each country yields is stored
   * unless it is skipped; `keys` is the key order of the object built.
   */
  method FillDebt(names: seq<string>, entry: string -> Option<Record>)
    returns (result: map<string, Record>, keys: seq<string>)
    ensures result == DebtFrom(names, entry)
    ensures keys == DebtKeys(names, entry)
  {
    result, keys := map[], [];
    var i := 0;
    while i < |names|
      invariant 0 <= i <= |names|
      invariant result == DebtFrom(names[..i], entry)
      invariant keys == DebtKeys(names[..i], entry)
    {
      var c := names[i];
      DebtStep(names, i, entry);
      var x := entry(c);
      if x.Some? {
        result, keys := SetKey(result, keys, c, x.value);
      }
      i := i + 1;
    }
    assert names[..i] == names;
  }

  /** `if (_.isEmpty(x)) continue`: a `{}` record is skipped. */
  function SkipEmpty(x: Record): Option<Record> {
    if x == map[] then None else Some(x)
  }

  /** Each country's record, `{}` skipped. */
  function SkippingEmpty(record: string -> Record): string -> Option<Record> {
    c => SkipEmpty(record(c))
  }

  /** Each country's record, `{}` kept. */
  function KeepingAll(record: string -> Record): string -> Option<Record> {
    c => Some(record(c))
  }

  /** With `{}` skipped, the listed countries with a non-empty record map to it, and nothing else is stored. */
  lemma SkippingEmptyContents(names: seq<string>, record: string -> Record)
    ensures var result := DebtFrom(names, SkippingEmpty(record));
            && (forall c :: c in result <==> c in names && record(c) != map[])
            && (forall c :: c in result ==> result[c] == record(c))
  {
    DebtFromContents(names, SkippingEmpty(record));
  }

  /** With nothing skipped, every listed country maps to its record, `{}` included. */
  lemma KeepingAllContents(names: seq<string>, record: string -> Record)
    ensures var result := DebtFrom(names, KeepingAll(record));
            && (forall c :: c in result <==> c in names)
            && (forall c :: c in result ==> result[c] == record(c))
  {
    DebtFromContents(names, KeepingAll(record));
  }

  /** `getCountry` as a function of the country name. */
  function CountryRecords(sheet: Sheet): string -> Record {
    c => CountryRecord(sheet, c)
  }

  /** fetch-data.js: each country's `getCountry` record, `{}` skipped. */
  function CountryEntries(sheet: Sheet): string -> Option<Record> {
    SkippingEmpty(CountryRecords(sheet))
  }

  /** fetch-data.cjs: each country's `getCountry` record, `{}` kept. */
  function AllCountryEntries(sheet: Sheet): string -> Option<Record> {
    KeepingAll(CountryRecords(sheet))
  }

  /** The country names in the headers: `_.trim(c.split('-')[0])` of columns 1 on. */
  function Countries(sheet: Sheet): Option<seq<string>> {
    CountryParts(Headers(sheet))
  }

  /** `getDebtByCountry` of fetch-data.js: sorted unique countries, empty records skipped. */
  function DebtByCountry(sheet: Sheet): Option<map<string, Record>> {
    match Countries(sheet)
    case None => None
    case Some(names) => Some(DebtFrom(SortedUnique(names), CountryEntries(sheet)))
  }

  /** `getDebtByCountry` of fetch-data.cjs: `getCountries` is `_.uniq`, unsorted, and nothing is skipped. */
  function DebtByCountryUnsorted(sheet: Sheet): Option<map<string, Record>> {
    match Countries(sheet)
    case None => None
    case Some(names) => Some(DebtFrom(Uniq(names), AllCountryEntries(sheet)))
  }

  /** The key order of the object fetch-data.js builds. */
  function DebtByCountryKeys(sheet: Sheet): seq<string> {
    match Countries(sheet)
    case None => []
    case Some(names) => DebtKeys(SortedUnique(names), CountryEntries(sheet))
  }

  /** The key order of the object fetch-data.cjs builds from the sheet. */
  function DebtByCountryUnsortedKeys(sheet: Sheet): seq<string> {
    match Countries(sheet)
    case None => []
    case Some(names) => DebtKeys(Uniq(names), AllCountryEntries(sheet))
  }

  /**
   * `getDebtByCountry(xlsxFname)` of fetch-data.js on the parsed sheet; a
   * header that is not a string makes `split` throw, the `None` result.
   * `keys` is the key order of the object.
   */
  method GetDebtByCountry(sheet: Sheet) returns (result: Option<map<string, Record>>, keys: seq<string>)
    ensures result == DebtByCountry(sheet)
    ensures keys == DebtByCountryKeys(sheet)
  {
    var names := Countries(sheet);
    if names.None? {
      return None, [];
    }
    var m, k := FillDebt(SortedUnique(names.value), CountryEntries(sheet));
    return Some(m), k;
  }

  /** `getDebtByCountry(xlsxFname)` of fetch-data.cjs on the parsed sheet, with its key order. */
  method GetDebtByCountryUnsorted(sheet: Sheet) returns (result: Option<map<string, Record>>, keys: seq<string>)
    ensures result == DebtByCountryUnsorted(sheet)
    ensures keys == DebtByCountryUnsortedKeys(sheet)
  {
    var names := Countries(sheet);
    if names.None? {
      return None, [];
    }
    var m, k := FillDebt(Uniq(names.value), AllCountryEntries(sheet));
    return Some(m), k;
  }

  /**
   * fetch-data.js fails exactly when some header past column 0 is not a
   * string (its `split` throws), and otherwise maps exactly the header
   * prefixes whose record is not `{}` to those records, its keys in
   * ascending order.
   */
  lemma DebtByCountryContents(sheet: Sheet)
    ensures DebtByCountry(sheet).Some? <==> forall k :: 0 <= k < |Headers(sheet)| ==> Headers(sheet)[k].Str?
    ensures DebtByCountry(sheet).Some? ==>
              var names, result := Countries(sheet).value, DebtByCountry(sheet).value;
              && (forall c :: c in result <==> c in names && CountryRecord(sheet, c) != map[])
              && (forall c :: c in result ==> result[c] == CountryRecord(sheet, c))
    ensures DebtByCountry(sheet).Some? ==>
              && StrictlySorted(DebtByCountryKeys(sheet))
              && forall c :: c in DebtByCountryKeys(sheet) <==> c in DebtByCountry(sheet).value
  {
    if Countries(sheet).Some? {
      var names := Countries(sheet).value;
      SkippingEmptyContents(SortedUnique(names), CountryRecords(sheet));
      DebtKeysOfResult(SortedUnique(names), CountryEntries(sheet));
      SortedDebtKeys(SortedUnique(names), CountryEntries(sheet));
    }
  }

  /**
   * The fetch-data.cjs spreadsheet branch fails exactly when fetch-data.js
   * does, and otherwise maps every header prefix to its record, `{}`
   * included, its keys in the order `_.uniq` lists the prefixes.
   */
  lemma DebtByCountryUnsortedContents(sheet: Sheet)
    ensures DebtByCountryUnsorted(sheet).Some? <==> DebtByCountry(sheet).Some?
    ensures DebtByCountryUnsorted(sheet).Some? ==>
              var names, result := Countries(sheet).value, DebtByCountryUnsorted(sheet).value;
              && (forall c :: c in result <==> c in names)
              && (forall c :: c in result ==> result[c] == CountryRecord(sheet, c))
    ensures DebtByCountryUnsorted(sheet).Some? ==>
              DebtByCountryUnsortedKeys(sheet) == Uniq(Countries(sheet).value)
  {
    if Countries(sheet).Some? {
      var names := Countries(sheet).value;
      KeepingAllContents(Uniq(names), CountryRecords(sheet));
      AllDebtKeys(Uniq(names), AllCountryEntries(sheet));
    }
  }
}

=== FILE: text.dfy ===
/**
 * The string helpers the scripts borrow from lodash and the JavaScript
 * runtime: substring search (`_.includes` on a string), `_.trim`,
 * `s.split('-')[0]`, `_.uniq` and `_.sortBy` on strings.
 */
module Text {

  // ------------------------------------------------------------ substrings

  /** `s.indexOf(p) !== -1`: p occurs in s at some position. */
  predicate Contains(s: string, p: string) {
    exists i :: 0 <= i <= |s| - |p| && p <= s[i..]
  }

  /** The empty pattern occurs in every string. */
  lemma ContainsEmpty(s: string)
    ensures Contains(s, [])
  {
    assert [] <= s[0..];
  }

  // ----------------------------------------------------------------- trim

  /** The characters JavaScript's `\s` matches, which `_.trim` strips. */
  predicate IsWhitespace(c: char) {
    || c == ' ' || c == '\t' || c == '\n' || c == '\U{000B}' || c == '\U{000C}' || c == '\r'
    || c == '\U{00A0}' || c == '\U{1680}' || ('\U{2000}' <= c <= '\U{200A}')
    || c == '\U{2028}' || c == '\U{2029}' || c == '\U{202F}' || c == '\U{205F}'
    || c == '\U{3000}' || c == '\U{FEFF}'
  }

  /** Leading whitespace removed. */
  function TrimStart(s: string): (r: string)
    ensures |r| <= |s| && r == s[|s| - |r|..]
    ensures r == [] || !IsWhitespace(r[0])
    ensures forall i :: 0 <= i < |s| - |r| ==> IsWhitespace(s[i])
  {
    if s != [] && IsWhitespace(s[0]) then TrimStart(s[1..]) else s
  }

  /** Trailing whitespace removed. */
  function TrimEnd(s: string): (r: string)
    ensures |r| <= |s| && r == s[..|r|]
    ensures r == [] || !IsWhitespace(r[|r| - 1])
    ensures forall i :: |r| <= i < |s| ==> IsWhitespace(s[i])
  {
    if s != [] && IsWhitespace(s[|s| - 1]) then TrimEnd(s[..|s| - 1]) else s
  }

  /** `_.trim(s)`. */
  function Trim(s: string): string {
    TrimStart(TrimEnd(s))
  }

  /** r is the slice s[a..b], and only whitespace lies outside it. */
  predicate WhitespaceAround(s: string, r: string, a: nat, b: nat) {
    && a <= b <= |s| && r == s[a..b]
    && (forall i :: 0 <= i < a ==> IsWhitespace(s[i]))
    && (forall i :: b <= i < |s| ==> IsWhitespace(s[i]))
  }

  /**
   * The trimmed string is the slice of s between its leading and its
   * trailing whitespace: it neither starts nor ends with whitespace, and
   * everything cut away on either side is whitespace.
   */
  lemma TrimSlice(s: string)
    ensures exists a, b :: WhitespaceAround(s, Trim(s), a, b)
    ensures Trim(s) == [] || (!IsWhitespace(Trim(s)[0]) && !IsWhitespace(Trim(s)[|Trim(s)| - 1]))
  {
    var e := TrimEnd(s);
    var r := TrimStart(e);
    var a: nat, b: nat := |e| - |r|, |e|;
    assert e == s[..b] && r == e[a..];
    assert r == s[a..b];
    forall i | 0 <= i < a
      ensures IsWhitespace(s[i])
    {
      assert s[i] == e[i];
    }
    assert WhitespaceAround(s, Trim(s), a, b);
    if r != [] {
      assert r[|r| - 1] == e[|e| - 1];
    }
  }

  // ---------------------------------------------------------------- split

  /** `s.split('-')[0]`: everything before the first '-', or all of s. */
  function BeforeDash(s: string): (r: string)
    ensures r <= s
    ensures '-' !in r
    ensures r == s || s[|r|] == '-'
  {
    if s == [] || s[0] == '-' then [] else [s[0]] + BeforeDash(s[1..])
  }

  /** `_.trim(c.split('-')[0])`: the country part of a column header. */
  function CountryPart(header: string): string {
    Trim(BeforeDash(header))
  }

  // ---------------------------------------------------------------- order

  /**
   * The order `_.sortBy` puts strings in: lexicographic by character. The
   * characters are code points; JavaScript compares UTF-16 code units, which
   * differs only for a character above U+FFFF against one in U+E000..U+FFFF.
   */
  predicate Less(a: string, b: string) {
    if a == [] then b != []
    else if b == [] then false
    else a[0] < b[0] || (a[0] == b[0] && Less(a[1..], b[1..]))
  }

  lemma LessIrreflexive(a: string)
    ensures !Less(a, a)
  {
  }

  lemma LessAsymmetric(a: string, b: string)
    ensures Less(a, b) ==> !Less(b, a)
  {
  }

  lemma LessTotal(a: string, b: string)
    ensures a == b || Less(a, b) || Less(b, a)
  {
    if a != [] && b != [] && a[0] == b[0] {
      LessTotal(a[1..], b[1..]);
      if a[1..] == b[1..] {
        assert a == [a[0]] + a[1..] && b == [b[0]] + b[1..];
      }
    }
  }

  /** Every pair of entries is in strictly ascending order. */
  predicate StrictlySorted(xs: seq<string>) {
    forall i, j :: 0 <= i < j < |xs| ==> Less(xs[i], xs[j])
  }

  /** No string occurs twice. */
  predicate Distinct(xs: seq<string>) {
    forall i, j :: 0 <= i < j < |xs| ==> xs[i] != xs[j]
  }

  /** x added to a strictly sorted list, unless it is there already. */
  function Insert(x: string, xs: seq<string>): (r: seq<string>)
    requires StrictlySorted(xs)
    ensures forall y :: y in r <==> y == x || y in xs
    ensures StrictlySorted(r)
  {
    if xs == [] then [x]
    else if x == xs[0] then xs
    else if Less(x, xs[0]) then
      assert forall j :: 0 < j < |xs| ==> Less(xs[0], xs[j]);
      LessTransitiveFrom(x, xs);
      [x] + xs
    else
      LessTotal(x, xs[0]);
      var rest := Insert(x, xs[1..]);
      forall k | 0 <= k < |rest|
        ensures Less(xs[0], rest[k])
      {
        assert rest[k] in rest;
        if rest[k] != x {
          var j :| 1 <= j < |xs| && xs[j] == rest[k];
        }
      }
      [xs[0]] + rest
  }

  /** A string below the head of a sorted list is below all of it. */
  lemma LessTransitiveFrom(x: string, xs: seq<string>)
    requires xs != [] && StrictlySorted(xs) && Less(x, xs[0])
    ensures forall j :: 0 <= j < |xs| ==> Less(x, xs[j])
  {
    forall j | 0 < j < |xs|
      ensures Less(x, xs[j])
    {
      LessTransitive(x, xs[0], xs[j]);
    }
  }

  lemma LessTransitive(a: string, b: string, c: string)
    requires Less(a, b) && Less(b, c)
    ensures Less(a, c)
  {
    if a != [] && b != [] && c != [] && a[0] == b[0] && b[0] == c[0] {
      LessTransitive(a[1..], b[1..], c[1..]);
    }
  }

  /** `_.sortBy(_.uniq(xs))`: the distinct strings of xs in ascending order. */
  function SortedUnique(xs: seq<string>): (r: seq<string>)
    ensures StrictlySorted(r)
    ensures forall y :: y in r <==> y in xs
  {
    if xs == [] then []
    else
      var prefix := xs[..|xs| - 1];
      assert xs == prefix + [xs[|xs| - 1]];
      Insert(xs[|xs| - 1], SortedUnique(prefix))
  }

  /**
   * A strictly sorted list is determined by its elements: whatever order
   * the input came in, the sorted unique list is the same.
   */
  lemma {:induction false} SortedListUnique(a: seq<string>, b: seq<string>)
    requires StrictlySorted(a) && StrictlySorted(b)
    requires forall y :: y in a <==> y in b
    ensures a == b
    decreases |a|
  {
    assert b != [] ==> b[0] in a;
    if a != [] {
      assert b != [] by { assert a[0] in b; }
      assert b[0] in a && a[0] in b;
      var i :| 0 <= i < |a| && a[i] == b[0];
      var j :| 0 <= j < |b| && b[j] == a[0];
      if i > 0 {
        assert Less(a[0], a[i]);
        if j > 0 {
          assert Less(b[0], b[j]);
          LessAsymmetric(a[0], b[0]);
        } else {
          LessIrreflexive(a[0]);
        }
      }
      assert a[0] == b[0];
      forall y
        ensures y in a[1..] <==> y in b[1..]
      {
        if y in a[1..] {
          var k :| 1 <= k < |a| && a[k] == y;
          assert Less(a[0], y);
          LessIrreflexive(y);
          assert y in b;
        }
        if y in b[1..] {
          var k :| 1 <= k < |b| && b[k] == y;
          assert Less(b[0], y);
          LessIrreflexive(y);
          assert y in a;
        }
      }
      SortedListUnique(a[1..], b[1..]);
      assert a == [a[0]] + a[1..] && b == [b[0]] + b[1..];
    }
  }

  /** `xs.indexOf(y)`: the position of the first occurrence of `y`. */
  function FirstIndex(xs: seq<string>, y: string): (k: nat)
    requires y in xs
    ensures k < |xs| && xs[k] == y
    ensures forall i :: 0 <= i < k ==> xs[i] != y
  {
    if xs[0] == y then 0 else 1 + FirstIndex(xs[1..], y)
  }

  /** Appending a string moves no first occurrence; a new string is first seen at the end. */
  lemma FirstIndexSnoc(prefix: seq<string>, last: string)
    ensures forall y :: y in prefix ==> FirstIndex(prefix + [last], y) == FirstIndex(prefix, y)
    ensures last !in prefix ==> FirstIndex(prefix + [last], last) == |prefix|
  {
    var xs := prefix + [last];
    forall y | y in prefix
      ensures FirstIndex(xs, y) == FirstIndex(prefix, y)
    {
      var k1, k2 := FirstIndex(xs, y), FirstIndex(prefix, y);
      assert xs[k2] == y;
    }
  }

  /** `_.uniq(xs)`: the first occurrence of each string, in input order. */
  function Uniq(xs: seq<string>): (r: seq<string>)
    ensures Distinct(r)
    ensures forall y :: y in r <==> y in xs
    ensures forall i, j :: 0 <= i < j < |r| ==> FirstIndex(xs, r[i]) < FirstIndex(xs, r[j])
  {
    if xs == [] then []
    else
      var prefix := xs[..|xs| - 1];
      var last := xs[|xs| - 1];
      assert xs == prefix + [last];
      var p := Uniq(prefix);
      FirstIndexSnoc(prefix, last);
      if last in p then p else p + [last]
  }
}

=== FILE: values.dfy ===
/**
 * Nullable numbers and time series.
 *
 * A value read from a spreadsheet, a CSV field or a JSON array is either a
 * number or missing (JavaScript `null` or `undefined`, both caught by
 * `_.isNil`). Numbers are exact reals: floating-point rounding is not modelled.
 */
module Values {

  datatype Option<+T> = None | Some(value: T)

  /** A number that may be missing. */
  type Value = Option<real>

  /** One metric over the time axis: entry i belongs to time point i. */
  type Series = seq<Value>

  function Max(a: int, b: int): int { if a < b then b else a }

  function Min(a: int, b: int): int { if a < b then a else b }

  /** Entry i of a series; reading past the end gives `undefined`, i.e. missing. */
  function At(s: Series, i: nat): (v: Value)
    ensures i >= |s| ==> v.None?
  {
    if i < |s| then s[i] else None
  }

  /**
   * lodash `_.range(start, end)`: the step is 1 when start < end and -1
   * otherwise, so a range whose end lies below its start counts down, and
   * `_.range(n, n)` is empty.
   */
  function Range(start: nat, end: nat): (r: seq<nat>)
    ensures |r| == if start <= end then end - start else start - end
    ensures start <= end ==> forall k :: 0 <= k < |r| ==> r[k] == start + k
    ensures end < start ==> forall k :: 0 <= k < |r| ==> r[k] == start - k && r[k] > end
  {
    if start <= end then seq(end - start, k requires 0 <= k => start + k)
    else seq(start - end, k requires 0 <= k < start - end => start - k)
  }

  /** `_.isNil(v) || v === 0`: the test removeBlankValues applies to a value. */
  predicate IsBlank(v: Value) {
    v.None? || v == Some(0.0)
  }

  /** `if (value === 0) value = null`. */
  function ZeroToNull(v: Value): (r: Value)
    ensures r != Some(0.0)
    ensures v != Some(0.0) ==> r == v
  {
    if v == Some(0.0) then None else v
  }

  /** No entry of the series is the number 0. */
  predicate NoZeros(s: Series) {
    forall i :: 0 <= i < |s| ==> s[i] != Some(0.0)
  }

  /** No entry of the series is missing. */
  predicate NoNulls(s: Series) {
    forall i :: 0 <= i < |s| ==> s[i].Some?
  }

  /** `_.map(xs, t => c)`: a constant series as long as `xs`. */
  function Constant(c: real, n: nat): (r: Series)
    ensures |r| == n
    ensures forall i :: 0 <= i < n ==> r[i] == Some(c)
  {
    seq(n, _ => Some(c))
  }
}
